=== FILE: README.md ===
# vision-infra core, modelled in Dafny

This project models the sequential logic of the vision-infra C++ library and
proves what that logic promises. The library is a support layer for computer-vision
inference applications. It covers four areas:

- **Logging.** There are six log levels. A `Logger` keeps a level threshold, a
  console flag, a timestamp flag, a line pattern with `{timestamp}`, `{level}`,
  `{name}` and `{message}` tokens, and an optional output file. `LoggerManager`
  holds the process-wide registry of named loggers, the default logger and the
  global level.
- **Configuration.** `InferenceConfig` is the record an inference client is
  configured with. It has member defaults, `IsValid`, the ordered
  `GetValidationErrors` report and a map of custom parameters. `ConfigManager`
  adds the field-by-field `Merge` of two configurations, the default validator
  and the default loader. The loader reads `INFERENCE_*` environment variables,
  has a file source that is not implemented, and creates the default
  configuration.
- **Utilities.**
  - The `StringUtils` functions: both `Split`s, `Join`, `Trim`, case mapping,
    `StartsWith`/`EndsWith` and `Replace`.
  - The `InputParser` list parsers, including the `"1,3,224,224;…"` input-size
    notation.
  - The ring-buffer index logic of `FPSCounter`.
  - `MemoryUtils`: the tensor byte count and the unit choice of `FormatBytes`.
- **File classification.** `FileSystem::GetFileExtension` follows
  `std::filesystem::path::extension`. On top of it, `FileSystemUtils` does a
  case-insensitive lookup of image, video and model extensions.

The model is functional. Each component is an immutable datatype with pure
functions over it:

- A logger is a record, and `Log` returns the lines it emits as a trace of
  console/file events.
- The registry keeps every logger in an arena and hands out indices, so "the same
  `shared_ptr`" is "the same handle".
- An exception is a `Failure` of a `Result`.
- `size_t` wrap-around is written out modulo 2^64, and `int` members are a 32-bit
  subtype.
- The `float` members are their IEEE-754 bit patterns: the library only copies
  them or compares them with `1.0f`.

Modules: `Wrappers` (Option/Result), `SizeArithmetic` (`size_t`), `StringUtils`, `InputParser`, `FpsCounter`,
`MemoryUtils`, `FileSystem`, `Logging`, `LoggerManager`, `Config`, `ConfigManager`.

The source's own header declares the `InferenceConfig` members only up to the
logging ones. `ConfigManager.cpp` also reads and writes eight multimodal members
(a flag, three texts, a combination mode and three weights). The record has them,
with the defaults the environment loader falls back to: `false`, `""`, `"concat"`
and `1.0`.

## Model

| member | source | states |
|---|---|---|
| StringUtils.FindSpec | src/utils/VisionUtils.cpp:27 | `find` returns the first occurrence at or after the start position, and `npos` only when there is none |
| StringUtils.SplitOn | src/utils/VisionUtils.cpp:23-34 | splitting by a non-empty string gives at least one piece, and a text without the delimiter is its only piece |
| StringUtils.SplitOnSound | src/utils/VisionUtils.cpp:23-34 | splitting by a non-empty string gives at least one piece; the pieces rejoined with the delimiter are the input; no piece contains the delimiter |
| StringUtils.SplitOnCharCount | src/utils/VisionUtils.cpp:23-34 | a one-character delimiter gives one more piece than it has occurrences |
| StringUtils.SplitOnJoin | src/utils/VisionUtils.cpp:23-44 | for a one-character delimiter, splitting the join of parts free of that character gives the parts back |
| StringUtils.SplitOnEmptyDelimiterNeverExits | src/utils/VisionUtils.cpp:27-30 | with an empty delimiter, `find` always succeeds at the current position and the position does not advance, so the loop never exits |
| StringUtils.Split | src/utils/VisionUtils.cpp:13-21 | `getline` splitting gives no token exactly for the empty input |
| StringUtils.SplitIsSplitOnWithoutTrailingEmpty | src/utils/VisionUtils.cpp:13-21 | character splitting is string splitting with a single trailing empty piece dropped; leading and middle empty pieces stay |
| StringUtils.SplitCharFromPiecesFree | src/utils/VisionUtils.cpp:13-21 | no token of a character split contains the delimiter |
| StringUtils.SplitJoin | src/utils/VisionUtils.cpp:13-44 | for delimiter-free parts whose last part is not empty, `Split(Join(parts, d), d) == parts` |
| StringUtils.SplitExample | src/utils/VisionUtils.cpp:13-21 | `"a,b,c,d"` splits into `a`, `b`, `c`, `d` |
| StringUtils.Join | src/utils/VisionUtils.cpp:36-44 | joining no strings gives the empty string |
| StringUtils.JoinCons | src/utils/VisionUtils.cpp:36-44 | a join is the first string, the delimiter, then the join of the rest |
| StringUtils.JoinSnoc | src/utils/VisionUtils.cpp:36-44 | a join grows by the delimiter and the new last string |
| StringUtils.ToLower | src/utils/VisionUtils.cpp:46-51 | same length; exactly the ASCII capitals move down by 32; no capital remains |
| StringUtils.ToUpper | src/utils/VisionUtils.cpp:53-58 | same length; exactly the ASCII small letters move up by 32; no small letter remains |
| StringUtils.LowerAbsorbs | src/utils/VisionUtils.cpp:46-58 | lower-casing is idempotent and erases a previous upper-casing |
| StringUtils.Trim | src/utils/VisionUtils.cpp:60-67 | the result is empty exactly for all-whitespace input, otherwise starts and ends with non-whitespace, and is a contiguous substring of the input |
| StringUtils.TrimIdempotent | src/utils/VisionUtils.cpp:60-67 | trimming twice is trimming once |
| StringUtils.TrimSurrounded | src/utils/VisionUtils.cpp:60-67 | whitespace of the six kinds around a text is removed and the text kept |
| StringUtils.TrimExample | src/utils/VisionUtils.cpp:60-67 | `"  hello world  "` trims to `hello world`, as in the unit test |
| StringUtils.StartsWith | src/utils/VisionUtils.cpp:69-71 | true exactly when the argument is a prefix |
| StringUtils.EndsWith | src/utils/VisionUtils.cpp:73-76 | true exactly when the argument is a suffix |
| StringUtils.PrefixSuffixAccepted | src/utils/VisionUtils.cpp:69-76 | every prefix and suffix is accepted, the empty one included |
| StringUtils.Replace | src/utils/VisionUtils.cpp:78-86 | the in-place loop computes the left-to-right replacement of every occurrence in the original text, without rescanning inserted text; without an occurrence the input comes back unchanged |
| StringUtils.ReplaceIsJoinOfSplit | src/utils/VisionUtils.cpp:78-86 | replacing is splitting on `from` and joining with `to` |
| StringUtils.ReplaceEmptyFromNeverExits | src/utils/VisionUtils.cpp:80-83 | with an empty `from`, `find` succeeds at the advanced position every turn, so the loop never exits for any `to` |
| InputParser.ParseLeadingInteger | src/utils/VisionUtils.cpp:97 | the `strtol` conversion behind `stoll`/`stoi` gives a value only within the type's range |
| InputParser.Stoll | src/utils/VisionUtils.cpp:97 | `stoll` gives a value only within the `long long` range, and the empty text is `invalid_argument` |
| InputParser.Stoi | src/utils/VisionUtils.cpp:120 | `stoi` gives a value only within the `int` range, and the empty text is `invalid_argument` |
| InputParser.ParseFormatted | src/utils/VisionUtils.cpp:97 | the rendering of a number, followed by text that does not continue the digits, reads back as the number when in range and as `out_of_range` otherwise |
| InputParser.ParseNoDigits | src/utils/VisionUtils.cpp:97 | a token without leading digits is `invalid_argument` |
| InputParser.StollExamples | src/utils/VisionUtils.cpp:97 | `"12abc"` reads as 12 and `"abc"` fails |
| InputParser.ParseEach | src/utils/VisionUtils.cpp:93-100 | converting a token list gives one value per token, or the failure of one of the tokens |
| InputParser.ParseInputSizes | src/utils/VisionUtils.cpp:89-103 | the empty text gives no group; a parsed list has one group per `;`-piece, and every dimension is within the 64-bit range; a failure is that of the first group that fails, itself the first failing `stoll` of a trimmed `,`-piece |
| InputParser.InputSizesShape | src/utils/VisionUtils.cpp:89-103 | one group per `;`-piece and one `stoll` of a trimmed `,`-piece per dimension |
| InputParser.InputSizesOfEmpty | src/utils/VisionUtils.cpp:89-103 | the empty text has no group |
| InputParser.EmptyPieceEmptyGroup | src/utils/VisionUtils.cpp:89-103 | an empty `;`-piece is an empty group |
| InputParser.InputSizesRoundTrip | src/utils/VisionUtils.cpp:89-103 | a size list with non-empty groups of 64-bit values reads back from its notation as itself |
| InputParser.ParseIntList | src/utils/VisionUtils.cpp:115-123 | the delimiter defaults to `,` (VisionUtils.hpp:34); a parsed list has one value per piece, each the `stoi` of the trimmed piece; a failure is the failure of the first piece that fails |
| InputParser.IntListRoundTrip | src/utils/VisionUtils.cpp:115-123 | a non-empty list of `int`s reads back from its rendering joined by a delimiter that is neither a digit nor `-` |
| InputParser.IntListExample | src/utils/VisionUtils.cpp:115-123 | `"1,2,3,4,5"` with the default delimiter reads as 1, 2, 3, 4, 5 |
| InputParser.ParseStringList | src/utils/VisionUtils.cpp:125-133 | the delimiter defaults to `,` (VisionUtils.hpp:35); one trimmed string per piece of the character split |
| InputParser.StringListRoundTrip | src/utils/VisionUtils.cpp:125-133 | trimmed, delimiter-free strings whose last one is not empty come back from their join |
| InputParser.StringListExample | tests/unit/test_utils_basic.cpp:105-112 | `"apple,banana,cherry"` with the default delimiter gives the three words |
| FpsCounter.New | include/vision-infra/utils/VisionUtils.hpp:105-109 | a new counter has a ring of `window` slots, index 0 and is not full |
| FpsCounter.NewDefault | include/vision-infra/utils/VisionUtils.hpp:98 | the constructor without an argument builds a new counter with a ring of 30 slots |
| FpsCounter.Update | src/utils/VisionUtils.cpp:320-327 | the time goes into the current slot, and no other slot changes; the index advances cyclically; the counter becomes full exactly when the index wraps to 0 |
| FpsCounter.Window | src/utils/VisionUtils.cpp:330-334 | no reading before two samples of an unfilled ring; otherwise the count is the window (full) or the index, the newest slot is the one before the index and the oldest is the index (full) or 0, in `size_t` arithmetic |
| FpsCounter.CurrentFps | src/utils/VisionUtils.cpp:329-340 | zero until two samples of an unfilled ring; a rate has a positive elapsed time over `count - 1` frames |
| FpsCounter.RunIndex | src/utils/VisionUtils.cpp:320-327 | after `n` updates the index is `n` modulo the window and the ring is full exactly when `n` reached the window |
| FpsCounter.RunSlots | src/utils/VisionUtils.cpp:320-327 | the last `window` times of a run are each still in their slot |
| FpsCounter.RunFps | src/utils/VisionUtils.cpp:329-340 | after a run, the reading spans the newest time and the time `count - 1` updates earlier |
| FpsCounter.Reset | src/utils/VisionUtils.cpp:346-349 | reset clears the index and the full flag and keeps the times |
| FpsCounter.ResetReadsZero | src/utils/VisionUtils.cpp:329-349 | after a reset the reading is zero until two more updates |
| MemoryUtils.TensorMemorySize | src/utils/VisionUtils.cpp:356-362 | the byte count is the product of the dimensions times the element size, modulo 2^64, and exactly that product when it fits |
| MemoryUtils.TensorExample | src/utils/VisionUtils.cpp:356-362 | `[1, 3, 224, 224]` of 4-byte elements is 602112 bytes |
| MemoryUtils.FormatBytes | src/utils/VisionUtils.cpp:364-377 | the unit is the largest of B, KB, MB, GB, TB whose size is at most the count, and the printed number is the count divided by that unit (for counts up to 2^53, where the `double` conversion is exact) |
| MemoryUtils.UnitUnique | src/utils/VisionUtils.cpp:364-377 | a count has only one unit |
| MemoryUtils.UnitMonotone | src/utils/VisionUtils.cpp:364-377 | a larger count never gets a smaller unit |
| MemoryUtils.FormatBytesExamples | src/utils/VisionUtils.cpp:364-377 | 1024 bytes is KB, 1024² is MB, 1024³ is GB |
| FileSystem.GetFileExtension | src/core/FileSystem.cpp:108-115 | an extension is a dot-led, non-empty suffix of the path with no further dot or slash |
| FileSystem.ExtensionOfName | src/core/FileSystem.cpp:108-115 | the extension of `dir/stem.ext` is `.ext` |
| FileSystem.NoExtensionWithoutPeriod | src/core/FileSystem.cpp:108-115 | a name whose only periods lead a component has no extension |
| FileSystem.ParentHasNoExtension | src/core/FileSystem.cpp:108-115 | `..` has no extension |
| FileSystem.GetDefault | src/core/FileSystem.cpp:150-152 | the pointer returned is all the state the default holds |
| FileSystem.SetDefault | src/core/FileSystem.cpp:154-156 | `GetDefault` afterwards returns the pointer given, null included |
| FileSystem.DefaultIsLastSet | src/core/FileSystem.cpp:150-156 | `GetDefault` returns the last value given to `SetDefault`, null included |
| FileSystem.SupportedExtensions | src/core/FileSystem.cpp:212-225 | each supported-extension list holds exactly the extensions its classifier accepts |
| FileSystem.IsImageFile | src/core/FileSystem.cpp:158-174 | true exactly when the default file system gives an extension whose lower-case form is in the supported image list; such a name is neither video nor model |
| FileSystem.IsVideoFile | src/core/FileSystem.cpp:176-192 | true exactly when the default file system gives an extension whose lower-case form is in the supported video list; such a name is neither image nor model |
| FileSystem.IsModelFile | src/core/FileSystem.cpp:194-210 | true exactly when the default file system gives an extension whose lower-case form is in the supported model list; such a name is neither image nor video |
| FileSystem.SupportedMatchesLookup | src/core/FileSystem.cpp:159-225 | each supported-extension list has exactly the elements of the matching lookup set |
| FileSystem.KindsDisjoint | src/core/FileSystem.cpp:159-198 | the image, video and model sets are pairwise disjoint |
| FileSystem.AtMostOneKind | src/core/FileSystem.cpp:158-210 | no name is classified as two kinds |
| FileSystem.ClassifyByExtension | src/core/FileSystem.cpp:164-173 | a name is of a kind exactly when its lower-cased extension is in the kind's set |
| FileSystem.ClassifyIgnoresCase | src/core/FileSystem.cpp:170-173 | upper- or lower-casing the extension does not change the classification |
| FileSystem.NoExtensionNoKind | src/core/FileSystem.cpp:164-168 | a name without an extension is of no kind |
| FileSystem.UpperCaseImage | src/core/FileSystem.cpp:158-174 | `photo.JPG` is an image |
| FileSystem.OnnxIsModel | src/core/FileSystem.cpp:194-210 | `*.onnx` is a model |
| FileSystem.GzIsNoKind | src/core/FileSystem.cpp:158-210 | `*.gz` is of no kind |
| FileSystem.ClassifyThroughSubstitute | src/core/FileSystem.cpp:164-165 | classification asks whichever file system is the current default for the extension |
| Logging.RankInjective | include/vision-infra/core/Logger.hpp:10-17 | the six levels have distinct ranks, in TRACE < DEBUG < INFO < WARN < ERROR < FATAL order |
| Logging.LevelToString | src/core/Logger.cpp:226-236 | the name is one of `TRACE`, `DEBUG`, `INFO`, `WARN`, `ERROR`, `FATAL`, and parsing it gives the level back |
| Logging.ParseLogLevel | src/core/Logger.cpp:212-224 | text whose lower-case form is none of the level names parses as INFO; `warn` and `warning` parse as WARN |
| Logging.ParseLevelRoundTrip | src/core/Logger.cpp:212-236 | parsing the name of a level gives the level back |
| Logging.ParseIgnoresCase | src/core/Logger.cpp:212-224 | parsing ignores letter case |
| Logging.ParseWarning | src/core/Logger.cpp:219 | any spelling of `warning` parses as WARN |
| Logging.ParseUnknownIsInfo | src/core/Logger.cpp:223 | an unknown name parses as INFO |
| Logging.FatalParsed | src/core/Logger.cpp:212-224 | `FATAL` parses as FATAL |
| Logging.NewLogger | src/core/Logger.cpp:63-65 | a new logger keeps a non-empty name and is named `default` for the empty name; with the initialisers of `Logger::Impl` it is at INFO with the default pattern, writes to the console with timestamps and has no file |
| Logging.SetLevel | src/core/Logger.cpp:89-91 | the threshold becomes the level given, and nothing else changes |
| Logging.GetLevel | src/core/Logger.cpp:93-95 | setting the level read back changes nothing |
| Logging.EnableConsoleOutput | src/core/Logger.cpp:119-121 | the console flag becomes the value given, and nothing else changes |
| Logging.EnableTimestamp | src/core/Logger.cpp:123-125 | the timestamp flag becomes the value given, and nothing else changes |
| Logging.SetPattern | src/core/Logger.cpp:127-129 | the pattern becomes the one given, and nothing else changes |
| Logging.SetLevelGetLevel | src/core/Logger.cpp:89-95 | the level set is the level read, and nothing else changes |
| Logging.SetOutputFile | src/core/Logger.cpp:108-117 | only the file changes; a file is open only under a non-empty name |
| Logging.SetOutputFileLastWins | src/core/Logger.cpp:108-117 | an empty name leaves no file; a second call undoes the first |
| Logging.ReplaceFirstAt | src/core/Logger.cpp:41-44 | a token replaces at its first occurrence only |
| Logging.FormatMessage | src/core/Logger.cpp:24-59 | a pattern without an opening brace is emitted as it is, whatever the level, name, message and time |
| Logging.FormatVerbatim | src/core/Logger.cpp:24-59 | a pattern without tokens is emitted verbatim |
| Logging.FormatInOrder | src/core/Logger.cpp:24-59 | the four tokens are replaced in order by the timestamp, level name, logger name and message, each at its first occurrence |
| Logging.FormatDefault | src/core/Logger.cpp:21 | the default pattern gives `[time] [LEVEL] [name] message` |
| Logging.FormatWithoutTimestamp | src/core/Logger.cpp:27-38 | with timestamps off the literal `{timestamp}` stays in the line |
| Logging.SubstitutedTextIsSearched | src/core/Logger.cpp:46-56 | each search runs over the already-substituted text: a `{message}` inside the logger name is the one replaced |
| Logging.Log | src/core/Logger.cpp:67-87 | at most two lines are emitted, each the formatted message |
| Logging.LogSilentIff | src/core/Logger.cpp:67-86 | nothing is emitted exactly when the level is below the threshold or neither console nor file is on |
| Logging.LogRouting | src/core/Logger.cpp:74-86 | an emitted line goes to stderr for ERROR and FATAL and to stdout otherwise, if the console is on, and also to the open file |
| Logging.LogAfterSetLevel | src/core/Logger.cpp:67-95 | after `SetLevel(t)` a message at level `m` is emitted exactly when `m >= t` |
| Logging.LogAfterClosingFile | src/core/Logger.cpp:108-117 | after `SetOutputFile("")` nothing goes to a file |
| LoggerManager.Initial | src/core/Logger.cpp:156-166 | the registry starts with a logger named `default` at INFO, no named loggers, global level INFO |
| LoggerManager.GetLogger | src/core/Logger.cpp:173-190 | `""` and `default` give the default logger; a known name gives its logger; a new name gets a fresh logger at the global level, registered under it, and nothing else changes |
| LoggerManager.NewLoggerAtGlobalLevel | src/core/Logger.cpp:186-189 | a created logger carries the name and the global level |
| LoggerManager.GetLoggerStable | src/core/Logger.cpp:173-190 | a second lookup of a name gives the same logger and changes nothing |
| LoggerManager.DistinctNamesDistinctLoggers | src/core/Logger.cpp:181-189 | different names get different loggers |
| LoggerManager.GetLoggerKeepsExisting | src/core/Logger.cpp:173-190 | a lookup does not change any existing logger |
| LoggerManager.SetDefaultLogger | src/core/Logger.cpp:192-196 | the logger given, null included, is what `""` and `default` return afterwards |
| LoggerManager.SetGlobalLevel | src/core/Logger.cpp:198-210 | the default logger and every registered logger get the level, and loggers neither registered nor default are untouched |
| LoggerManager.GlobalLevelReachesEveryName | src/core/Logger.cpp:186-210 | after `SetGlobalLevel`, every name, old or new, gives a logger at that level |
| LoggerManager.SharedLoggerSeesLevel | src/core/Logger.cpp:173-190 | a level set through one holder is seen by the next lookup of the same name |
| Config.DefaultValues | include/vision-infra/config/Config.hpp:111-146 | the member defaults: `localhost`, 8000, `http`, batch 1, one thread, `none`, device 0, `info`, `write_frame` on, other flags off, empty texts, no sizes, no custom parameters |
| Config.Default | include/vision-infra/config/Config.hpp:111-146 | a default configuration fails exactly the model-name, model-type and source checks |
| Config.SetCustomParam | src/config/Config.cpp:60-62 | only the custom-parameter map changes |
| Config.GetCustomParam | src/config/Config.cpp:64-70 | a value is returned exactly for a stored key |
| Config.CustomParamSetGet | src/config/Config.cpp:60-70 | a value set is read back, and other keys are unaffected |
| Config.CustomParamOverwrite | src/config/Config.cpp:60-62 | a later set overwrites |
| Config.CustomParamUnset | src/config/Config.cpp:64-70 | a key never set reads back as none |
| Config.IsModelNameAPath | src/config/Config.cpp:17-21 | true exactly when the model name contains `/` or `\` |
| Config.IsValid | src/config/Config.cpp:8-15 | valid exactly when no check other than the protocol one fails |
| Config.FailedChecksExact | src/config/Config.cpp:26-48 | a check is reported exactly when it fails: empty server, name, type or source, a separator in the name, a port outside 1..65535, a protocol other than `http`/`grpc` |
| Config.GetValidationErrors | src/config/Config.cpp:23-58 | the report is the failing checks' messages in the fixed order joined by `"; "`, and is empty exactly when no check fails |
| Config.ValidIffOnlyProtocolFails | src/config/Config.cpp:8-15 | `IsValid` holds exactly when no check other than the protocol one fails |
| Config.NoErrorsMeansValid | src/config/Config.cpp:8-58 | an empty report implies `IsValid` |
| Config.HttpsIsValidButReported | src/config/Config.cpp:8-15 | protocol `https` with the required members set is valid but reported |
| Config.DefaultErrors | src/config/Config.cpp:29-40 | the default configuration is invalid, and its report is `Model name is required; Model type is required; Source is required` |
| ConfigManager.Merge | src/config/ConfigManager.cpp:113-175 | the four flags come from the override; thresholds, shared memory, device and logging from the base; model version, sizes, threads, async and custom parameters are at their defaults |
| ConfigManager.MergeOverrideWins | src/config/ConfigManager.cpp:143-172 | an override member wins exactly when it is not at its default (non-empty, not `localhost`/`http`/`concat`, port not 8000, batch not 1, weight not 1.0); otherwise the base's is kept |
| ConfigManager.MergeSelf | src/config/ConfigManager.cpp:113-175 | merging a configuration with itself gives it back, apart from the members the merge does not copy |
| ConfigManager.MergeOverrideIdempotent | src/config/ConfigManager.cpp:113-175 | merging the same override twice changes nothing more |
| ConfigManager.MergeDefaultOverride | src/config/ConfigManager.cpp:143-172 | a default override keeps the base except for the four flags |
| ConfigManager.MergeOntoDefault | src/config/ConfigManager.cpp:143-172 | merging onto a default base yields the override's members |
| ConfigManager.DefaultValuedOverrideIgnored | src/config/ConfigManager.cpp:144-146 | an override of `localhost` cannot replace the base's server |
| ConfigManager.NewManager | src/config/ConfigManager.cpp:22-30 | a null validator is replaced by the default one |
| ConfigManager.Create | src/config/ConfigManager.cpp:181-183 | the created manager holds the default validator |
| ConfigManager.ValidateConfig | src/config/ConfigManager.cpp:105-107 | the default validator accepts every configuration |
| ConfigManager.ManagerValidationErrors | src/config/ConfigManager.cpp:109-111 | the default validator reports nothing |
| ConfigManager.DefaultValidatorAcceptsInvalid | src/config/ConfigManager.cpp:327-335 | the default manager accepts the default configuration, which `IsValid` rejects |
| ConfigManager.GetEnvVar | src/config/ConfigManager.cpp:311-314 | a set variable's value, even an empty one, and the fallback otherwise |
| ConfigManager.ReadNumbers | src/config/ConfigManager.cpp:265-288 | the eight conversions (three `stoi`, five `stof`) all succeed exactly when the result does, and then give its values; otherwise the failure is that of the first conversion, in source order, that throws: `BadInteger` with the `stoi` error or `BadFloat`, naming its variable |
| ConfigManager.Assemble | src/config/ConfigManager.cpp:264-288 | each of the thirteen text members is its variable or its fallback text; each flag is true exactly for the text `true`; the converted numbers and the size list are the ones given; the members the loader never sets are at their defaults |
| ConfigManager.ReadSizes | src/config/ConfigManager.cpp:290-293 | an empty size variable gives no sizes; a non-empty one gives the parsed list, or `BadInputSizes` with the parse error |
| ConfigManager.LoadFromEnvironment | src/config/ConfigManager.cpp:261-296 | loading succeeds exactly when every conversion and the size list succeed, with the assembled configuration; a failing conversion is the failure, and otherwise a failing size list is |
| ConfigManager.EnvironmentRoundTrip | src/config/ConfigManager.cpp:261-296 | an environment rendering a configuration loads as that configuration, valid or not |
| ConfigManager.EmptyEnvironmentIsDefault | src/config/ConfigManager.cpp:261-296 | an empty environment loads as the default configuration |
| ConfigManager.NonNumericPortFails | src/config/ConfigManager.cpp:265 | a non-numeric port fails the load with `invalid_argument` naming the variable |
| ConfigManager.PortOutOfRangeFails | src/config/ConfigManager.cpp:265 | a port beyond `int` fails with `out_of_range` |
| ConfigManager.FlagsOnlyExactTrue | src/config/ConfigManager.cpp:273 | `TRUE`, `1` or `yes` leave a flag off |
| ConfigManager.EmptySizesIgnored | src/config/ConfigManager.cpp:290-293 | an empty size variable leaves the sizes empty |
| ConfigManager.LoadFromFile | src/config/ConfigManager.cpp:298-301 | file loading always fails as not implemented |
| ConfigManager.CreateDefault | src/config/ConfigManager.cpp:303-305 | the created configuration is the default one; it is invalid and a fixed point of merging with itself |

## Left out

- Stream I/O, `Flush`, `std::endl` and the two mutexes of the logger are not modelled; `Log` returns the lines it would write, in order, and calls are sequential.
- Timestamps are an input string. The wall clock, `localtime` and `put_time` formatting are not modelled.
- Whether opening the log file succeeds is an input of `SetOutputFile` (the file system is not modelled).
- The `Trace`…`Fatal` convenience methods are not modelled separately: each is `Log` at a fixed level. The header's variadic overloads have no definition.
- The `UNKNOWN` branch of `LogLevelToString` is not modelled: the level type has only the six enumerators.
- Custom `ILogger`, `IConfigLoader`, `IConfigValidator` and `IConfigSerializer` implementations are not modelled. A custom validator's answers are functions passed in. `RegisterSerializer` only stores an object that nothing in the core reads.
- `LoadFromCommandLine`, `CreateFromArguments`, `PrintConfig`, `PrintUsage`, `DrawingUtils` and `ImageUtils` are left out: they call OpenCV or only print.
- `std::stof` is a parameter of the environment loader (floating-point parsing). `ParseFloatList`, the FPS ratio, `Timer` and the `%.2f` rendering of `FormatBytes` are floating point or clock based and are not modelled.
- The `FileSystem` directory, read/write, size, absolute-path and path-join wrappers are left out (I/O over `std::filesystem`). So are `GetSystemMemoryUsage` and `GetProcessMemoryUsage`, which return 0.
- Getters and setters of `InferenceConfig` are field selection and datatype update, `c.(port := p)`, which read and change exactly one member; they have no separate members.
- StringUtils.SplitOn: requires a non-empty delimiter, because the source's loop never exits for an empty one (`SplitOnEmptyDelimiterNeverExits` shows the step that does not advance).
- StringUtils.Replace: requires a non-empty `from`, because the source's loop never exits for an empty one with any `to` (`ReplaceEmptyFromNeverExits`).
- FpsCounter.Update: requires a non-empty ring, because the source computes `% window_size_`, a division by zero for a window of 0.
- MemoryUtils.FormatBytes: above 2^53 bytes the source's `static_cast<double>` rounds the count, so its printed size is the rounded count over the unit; the model's `size` is the exact quotient there. The unit is the same either way.
- FpsCounter.New: requires a window of at most `MaxWindow` slots; beyond that the source's `std::vector` constructor throws `std::length_error`, which is not modelled as a failure.
- FileSystem.IsImageFile: requires a non-null default file system; after `SetDefault(nullptr)` the source dereferences a null pointer (FileSystem.cpp:164-165), which has no defined result to model.
- FileSystem.IsVideoFile: requires a non-null default file system, for the same null dereference (FileSystem.cpp:182-183).
- FileSystem.IsModelFile: requires a non-null default file system, for the same null dereference (FileSystem.cpp:200-201).
- StringUtils.ToLower, StringUtils.ToUpper, StringUtils.Trim, StringUtils.Split, StringUtils.SplitOn, StringUtils.Replace: texts are sequences of characters, while the source's `std::string` holds bytes. On ASCII text the two agree. On other text the model's positions and lengths count characters, not UTF-8 bytes.
- FileSystem.GetFileExtension: models the extension of the last path component for `/`-separated paths; root names and other separators are not modelled.
- ConfigManager.LoadFromEnvironment: the values `stof` gives are taken as they are, so its range errors and `invalid_argument` both appear as one `BadFloat` failure.

=== FILE: config.dfy ===
/** `InferenceConfig`: the configuration record of an inference application, its
    defaults, its validation and its map of custom parameters. */
module Config {
  import opened Wrappers
  import opened StringUtils

  /** A C++ `int`. */
  type Int32 = x: int | -0x8000_0000 <= x < 0x8000_0000

  /** A C++ `float`, kept as its IEEE-754 single-precision bit pattern. The record only
      stores, copies and compares floats with `!= 1.0f`; 1.0 has one encoding and NaN
      is unequal to everything, so bit inequality with the pattern of 1.0 is exactly
      float inequality with 1.0. */
  type FloatBits = bv32

  const FloatOne: FloatBits := 0x3F80_0000
  const FloatHalf: FloatBits := 0x3F00_0000
  /** 0.4f, the nearest single to 0.4. */
  const FloatPointFour: FloatBits := 0x3ECC_CCCD

  datatype InferenceConfig = InferenceConfig(
    serverAddress: string,
    port: Int32,
    protocol: string,
    verbose: bool,
    modelName: string,
    modelVersion: string,
    modelType: string,
    inputSizes: seq<seq<int>>,
    source: string,
    labelsFile: string,
    batchSize: Int32,
    showFrame: bool,
    writeFrame: bool,
    confidenceThreshold: FloatBits,
    nmsThreshold: FloatBits,
    numThreads: Int32,
    enableAsync: bool,
    sharedMemoryType: string,
    cudaDeviceId: Int32,
    logLevel: string,
    logFile: string,
    enableMultimodal: bool,
    textInput: string,
    audioInput: string,
    textPrompt: string,
    modalityCombination: string,
    textWeight: FloatBits,
    imageWeight: FloatBits,
    audioWeight: FloatBits,
    customParams: map<string, string>)

  /** A default-constructed `InferenceConfig`: the member initialisers of the class,
      and for the multimodal members the values the environment loader falls back
      to. */
  function Default(): (d: InferenceConfig)
    ensures forall k :: Fails(d, k) <==> k == ModelNameRequired || k == ModelTypeRequired || k == SourceRequired
  {
    InferenceConfig(
      serverAddress := "localhost", port := 8000, protocol := "http", verbose := false,
      modelName := "", modelVersion := "", modelType := "", inputSizes := [],
      source := "", labelsFile := "", batchSize := 1,
      showFrame := false, writeFrame := true,
      confidenceThreshold := FloatHalf, nmsThreshold := FloatPointFour,
      numThreads := 1, enableAsync := false,
      sharedMemoryType := "none", cudaDeviceId := 0,
      logLevel := "info", logFile := "",
      enableMultimodal := false, textInput := "", audioInput := "", textPrompt := "",
      modalityCombination := "concat",
      textWeight := FloatOne, imageWeight := FloatOne, audioWeight := FloatOne,
      customParams := map[])
  }

  /** The defaults the class declares, member by member. The getters and setters of
      the class are field selection and datatype update (`c.(port := p)`), which read
      and change exactly one member. */
  lemma DefaultValues()
    ensures var d := Default();
            && d.serverAddress == "localhost" && d.port == 8000 && d.protocol == "http"
            && !d.verbose && d.batchSize == 1 && d.numThreads == 1 && !d.enableAsync
            && !d.showFrame && d.writeFrame
            && d.confidenceThreshold == FloatHalf && d.nmsThreshold == FloatPointFour
            && d.sharedMemoryType == "none" && d.cudaDeviceId == 0 && d.logLevel == "info"
            && d.modelName == "" && d.modelVersion == "" && d.modelType == ""
            && d.source == "" && d.labelsFile == "" && d.logFile == ""
            && d.inputSizes == [] && d.customParams == map[]
  {
  }

  // ---------------------------------------------------------------------------
  // Custom parameters
  // ---------------------------------------------------------------------------

  /** `InferenceConfig::SetCustomParam`: insert or overwrite. */
  function SetCustomParam(c: InferenceConfig, key: string, value: string): (r: InferenceConfig)
    ensures r.(customParams := c.customParams) == c
  {
    c.(customParams := c.customParams[key := value])
  }

  /** `InferenceConfig::GetCustomParam`: the stored value, or none. */
  function GetCustomParam(c: InferenceConfig, key: string): (r: Option<string>)
    ensures r.Some? <==> key in c.customParams
  {
    if key in c.customParams then Some(c.customParams[key]) else None
  }

  /** The last value set for a key is the one read back; other keys are untouched. */
  lemma CustomParamSetGet(c: InferenceConfig, key: string, value: string, other: string)
    requires other != key
    ensures GetCustomParam(SetCustomParam(c, key, value), key) == Some(value)
    ensures GetCustomParam(SetCustomParam(c, key, value), other) == GetCustomParam(c, other)
  {
  }

  /** A later set of the same key overwrites the earlier one. */
  lemma CustomParamOverwrite(c: InferenceConfig, key: string, v1: string, v2: string)
    ensures SetCustomParam(SetCustomParam(c, key, v1), key, v2) == SetCustomParam(c, key, v2)
  {
  }

  /** A key never set reads back as none: a default configuration has no custom
      parameters. */
  lemma CustomParamUnset(key: string)
    ensures GetCustomParam(Default(), key) == None
  {
  }

  // ---------------------------------------------------------------------------
  // Validation
  // ---------------------------------------------------------------------------

  /** A path separator of either platform. */
  predicate IsSeparator(ch: char) {
    ch == '/' || ch == '\\'
  }

  /** `InferenceConfig::IsModelNameAPath`: two searches, one per separator. */
  function IsModelNameAPath(c: InferenceConfig): (r: bool)
    ensures r <==> exists i :: 0 <= i < |c.modelName| && IsSeparator(c.modelName[i])
  {
    FindChar(c.modelName, '/');
    FindChar(c.modelName, '\\');
    Find(c.modelName, ['/'], 0).Some? || Find(c.modelName, ['\\'], 0).Some?
  }

  /** `InferenceConfig::IsValid`. */
  function IsValid(c: InferenceConfig): (r: bool)
    ensures r <==> forall k :: k != ProtocolUnknown ==> !Fails(c, k)
  {
    ValidChecks(c);
    && c.serverAddress != "" && c.modelName != "" && c.modelType != "" && c.source != ""
    && c.port > 0 && c.port <= 65535
    && !IsModelNameAPath(c)
  }

  /** The checks other than the protocol one pass exactly when the conditions
      `IsValid` tests hold. */
  lemma ValidChecks(c: InferenceConfig)
    ensures (forall k :: k != ProtocolUnknown ==> !Fails(c, k))
            <==> (&& c.serverAddress != "" && c.modelName != "" && c.modelType != "" && c.source != ""
                  && 0 < c.port <= 65535
                  && !exists i :: 0 <= i < |c.modelName| && IsSeparator(c.modelName[i]))
  {
    assert Fails(c, ServerAddressRequired) <==> c.serverAddress == "";
    assert Fails(c, ModelNameRequired) <==> c.modelName == "";
    assert Fails(c, ModelTypeRequired) <==> c.modelType == "";
    assert Fails(c, SourceRequired) <==> c.source == "";
    assert Fails(c, PortOutOfRange) <==> !(0 < c.port <= 65535);
    assert Fails(c, ModelNameIsPath) <==> exists i :: 0 <= i < |c.modelName| && IsSeparator(c.modelName[i]);
  }

  /** The checks of `GetValidationErrors`, in the order it makes them. */
  datatype Check =
    | ServerAddressRequired
    | ModelNameRequired
    | ModelNameIsPath
    | ModelTypeRequired
    | SourceRequired
    | PortOutOfRange
    | ProtocolUnknown

  const Checks: seq<Check> := [ServerAddressRequired, ModelNameRequired, ModelNameIsPath,
                               ModelTypeRequired, SourceRequired, PortOutOfRange, ProtocolUnknown]

  const ServerAddressMessage: string := "Server address is required"
  const ModelNameMessage: string := "Model name is required"
  const ModelNamePathMessage: string :=
    "Model name must not contain path separators (/ or \\). Use only the model repository name."
  const ModelTypeMessage: string := "Model type is required"
  const SourceMessage: string := "Source is required"
  const PortMessage: string := "Port must be between 1 and 65535"
  const ProtocolMessage: string := "Protocol must be 'http' or 'grpc'"

  function Message(k: Check): (r: string)
    ensures r != ""
  {
    match k
    case ServerAddressRequired => ServerAddressMessage
    case ModelNameRequired => ModelNameMessage
    case ModelNameIsPath => ModelNamePathMessage
    case ModelTypeRequired => ModelTypeMessage
    case SourceRequired => SourceMessage
    case PortOutOfRange => PortMessage
    case ProtocolUnknown => ProtocolMessage
  }

  /** What each check rejects, stated on the record. */
  predicate Fails(c: InferenceConfig, k: Check) {
    match k
    case ServerAddressRequired => |c.serverAddress| == 0
    case ModelNameRequired => |c.modelName| == 0
    case ModelNameIsPath => exists i :: 0 <= i < |c.modelName| && IsSeparator(c.modelName[i])
    case ModelTypeRequired => |c.modelType| == 0
    case SourceRequired => |c.source| == 0
    case PortOutOfRange => !(1 <= c.port <= 65535)
    case ProtocolUnknown => c.protocol !in {"http", "grpc"}
  }

  /** The tests `GetValidationErrors` makes, in its order, each adding its check when
      it fails. */
  function FailedChecks(c: InferenceConfig): (ks: seq<Check>)
    ensures |ks| <= |Checks|
  {
    (if c.serverAddress == "" then [ServerAddressRequired] else [])
    + (if c.modelName == "" then [ModelNameRequired] else [])
    + (if IsModelNameAPath(c) then [ModelNameIsPath] else [])
    + (if c.modelType == "" then [ModelTypeRequired] else [])
    + (if c.source == "" then [SourceRequired] else [])
    + (if c.port <= 0 || c.port > 65535 then [PortOutOfRange] else [])
    + (if c.protocol != "http" && c.protocol != "grpc" then [ProtocolUnknown] else [])
  }

  /** A check is reported exactly when it fails. */
  lemma FailedChecksExact(c: InferenceConfig, k: Check)
    ensures k in FailedChecks(c) <==> Fails(c, k)
  {
    match k
    case ServerAddressRequired =>
    case ModelNameRequired =>
    case ModelNameIsPath =>
    case ModelTypeRequired =>
    case SourceRequired =>
    case PortOutOfRange =>
    case ProtocolUnknown =>
  }

  /** The messages of the failing checks, in order. */
  function ErrorMessages(c: InferenceConfig): (errors: seq<string>)
    ensures |errors| == |FailedChecks(c)|
    ensures forall i :: 0 <= i < |errors| ==> errors[i] == Message(FailedChecks(c)[i])
  {
    var ks := FailedChecks(c);
    seq(|ks|, i requires 0 <= i < |ks| => Message(ks[i]))
  }

  /** `InferenceConfig::GetValidationErrors`: the messages, each after a `"; "` unless
      it is the first. */
  method GetValidationErrors(c: InferenceConfig) returns (result: string)
    ensures result == Join(ErrorMessages(c), "; ")
    ensures result == "" <==> forall k :: !Fails(c, k)
  {
    var errors := ErrorMessages(c);
    result := "";
    var i := 0;
    while i < |errors|
      invariant 0 <= i <= |errors|
      invariant result == Join(errors[..i], "; ")
      invariant result == "" <==> i == 0
    {
      JoinStep(errors, i, "; ");
      if result != "" {
        result := result + "; ";
      }
      result := result + errors[i];
      i := i + 1;
    }
    assert errors[..i] == errors;
    NothingFailsIffNoChecks(c);
  }

  /** No check is reported exactly when none fails. */
  lemma NothingFailsIffNoChecks(c: InferenceConfig)
    ensures FailedChecks(c) == [] <==> forall k :: !Fails(c, k)
  {
    var ks := FailedChecks(c);
    forall k ensures k in ks <==> Fails(c, k) {
      FailedChecksExact(c, k);
    }
    assert |ks| > 0 ==> ks[0] in ks;
  }

  /** One more part of a join. */
  lemma JoinStep(parts: seq<string>, i: nat, d: string)
    requires i < |parts|
    ensures Join(parts[..i + 1], d) == if i == 0 then parts[0] else Join(parts[..i], d) + d + parts[i]
  {
    assert parts[..i + 1] == parts[..i] + [parts[i]];
    if i > 0 {
      JoinSnoc(parts[..i], parts[i], d);
    }
  }

  /** `IsValid` holds exactly when every check but the protocol's passes. */
  lemma ValidIffOnlyProtocolFails(c: InferenceConfig)
    ensures IsValid(c) <==> forall k :: Fails(c, k) ==> k == ProtocolUnknown
  {
    forall k ensures k in FailedChecks(c) <==> Fails(c, k) {
      FailedChecksExact(c, k);
    }
    if !IsValid(c) {
      var k := if c.serverAddress == "" then ServerAddressRequired
               else if c.modelName == "" then ModelNameRequired
               else if c.modelType == "" then ModelTypeRequired
               else if c.source == "" then SourceRequired
               else if c.port <= 0 || c.port > 65535 then PortOutOfRange
               else ModelNameIsPath;
      assert k in FailedChecks(c);
    }
  }

  /** No error message means valid; the converse fails only through the protocol. */
  lemma NoErrorsMeansValid(c: InferenceConfig)
    ensures Join(ErrorMessages(c), "; ") == "" ==> IsValid(c)
    ensures IsValid(c) && Join(ErrorMessages(c), "; ") != "" ==> FailedChecks(c) == [ProtocolUnknown]
  {
    if Join(ErrorMessages(c), "; ") == "" && |FailedChecks(c)| > 0 {
      JoinLast(ErrorMessages(c), "; ");
    }
  }

  /** `IsValid` never looks at the protocol: a configuration asking for `https` is
      valid and still has an error to report. */
  lemma HttpsIsValidButReported(c: InferenceConfig)
    requires c == Default().(modelName := "yolov8", modelType := "yolo", source := "video.mp4", protocol := "https")
    ensures IsValid(c)
    ensures FailedChecks(c) == [ProtocolUnknown]
    ensures Join(ErrorMessages(c), "; ") == ProtocolMessage
  {
    assert !IsModelNameAPath(c) by {
      assert forall i :: 0 <= i < |c.modelName| ==> !IsSeparator(c.modelName[i]);
    }
    var ms := ErrorMessages(c);
    assert ms == [ms[0]];
  }

  /** The error text of a default configuration names the three empty members. */
  lemma DefaultErrors()
    ensures FailedChecks(Default()) == [ModelNameRequired, ModelTypeRequired, SourceRequired]
    ensures Join(ErrorMessages(Default()), "; ")
            == ModelNameMessage + "; " + ModelTypeMessage + "; " + SourceMessage
    ensures !IsValid(Default())
  {
    UnsetModelChecks(Default());
  }

  /** A configuration that names a server with an accepted port and protocol but no
      model, model type or source. */
  lemma UnsetModelChecks(c: InferenceConfig)
    requires c.serverAddress != "" && c.modelName == "" && c.modelType == "" && c.source == ""
    requires 0 < c.port <= 65535 && (c.protocol == "http" || c.protocol == "grpc")
    ensures FailedChecks(c) == [ModelNameRequired, ModelTypeRequired, SourceRequired]
    ensures Join(ErrorMessages(c), "; ")
            == ModelNameMessage + "; " + ModelTypeMessage + "; " + SourceMessage
    ensures !IsValid(c)
  {
    var ms := ErrorMessages(c);
    assert ms == [ms[0], ms[1], ms[2]];
    JoinThree(ModelNameMessage, ModelTypeMessage, SourceMessage, "; ");
  }

  lemma JoinThree(a: string, b: string, c: string, d: string)
    ensures Join([a, b, c], d) == a + d + b + d + c
  {
    assert [a, b, c][1..] == [b, c];
    assert [b, c][1..] == [c];
    assert Join([b, c], d) == b + d + c;
  }
}

=== FILE: config_manager.dfy ===
/** `ConfigManager`: merging two configurations, the default validator, and the
    default loader's environment, file and default sources. */
module ConfigManager {
  import opened Wrappers
  import opened StringUtils
  import opened InputParser
  import opened Config

  // ---------------------------------------------------------------------------
  // Merge
  // ---------------------------------------------------------------------------

  /** An override text wins when it is non-empty and differs from the member's
      default. */
  function TakeText(over: string, base: string, default: string): (r: string)
    ensures r == over || r == base
    ensures r == over <==> (over != "" && over != default) || over == base
  {
    if over != "" && over != default then over else base
  }

  /** An override number wins when it differs from the member's default. */
  function TakeNumber(over: Int32, base: Int32, default: Int32): (r: Int32)
    ensures r == over || r == base
    ensures r == over <==> over != default || over == base
  {
    if over != default then over else base
  }

  /** An override weight wins when it is not 1.0f. */
  function TakeWeight(over: FloatBits, base: FloatBits): (r: FloatBits)
    ensures r == over <==> over != FloatOne || over == base
  {
    if over != FloatOne then over else base
  }

  /** The members `Merge` never copies, back at their defaults: the result starts as a
      default-constructed configuration. */
  function ResetUncopied(c: InferenceConfig): InferenceConfig {
    var d := Default();
    c.(modelVersion := d.modelVersion, inputSizes := d.inputSizes, numThreads := d.numThreads,
       enableAsync := d.enableAsync, customParams := d.customParams)
  }

  /** `ConfigManager::Merge`: a default configuration that takes the base's members and
      then, member by member, the override's where the override is not at its
      default; the four flags always come from the override, and thresholds, shared
      memory, CUDA device and logging always from the base. */
  function Merge(base: InferenceConfig, over: InferenceConfig): (m: InferenceConfig)
    ensures m.modelVersion == "" && m.inputSizes == [] && m.numThreads == 1
    ensures !m.enableAsync && m.customParams == map[]
    ensures m.showFrame == over.showFrame && m.writeFrame == over.writeFrame
    ensures m.verbose == over.verbose && m.enableMultimodal == over.enableMultimodal
    ensures m.confidenceThreshold == base.confidenceThreshold && m.nmsThreshold == base.nmsThreshold
    ensures m.sharedMemoryType == base.sharedMemoryType && m.cudaDeviceId == base.cudaDeviceId
    ensures m.logLevel == base.logLevel && m.logFile == base.logFile
  {
    Default().(
      serverAddress := TakeText(over.serverAddress, base.serverAddress, "localhost"),
      port := TakeNumber(over.port, base.port, 8000),
      protocol := TakeText(over.protocol, base.protocol, "http"),
      modelName := TakeText(over.modelName, base.modelName, ""),
      modelType := TakeText(over.modelType, base.modelType, ""),
      source := TakeText(over.source, base.source, ""),
      labelsFile := TakeText(over.labelsFile, base.labelsFile, ""),
      batchSize := TakeNumber(over.batchSize, base.batchSize, 1),
      showFrame := over.showFrame,
      writeFrame := over.writeFrame,
      confidenceThreshold := base.confidenceThreshold,
      nmsThreshold := base.nmsThreshold,
      verbose := over.verbose,
      sharedMemoryType := base.sharedMemoryType,
      cudaDeviceId := base.cudaDeviceId,
      logLevel := base.logLevel,
      logFile := base.logFile,
      enableMultimodal := over.enableMultimodal,
      textInput := TakeText(over.textInput, base.textInput, ""),
      audioInput := TakeText(over.audioInput, base.audioInput, ""),
      textPrompt := TakeText(over.textPrompt, base.textPrompt, ""),
      modalityCombination := TakeText(over.modalityCombination, base.modalityCombination, "concat"),
      textWeight := TakeWeight(over.textWeight, base.textWeight),
      imageWeight := TakeWeight(over.imageWeight, base.imageWeight),
      audioWeight := TakeWeight(over.audioWeight, base.audioWeight))
  }

  /** An override member wins exactly when it is not at its default: a server other
      than `""` and `localhost`, a port other than 8000, and so on. */
  lemma MergeOverrideWins(base: InferenceConfig, over: InferenceConfig)
    ensures var m := Merge(base, over);
            && (m.serverAddress == (if over.serverAddress in {"", "localhost"} then base.serverAddress else over.serverAddress))
            && (m.port == (if over.port == 8000 then base.port else over.port))
            && (m.protocol == (if over.protocol in {"", "http"} then base.protocol else over.protocol))
            && (m.modelName == (if |over.modelName| == 0 then base.modelName else over.modelName))
            && (m.modelType == (if |over.modelType| == 0 then base.modelType else over.modelType))
            && (m.source == (if |over.source| == 0 then base.source else over.source))
            && (m.labelsFile == (if |over.labelsFile| == 0 then base.labelsFile else over.labelsFile))
            && (m.batchSize == (if over.batchSize == 1 then base.batchSize else over.batchSize))
            && (m.textInput == (if |over.textInput| == 0 then base.textInput else over.textInput))
            && (m.audioInput == (if |over.audioInput| == 0 then base.audioInput else over.audioInput))
            && (m.textPrompt == (if |over.textPrompt| == 0 then base.textPrompt else over.textPrompt))
            && (m.modalityCombination
                == (if over.modalityCombination in {"", "concat"} then base.modalityCombination else over.modalityCombination))
            && (m.textWeight == (if over.textWeight == FloatOne then base.textWeight else over.textWeight))
            && (m.imageWeight == (if over.imageWeight == FloatOne then base.imageWeight else over.imageWeight))
            && (m.audioWeight == (if over.audioWeight == FloatOne then base.audioWeight else over.audioWeight))
  {
  }

  /** Merging a configuration with itself gives it back, apart from the members
      `Merge` does not copy. */
  lemma MergeSelf(c: InferenceConfig)
    ensures Merge(c, c) == ResetUncopied(c)
  {
  }

  /** Merging with the same override twice changes nothing the first merge did not. */
  lemma MergeOverrideIdempotent(base: InferenceConfig, over: InferenceConfig)
    ensures Merge(Merge(base, over), over) == Merge(base, over)
  {
  }

  /** A default override keeps the base, except for the four flags, which take their
      default values. */
  lemma MergeDefaultOverride(base: InferenceConfig)
    ensures Merge(base, Default())
            == ResetUncopied(base).(showFrame := false, writeFrame := true, verbose := false,
                                    enableMultimodal := false)
  {
  }

  /** Merging onto a default base yields the override on every member the override
      controls, except that an empty server address, protocol or modality combination
      cannot override the default. */
  lemma MergeOntoDefault(over: InferenceConfig)
    requires over.serverAddress != "" && over.protocol != "" && over.modalityCombination != ""
    ensures var m := Merge(Default(), over);
            && m.serverAddress == over.serverAddress && m.port == over.port
            && m.protocol == over.protocol && m.modelName == over.modelName
            && m.modelType == over.modelType && m.source == over.source
            && m.labelsFile == over.labelsFile && m.batchSize == over.batchSize
            && m.textInput == over.textInput && m.audioInput == over.audioInput
            && m.textPrompt == over.textPrompt && m.modalityCombination == over.modalityCombination
            && m.textWeight == over.textWeight && m.imageWeight == over.imageWeight
            && m.audioWeight == over.audioWeight
  {
  }

  /** Setting a member back to its default in the override cannot undo the base: an
      override that asks for `localhost` still gets the base's server. */
  lemma DefaultValuedOverrideIgnored(base: InferenceConfig, over: InferenceConfig)
    requires over.serverAddress == "localhost" && base.serverAddress == "inference.local"
    ensures Merge(base, over).serverAddress == "inference.local"
  {
  }

  // ---------------------------------------------------------------------------
  // Validation through the manager
  // ---------------------------------------------------------------------------

  /** The validator a manager holds: the default one, or one supplied by the caller,
      whose answers are parameters of the model. */
  datatype Validator =
    | DefaultValidator
    | CustomValidator(validate: InferenceConfig -> bool, errors: InferenceConfig -> string)

  /** A `ConfigManager` as far as validation goes. */
  datatype Manager = Manager(validator: Validator)

  /** The constructor: a null validator is replaced by the default one. */
  function NewManager(validator: Option<Validator>): (mgr: Manager)
    ensures validator.None? ==> mgr.validator.DefaultValidator?
    ensures validator.Some? ==> mgr.validator == validator.value
  {
    Manager(validator.GetOr(DefaultValidator))
  }

  /** `ConfigManager::Create`: a manager with the default loader and validator. */
  function Create(): (mgr: Manager)
    ensures mgr.validator.DefaultValidator?
  {
    NewManager(None)
  }

  /** `ConfigManager::ValidateConfig`: the validator's verdict. */
  function ValidateConfig(mgr: Manager, c: InferenceConfig): (r: bool)
    ensures mgr.validator.DefaultValidator? ==> r
  {
    match mgr.validator
    case DefaultValidator => true
    case CustomValidator(validate, _) => validate(c)
  }

  /** `ConfigManager::GetValidationErrors`: the validator's report. */
  function ManagerValidationErrors(mgr: Manager, c: InferenceConfig): (r: string)
    ensures mgr.validator.DefaultValidator? ==> r == ""
  {
    match mgr.validator
    case DefaultValidator => ""
    case CustomValidator(_, errors) => errors(c)
  }

  /** The default validator accepts what the configuration's own `IsValid` rejects: a
      default configuration, which lacks a model, a model type and a source. */
  lemma DefaultValidatorAcceptsInvalid()
    ensures ValidateConfig(Create(), Default()) && ManagerValidationErrors(Create(), Default()) == ""
    ensures !IsValid(Default())
  {
    DefaultErrors();
  }

  // ---------------------------------------------------------------------------
  // The default loader
  // ---------------------------------------------------------------------------

  /** Why loading fails: the exception a conversion throws, naming the variable, or
      the unimplemented file loader. */
  datatype LoadError =
    | BadInteger(variable: string, reason: ParseError)
    | BadFloat(variable: string)
    | BadInputSizes(reason: ParseError)
    | NotImplemented(message: string)

  /** The process environment as a map; `getenv` yields the value of a set variable,
      even an empty one. */
  type Environment = map<string, string>

  /** `DefaultConfigLoader::GetEnvVar`. */
  function GetEnvVar(env: Environment, name: string, default: string): (r: string)
    ensures name in env ==> r == env[name]
    ensures name !in env ==> r == default
  {
    if name in env then env[name] else default
  }

  /** `std::stoi` of a variable, with the variable named in the failure. */
  function IntVar(env: Environment, name: string, default: string): (r: Result<Int32, LoadError>)
    ensures r.Success? ==> Stoi(GetEnvVar(env, name, default)) == Success(r.value as int)
    ensures r.Failure? ==> Stoi(GetEnvVar(env, name, default)).Failure?
                           && r.error == BadInteger(name, Stoi(GetEnvVar(env, name, default)).error)
  {
    match Stoi(GetEnvVar(env, name, default))
    case Success(v) => Success(v)
    case Failure(e) => Failure(BadInteger(name, e))
  }

  /** `std::stof` of a variable; the conversion itself is a parameter of the model
      (`None` when it throws). */
  function FloatVar(env: Environment, name: string, default: string, stof: string -> Option<FloatBits>)
    : (r: Result<FloatBits, LoadError>)
    ensures r.Success? <==> stof(GetEnvVar(env, name, default)).Some?
    ensures r.Success? ==> stof(GetEnvVar(env, name, default)) == Some(r.value)
    ensures r.Failure? ==> r.error == BadFloat(name)
  {
    match stof(GetEnvVar(env, name, default))
    case Some(v) => Success(v)
    case None => Failure(BadFloat(name))
  }

  /** A flag variable: set exactly when the text is `true`. */
  function FlagVar(env: Environment, name: string, default: string): (r: bool)
    ensures r <==> GetEnvVar(env, name, default) == "true"
  {
    GetEnvVar(env, name, default) == "true"
  }

  // The variables the environment loader reads.
  const ServerAddressVar := "INFERENCE_SERVER_ADDRESS"
  const PortVar := "INFERENCE_SERVER_PORT"
  const ProtocolVar := "INFERENCE_PROTOCOL"
  const ModelNameVar := "INFERENCE_MODEL_NAME"
  const ModelTypeVar := "INFERENCE_MODEL_TYPE"
  const SourceVar := "INFERENCE_SOURCE"
  const LabelsFileVar := "INFERENCE_LABELS_FILE"
  const BatchSizeVar := "INFERENCE_BATCH_SIZE"
  const ShowFrameVar := "INFERENCE_SHOW_FRAME"
  const WriteFrameVar := "INFERENCE_WRITE_FRAME"
  const ConfidenceVar := "INFERENCE_CONFIDENCE_THRESHOLD"
  const NmsVar := "INFERENCE_NMS_THRESHOLD"
  const VerboseVar := "INFERENCE_VERBOSE"
  const SharedMemoryVar := "INFERENCE_SHARED_MEMORY_TYPE"
  const CudaDeviceVar := "INFERENCE_CUDA_DEVICE_ID"
  const LogLevelVar := "INFERENCE_LOG_LEVEL"
  const LogFileVar := "INFERENCE_LOG_FILE"
  const MultimodalVar := "INFERENCE_ENABLE_MULTIMODAL"
  const TextInputVar := "INFERENCE_TEXT_INPUT"
  const AudioInputVar := "INFERENCE_AUDIO_INPUT"
  const TextPromptVar := "INFERENCE_TEXT_PROMPT"
  const ModalityVar := "INFERENCE_MODALITY_COMBINATION"
  const TextWeightVar := "INFERENCE_TEXT_WEIGHT"
  const ImageWeightVar := "INFERENCE_IMAGE_WEIGHT"
  const AudioWeightVar := "INFERENCE_AUDIO_WEIGHT"
  const InputSizesVar := "INFERENCE_INPUT_SIZES"

  /** The members the loader converts with `std::stoi` and `std::stof`. */
  datatype Numbers = Numbers(
    port: Int32, batchSize: Int32, confidence: FloatBits, nms: FloatBits, cudaDeviceId: Int32,
    textWeight: FloatBits, imageWeight: FloatBits, audioWeight: FloatBits)

  /** `std::stoi` of a variable succeeds. */
  predicate IntOk(env: Environment, name: string, default: string) {
    Stoi(GetEnvVar(env, name, default)).Success?
  }

  /** `std::stof` of a variable succeeds. */
  predicate FloatOk(env: Environment, name: string, default: string, stof: string -> Option<FloatBits>) {
    stof(GetEnvVar(env, name, default)).Some?
  }

  /** The first `k` of the loader's eight conversions succeed, in its order: port,
      batch size, the two thresholds, CUDA device, then the three weights. */
  predicate ConvertedUpTo(env: Environment, stof: string -> Option<FloatBits>, k: nat) {
    && (k > 0 ==> IntOk(env, PortVar, "8000"))
    && (k > 1 ==> IntOk(env, BatchSizeVar, "1"))
    && (k > 2 ==> FloatOk(env, ConfidenceVar, "0.5", stof))
    && (k > 3 ==> FloatOk(env, NmsVar, "0.4", stof))
    && (k > 4 ==> IntOk(env, CudaDeviceVar, "0"))
    && (k > 5 ==> FloatOk(env, TextWeightVar, "1.0", stof))
    && (k > 6 ==> FloatOk(env, ImageWeightVar, "1.0", stof))
    && (k > 7 ==> FloatOk(env, AudioWeightVar, "1.0", stof))
  }

  /** The conversions, in the order the loader makes them: the first that throws is
      the failure, and all eight succeed exactly when the result does. */
  function ReadNumbers(env: Environment, stof: string -> Option<FloatBits>): (r: Result<Numbers, LoadError>)
    ensures r.Success? <==> ConvertedUpTo(env, stof, 8)
    ensures r.Success? ==> && Stoi(GetEnvVar(env, PortVar, "8000")) == Success(r.value.port as int)
                           && Stoi(GetEnvVar(env, BatchSizeVar, "1")) == Success(r.value.batchSize as int)
                           && Stoi(GetEnvVar(env, CudaDeviceVar, "0")) == Success(r.value.cudaDeviceId as int)
    ensures r.Success? ==> && stof(GetEnvVar(env, ConfidenceVar, "0.5")) == Some(r.value.confidence)
                           && stof(GetEnvVar(env, NmsVar, "0.4")) == Some(r.value.nms)
                           && stof(GetEnvVar(env, TextWeightVar, "1.0")) == Some(r.value.textWeight)
                           && stof(GetEnvVar(env, ImageWeightVar, "1.0")) == Some(r.value.imageWeight)
                           && stof(GetEnvVar(env, AudioWeightVar, "1.0")) == Some(r.value.audioWeight)
    ensures !IntOk(env, PortVar, "8000")
            ==> r == Failure(BadInteger(PortVar, Stoi(GetEnvVar(env, PortVar, "8000")).error))
    ensures ConvertedUpTo(env, stof, 1) && !IntOk(env, BatchSizeVar, "1")
            ==> r == Failure(BadInteger(BatchSizeVar, Stoi(GetEnvVar(env, BatchSizeVar, "1")).error))
    ensures ConvertedUpTo(env, stof, 2) && !FloatOk(env, ConfidenceVar, "0.5", stof)
            ==> r == Failure(BadFloat(ConfidenceVar))
    ensures ConvertedUpTo(env, stof, 3) && !FloatOk(env, NmsVar, "0.4", stof)
            ==> r == Failure(BadFloat(NmsVar))
    ensures ConvertedUpTo(env, stof, 4) && !IntOk(env, CudaDeviceVar, "0")
            ==> r == Failure(BadInteger(CudaDeviceVar, Stoi(GetEnvVar(env, CudaDeviceVar, "0")).error))
    ensures ConvertedUpTo(env, stof, 5) && !FloatOk(env, TextWeightVar, "1.0", stof)
            ==> r == Failure(BadFloat(TextWeightVar))
    ensures ConvertedUpTo(env, stof, 6) && !FloatOk(env, ImageWeightVar, "1.0", stof)
            ==> r == Failure(BadFloat(ImageWeightVar))
    ensures ConvertedUpTo(env, stof, 7) && !FloatOk(env, AudioWeightVar, "1.0", stof)
            ==> r == Failure(BadFloat(AudioWeightVar))
  {
    var port :- IntVar(env, PortVar, "8000");
    var batch :- IntVar(env, BatchSizeVar, "1");
    var confidence :- FloatVar(env, ConfidenceVar, "0.5", stof);
    var nms :- FloatVar(env, NmsVar, "0.4", stof);
    var device :- IntVar(env, CudaDeviceVar, "0");
    var textWeight :- FloatVar(env, TextWeightVar, "1.0", stof);
    var imageWeight :- FloatVar(env, ImageWeightVar, "1.0", stof);
    var audioWeight :- FloatVar(env, AudioWeightVar, "1.0", stof);
    Success(Numbers(port, batch, confidence, nms, device, textWeight, imageWeight, audioWeight))
  }

  /** The size list: parsed only from a non-empty variable. */
  function ReadSizes(env: Environment): (r: Result<seq<seq<int>>, LoadError>)
    ensures GetEnvVar(env, InputSizesVar, "") == "" ==> r == Success([])
    ensures var text := GetEnvVar(env, InputSizesVar, "");
            text != "" && ParseInputSizes(text).Success? ==> r == Success(ParseInputSizes(text).value)
    ensures var text := GetEnvVar(env, InputSizesVar, "");
            text != "" && ParseInputSizes(text).Failure? ==> r == Failure(BadInputSizes(ParseInputSizes(text).error))
  {
    var text := GetEnvVar(env, InputSizesVar, "");
    if text == "" then Success([])
    else
      match ParseInputSizes(text)
      case Success(v) => Success(v)
      case Failure(e) => Failure(BadInputSizes(e))
  }

  /** The configuration the loader builds once every conversion has succeeded. */
  function Assemble(env: Environment, n: Numbers, sizes: seq<seq<int>>): (c: InferenceConfig)
    ensures c.serverAddress == GetEnvVar(env, ServerAddressVar, "localhost")
    ensures c.protocol == GetEnvVar(env, ProtocolVar, "http")
    ensures c.modelName == GetEnvVar(env, ModelNameVar, "")
    ensures c.modelType == GetEnvVar(env, ModelTypeVar, "")
    ensures c.source == GetEnvVar(env, SourceVar, "")
    ensures c.labelsFile == GetEnvVar(env, LabelsFileVar, "")
    ensures c.sharedMemoryType == GetEnvVar(env, SharedMemoryVar, "none")
    ensures c.logLevel == GetEnvVar(env, LogLevelVar, "info")
    ensures c.logFile == GetEnvVar(env, LogFileVar, "")
    ensures c.textInput == GetEnvVar(env, TextInputVar, "")
    ensures c.audioInput == GetEnvVar(env, AudioInputVar, "")
    ensures c.textPrompt == GetEnvVar(env, TextPromptVar, "")
    ensures c.modalityCombination == GetEnvVar(env, ModalityVar, "concat")
    ensures c.showFrame <==> GetEnvVar(env, ShowFrameVar, "false") == "true"
    ensures c.writeFrame <==> GetEnvVar(env, WriteFrameVar, "true") == "true"
    ensures c.verbose <==> GetEnvVar(env, VerboseVar, "false") == "true"
    ensures c.enableMultimodal <==> GetEnvVar(env, MultimodalVar, "false") == "true"
    ensures c.port == n.port && c.batchSize == n.batchSize && c.cudaDeviceId == n.cudaDeviceId
    ensures c.confidenceThreshold == n.confidence && c.nmsThreshold == n.nms
    ensures c.textWeight == n.textWeight && c.imageWeight == n.imageWeight && c.audioWeight == n.audioWeight
    ensures c.inputSizes == sizes
    ensures c.modelVersion == "" && c.numThreads == 1 && !c.enableAsync && c.customParams == map[]
  {
    Default().(
      serverAddress := GetEnvVar(env, ServerAddressVar, "localhost"),
      port := n.port,
      protocol := GetEnvVar(env, ProtocolVar, "http"),
      modelName := GetEnvVar(env, ModelNameVar, ""),
      modelType := GetEnvVar(env, ModelTypeVar, ""),
      source := GetEnvVar(env, SourceVar, ""),
      labelsFile := GetEnvVar(env, LabelsFileVar, ""),
      batchSize := n.batchSize,
      showFrame := FlagVar(env, ShowFrameVar, "false"),
      writeFrame := FlagVar(env, WriteFrameVar, "true"),
      confidenceThreshold := n.confidence,
      nmsThreshold := n.nms,
      verbose := FlagVar(env, VerboseVar, "false"),
      sharedMemoryType := GetEnvVar(env, SharedMemoryVar, "none"),
      cudaDeviceId := n.cudaDeviceId,
      logLevel := GetEnvVar(env, LogLevelVar, "info"),
      logFile := GetEnvVar(env, LogFileVar, ""),
      enableMultimodal := FlagVar(env, MultimodalVar, "false"),
      textInput := GetEnvVar(env, TextInputVar, ""),
      audioInput := GetEnvVar(env, AudioInputVar, ""),
      textPrompt := GetEnvVar(env, TextPromptVar, ""),
      modalityCombination := GetEnvVar(env, ModalityVar, "concat"),
      textWeight := n.textWeight,
      imageWeight := n.imageWeight,
      audioWeight := n.audioWeight,
      inputSizes := sizes)
  }

  /** `DefaultConfigLoader::LoadFromEnvironment`: every member from its `INFERENCE_*`
      variable or the built-in fallback text. Only the conversions can throw, and all
      of them come before the size list, so the first failing conversion is the
      failure, then a malformed size list. */
  function LoadFromEnvironment(env: Environment, stof: string -> Option<FloatBits>)
    : (r: Result<InferenceConfig, LoadError>)
    ensures r.Success? <==> ReadNumbers(env, stof).Success? && ReadSizes(env).Success?
    ensures ReadNumbers(env, stof).Failure? ==> r == Failure(ReadNumbers(env, stof).error)
    ensures ReadNumbers(env, stof).Success? && ReadSizes(env).Failure? ==> r == Failure(ReadSizes(env).error)
    ensures r.Success? ==> r.value == Assemble(env, ReadNumbers(env, stof).value, ReadSizes(env).value)
  {
    var n :- ReadNumbers(env, stof);
    var sizes :- ReadSizes(env);
    Success(Assemble(env, n, sizes))
  }

  /** The text a flag is rendered as. */
  function FlagText(b: bool): string {
    if b then "true" else "false"
  }

  /** The members the environment loader never sets are at their defaults, and the
      size list is one the notation can express. */
  predicate LoaderReachable(c: InferenceConfig) {
    && c.modelVersion == "" && c.numThreads == 1 && !c.enableAsync && c.customParams == map[]
    && (forall i :: 0 <= i < |c.inputSizes| ==> |c.inputSizes[i]| >= 1)
    && (forall i, j :: 0 <= i < |c.inputSizes| && 0 <= j < |c.inputSizes[i]| ==>
          LongMin <= c.inputSizes[i][j] <= LongMax)
  }

  /** `env` and `stof` render every converted member of `c`. */
  ghost predicate DescribesNumbers(env: Environment, stof: string -> Option<FloatBits>, c: InferenceConfig) {
    && GetEnvVar(env, PortVar, "8000") == FormatInt(c.port)
    && GetEnvVar(env, BatchSizeVar, "1") == FormatInt(c.batchSize)
    && stof(GetEnvVar(env, ConfidenceVar, "0.5")) == Some(c.confidenceThreshold)
    && stof(GetEnvVar(env, NmsVar, "0.4")) == Some(c.nmsThreshold)
    && GetEnvVar(env, CudaDeviceVar, "0") == FormatInt(c.cudaDeviceId)
    && stof(GetEnvVar(env, TextWeightVar, "1.0")) == Some(c.textWeight)
    && stof(GetEnvVar(env, ImageWeightVar, "1.0")) == Some(c.imageWeight)
    && stof(GetEnvVar(env, AudioWeightVar, "1.0")) == Some(c.audioWeight)
  }

  /** `env` holds every text and flag member of `c` (a variable may be unset when its
      fallback text is the member). */
  ghost predicate DescribesTexts(env: Environment, c: InferenceConfig) {
    && GetEnvVar(env, ServerAddressVar, "localhost") == c.serverAddress
    && GetEnvVar(env, ProtocolVar, "http") == c.protocol
    && GetEnvVar(env, ModelNameVar, "") == c.modelName
    && GetEnvVar(env, ModelTypeVar, "") == c.modelType
    && GetEnvVar(env, SourceVar, "") == c.source
    && GetEnvVar(env, LabelsFileVar, "") == c.labelsFile
    && GetEnvVar(env, ShowFrameVar, "false") == FlagText(c.showFrame)
    && GetEnvVar(env, WriteFrameVar, "true") == FlagText(c.writeFrame)
    && GetEnvVar(env, VerboseVar, "false") == FlagText(c.verbose)
    && GetEnvVar(env, SharedMemoryVar, "none") == c.sharedMemoryType
    && GetEnvVar(env, LogLevelVar, "info") == c.logLevel
    && GetEnvVar(env, LogFileVar, "") == c.logFile
    && GetEnvVar(env, MultimodalVar, "false") == FlagText(c.enableMultimodal)
    && GetEnvVar(env, TextInputVar, "") == c.textInput
    && GetEnvVar(env, AudioInputVar, "") == c.audioInput
    && GetEnvVar(env, TextPromptVar, "") == c.textPrompt
    && GetEnvVar(env, ModalityVar, "concat") == c.modalityCombination
  }

  /** The member values a configuration gives the conversions. */
  function NumbersOf(c: InferenceConfig): Numbers {
    Numbers(c.port, c.batchSize, c.confidenceThreshold, c.nmsThreshold, c.cudaDeviceId,
            c.textWeight, c.imageWeight, c.audioWeight)
  }

  /** Rendered numbers convert back to themselves. */
  lemma NumbersRoundTrip(env: Environment, stof: string -> Option<FloatBits>, c: InferenceConfig)
    requires DescribesNumbers(env, stof, c)
    ensures ReadNumbers(env, stof) == Success(NumbersOf(c))
  {
    ParseFormatted(c.port, "", IntMin, IntMax);
    assert FormatInt(c.port) + "" == FormatInt(c.port);
    ParseFormatted(c.batchSize, "", IntMin, IntMax);
    assert FormatInt(c.batchSize) + "" == FormatInt(c.batchSize);
    ParseFormatted(c.cudaDeviceId, "", IntMin, IntMax);
    assert FormatInt(c.cudaDeviceId) + "" == FormatInt(c.cudaDeviceId);
    assert ConvertedUpTo(env, stof, 8);
    var r := ReadNumbers(env, stof);
    assert r.value.port == c.port && r.value.batchSize == c.batchSize && r.value.cudaDeviceId == c.cudaDeviceId;
  }

  /** A rendered size list reads back as itself; the empty list renders as the empty
      text, which is not parsed. */
  lemma SizesRoundTrip(env: Environment, c: InferenceConfig)
    requires LoaderReachable(c)
    requires GetEnvVar(env, InputSizesVar, "") == FormatInputSizes(c.inputSizes)
    ensures ReadSizes(env) == Success(c.inputSizes)
  {
    if |c.inputSizes| > 0 {
      SizesTextNonEmpty(c.inputSizes);
      InputSizesRoundTrip(c.inputSizes);
    } else {
      assert FormatInputSizes(c.inputSizes) == "";
    }
  }

  /** Assembling the texts and the numbers of a configuration gives it back. */
  lemma AssembleRoundTrip(env: Environment, c: InferenceConfig)
    requires LoaderReachable(c) && DescribesTexts(env, c)
    ensures Assemble(env, NumbersOf(c), c.inputSizes) == c
  {
  }

  /** An environment that renders a configuration loads back as that configuration,
      whether or not the configuration is valid: the loader checks no range. */
  lemma EnvironmentRoundTrip(env: Environment, stof: string -> Option<FloatBits>, c: InferenceConfig)
    requires LoaderReachable(c) && DescribesNumbers(env, stof, c) && DescribesTexts(env, c)
    requires GetEnvVar(env, InputSizesVar, "") == FormatInputSizes(c.inputSizes)
    ensures LoadFromEnvironment(env, stof) == Success(c)
  {
    NumbersRoundTrip(env, stof, c);
    SizesRoundTrip(env, c);
    AssembleRoundTrip(env, c);
  }

  /** A non-empty size list with non-empty groups renders as non-empty text. */
  lemma SizesTextNonEmpty(sizes: seq<seq<int>>)
    requires |sizes| >= 1 && forall i :: 0 <= i < |sizes| ==> |sizes[i]| >= 1
    ensures FormatInputSizes(sizes) != ""
  {
    var groups := seq(|sizes|, i requires 0 <= i < |sizes| => FormatIntList(sizes[i], ','));
    GroupText(sizes[|sizes| - 1]);
    assert groups[|groups| - 1] != "";
    JoinLast(groups, [';']);
  }

  /** An empty environment loads as the default configuration, given a `stof` that
      reads the fallback texts as the default floats. */
  lemma EmptyEnvironmentIsDefault(stof: string -> Option<FloatBits>)
    requires stof("0.5") == Some(FloatHalf) && stof("0.4") == Some(FloatPointFour)
    requires stof("1.0") == Some(FloatOne)
    ensures LoadFromEnvironment(map[], stof) == Success(Default())
  {
    DefaultNumbersUnset(stof);
    DefaultTextsUnset();
    assert FormatInputSizes([]) == "";
    EnvironmentRoundTrip(map[], stof, Default());
  }

  /** The fallback texts of the conversions render the default numbers. */
  lemma DefaultNumbersUnset(stof: string -> Option<FloatBits>)
    requires stof("0.5") == Some(FloatHalf) && stof("0.4") == Some(FloatPointFour)
    requires stof("1.0") == Some(FloatOne)
    ensures DescribesNumbers(map[], stof, Default())
  {
    assert Decimal(8) == "8" && Decimal(80) == "80" && Decimal(800) == "800";
    assert FormatInt(8000) == "8000";
    assert FormatInt(1) == "1" && FormatInt(0) == "0";
  }

  /** The fallback texts of the other members are the default texts and flags. */
  lemma DefaultTextsUnset()
    ensures LoaderReachable(Default()) && DescribesTexts(map[], Default())
  {
  }

  /** A port text with no digit where one is due fails the whole load, naming the
      variable; the port is converted first, so no later variable matters. */
  lemma NonNumericPortFails(env: Environment, stof: string -> Option<FloatBits>)
    requires PortVar in env
    requires var t := env[PortVar];
             t == "" || (!IsDigit(t[0]) && !IsSpace(t[0]) && t[0] != '-' && t[0] != '+')
    ensures LoadFromEnvironment(env, stof) == Failure(BadInteger(PortVar, InvalidArgument))
  {
    ParseNoDigits(env[PortVar], IntMin, IntMax);
  }

  /** A port beyond `int` fails as out of range. */
  lemma PortOutOfRangeFails(env: Environment, stof: string -> Option<FloatBits>, n: nat)
    requires n > IntMax && PortVar in env && env[PortVar] == Decimal(n)
    ensures LoadFromEnvironment(env, stof) == Failure(BadInteger(PortVar, OutOfRange))
  {
    ParseNonNegative(n, "", IntMin, IntMax);
    assert Decimal(n) + "" == Decimal(n);
  }

  /** A flag is set only by the exact text `true`: `TRUE`, `1` or `yes` leave it off. */
  lemma FlagsOnlyExactTrue(env: Environment, stof: string -> Option<FloatBits>)
    requires VerboseVar in env && env[VerboseVar] in {"TRUE", "1", "yes"}
    ensures var r := LoadFromEnvironment(env, stof);
            r.Success? ==> !r.value.verbose
  {
  }

  /** An empty size variable is not parsed: the sizes stay empty. */
  lemma EmptySizesIgnored(env: Environment, stof: string -> Option<FloatBits>)
    requires InputSizesVar in env && env[InputSizesVar] == ""
    ensures var r := LoadFromEnvironment(env, stof);
            r.Success? ==> r.value.inputSizes == []
  {
  }

  /** `DefaultConfigLoader::LoadFromFile`: not implemented, it always throws. */
  function LoadFromFile(filename: string): (r: Result<InferenceConfig, LoadError>)
    ensures r.Failure? && r.error.NotImplemented?
  {
    Failure(NotImplemented("File config loading not yet implemented"))
  }

  /** `DefaultConfigLoader::CreateDefault`. */
  function CreateDefault(): (c: InferenceConfig)
    ensures c == Default()
    ensures !IsValid(c) && Merge(c, c) == c
  {
    DefaultErrors();
    MergeSelf(Default());
    Default()
  }
}

=== FILE: file_system.dfy ===
/** `FileSystem`: the extension of a path as `std::filesystem::path::extension`
    computes it, the replaceable default file system, and the classification of
    file names as images, videos or models by their extension. */
module FileSystem {
  import opened Wrappers
  import opened StringUtils

  // ---------------------------------------------------------------------------
  // Path decomposition
  // ---------------------------------------------------------------------------

  /** The position of the last `c` in `s`, if any. */
  function LastIndex(s: string, c: char): (r: Option<nat>)
    ensures r.None? ==> forall i :: 0 <= i < |s| ==> s[i] != c
    ensures r.Some? ==> r.value < |s| && s[r.value] == c
    ensures r.Some? ==> forall i :: r.value < i < |s| ==> s[i] != c
    decreases |s|
  {
    if |s| == 0 then None
    else if s[|s| - 1] == c then Some(|s| - 1)
    else LastIndex(s[..|s| - 1], c)
  }

  /** `path::filename` on a POSIX path: everything after the last separator, which is
      empty when the path ends in a separator. */
  function FileName(path: string): (r: string)
    ensures |r| <= |path| && r == path[|path| - |r|..]
    ensures forall i :: 0 <= i < |r| ==> r[i] != '/'
    ensures forall i :: |path| - |r| <= i < |path| ==> path[i] != '/'
    ensures |r| < |path| ==> path[|path| - |r| - 1] == '/'
  {
    match LastIndex(path, '/')
    case None => path
    case Some(k) => path[k + 1..]
  }

  /** `FileSystem::GetFileExtension`: `path::extension` of the file name — from its last
      period to the end — or none when that is empty. A name without a period, a name
      whose only period leads it (a hidden file such as `.bashrc`), and the names `.`
      and `..` have no extension (the rules of [fs.path.decompose] in ISO/IEC 14882,
      as the GNU and LLVM standard libraries implement them). */
  function GetFileExtension(path: string): (r: Option<string>)
    ensures r.Some? ==> 1 <= |r.value| <= |path| && r.value[0] == '.' && r.value == path[|path| - |r.value|..]
    ensures r.Some? ==> forall i :: 0 < i < |r.value| ==> r.value[i] != '.' && r.value[i] != '/'
  {
    var name := FileName(path);
    if name == ".." then None
    else
      match LastIndex(name, '.')
      case None => None
      case Some(k) =>
        if k == 0 then None
        else
          assert name[k..] == path[|path| - |name| + k..];
          assert forall i :: 0 < i < |name| - k ==> name[k..][i] == name[k + i];
          Some(name[k..])
  }

  /** The period at `k` starts the extension when it ends the path's last period-free,
      separator-free run, does not lead the file name, and the file name is not `..`. */
  lemma ExtensionAt(path: string, k: nat)
    requires 0 < k < |path| && path[k] == '.' && path[k - 1] != '/'
    requires forall i :: k < i < |path| ==> path[i] != '.' && path[i] != '/'
    requires k == |path| - 1 && path[k - 1] == '.' ==> k >= 2 && path[k - 2] != '/'
    ensures GetFileExtension(path) == Some(path[k..])
  {
    var name := FileName(path);
    var start := |path| - |name|;
    assert start < k by {
      assert name[k - 1 - start] == path[k - 1];
    }
    assert name[k - start] == '.';
    var r := LastIndex(name, '.');
    assert r.value == k - start by {
      assert forall i :: k - start < i < |name| ==> name[i] == path[i + start];
    }
    assert name[k - start..] == path[k..];
  }

  /** A directory part ending in a separator (or nothing), then a non-empty stem free
      of separators, then `ext`, a period followed by a run free of periods and
      separators: the extension is `ext`, unless the name is `..`. */
  lemma ExtensionOfName(dir: string, stem: string, ext: string)
    requires dir == [] || dir[|dir| - 1] == '/'
    requires |stem| >= 1 && forall i :: 0 <= i < |stem| ==> stem[i] != '/'
    requires |ext| >= 1 && ext[0] == '.'
    requires forall i :: 0 < i < |ext| ==> ext[i] != '.' && ext[i] != '/'
    requires stem + ext != ".."
    ensures GetFileExtension(dir + stem + ext) == Some(ext)
  {
    var path := dir + stem + ext;
    var k := |dir| + |stem|;
    assert path[k - 1] == stem[|stem| - 1];
    assert forall i :: k <= i < |path| ==> path[i] == ext[i - k];
    assert |stem| == 1 && |ext| == 1 && stem[0] == '.' ==> stem + ext == "..";
    assert |stem| >= 2 ==> path[k - 2] == stem[|stem| - 2];
    ExtensionAt(path, k);
    assert path[k..] == ext;
  }

  /** A path whose file name has no period after its first character — `README`,
      `.bashrc`, `.`, a directory path ending in a separator — has no extension. */
  lemma NoExtensionWithoutPeriod(path: string)
    requires forall i :: 0 < i < |path| && path[i] == '.' ==> path[i - 1] == '/'
    ensures GetFileExtension(path) == None
  {
    var name := FileName(path);
    var start := |path| - |name|;
    forall i | 0 < i < |name|
      ensures name[i] != '.'
    {
      assert name[i] == path[start + i] && name[i - 1] == path[start + i - 1];
    }
  }

  /** The file name of a directory part followed by a separator-free name is that
      name. */
  lemma FileNameAfterDirectory(dir: string, name: string)
    requires dir == [] || dir[|dir| - 1] == '/'
    requires forall i :: 0 <= i < |name| ==> name[i] != '/'
    ensures FileName(dir + name) == name
  {
    var path := dir + name;
    var r := FileName(path);
    var n := |r|;
    assert forall i :: |dir| <= i < |path| ==> path[i] == name[i - |dir|];
    assert dir != [] ==> path[|dir| - 1] == '/';
    assert n == |name|;
    assert path[|dir|..] == name;
  }

  /** `..` names the parent directory and has no extension, although it has a period
      after its first character. */
  lemma ParentHasNoExtension(dir: string)
    requires dir == [] || dir[|dir| - 1] == '/'
    ensures GetFileExtension(dir + "..") == None
  {
    FileNameAfterDirectory(dir, "..");
  }

  // ---------------------------------------------------------------------------
  // The default file system
  // ---------------------------------------------------------------------------

  /** What `FileSystemUtils::default_file_system_` can point to: the library's own
      `FileSystem`, or any other `IFileSystem` a caller installs (a mock, say), of
      which only its `GetFileExtension` matters here. */
  datatype FileSystemImpl =
    | Standard
    | Substitute(extensionOf: string -> Option<string>)

  /** `IFileSystem::GetFileExtension` dispatched on the implementation. */
  function ExtensionBy(fs: FileSystemImpl, path: string): Option<string> {
    match fs
    case Standard => GetFileExtension(path)
    case Substitute(extensionOf) => extensionOf(path)
  }

  /** The static `default_file_system_` pointer; `None` is a null `shared_ptr`. */
  datatype Defaults = Defaults(current: Option<FileSystemImpl>)

  /** At start-up the default is a fresh `FileSystem`. */
  const Initial: Defaults := Defaults(Some(Standard))

  /** `FileSystemUtils::GetDefault`. */
  function GetDefault(d: Defaults): (r: Option<FileSystemImpl>)
    ensures Defaults(r) == d
  {
    d.current
  }

  /** `FileSystemUtils::SetDefault`: replaces the pointer; a null pointer is accepted. */
  function SetDefault(d: Defaults, fs: Option<FileSystemImpl>): (r: Defaults)
    ensures GetDefault(r) == fs
  {
    Defaults(fs)
  }

  /** The default is whatever was installed last, regardless of what came before. */
  lemma DefaultIsLastSet(d: Defaults, a: Option<FileSystemImpl>, b: Option<FileSystemImpl>)
    ensures GetDefault(SetDefault(d, a)).Some? <==> a.Some?
    ensures GetDefault(SetDefault(SetDefault(d, a), b)) == GetDefault(SetDefault(d, b))
    ensures a.Some? ==> GetDefault(SetDefault(d, a)).value == a.value
  {
  }

  // ---------------------------------------------------------------------------
  // Classification
  // ---------------------------------------------------------------------------

  datatype FileKind = Image | Video | Model

  /** The three lookup sets, written out as in the source, in lower case. */
  function Extensions(kind: FileKind): set<string> {
    match kind
    case Image =>
      {".jpg", ".jpeg", ".png", ".bmp", ".gif", ".tiff", ".tif", ".webp",
       ".ico", ".ppm", ".pgm", ".pbm", ".sr", ".ras", ".jp2"}
    case Video =>
      {".mp4", ".avi", ".mkv", ".mov", ".wmv", ".flv", ".webm", ".m4v",
       ".3gp", ".3g2", ".mxf", ".roq", ".nsv", ".f4v", ".f4p", ".f4a", ".f4b"}
    case Model =>
      {".onnx", ".pb", ".trt", ".engine", ".plan", ".pth", ".pt", ".h5",
       ".savedmodel", ".tflite", ".mlmodel", ".bin", ".caffemodel", ".prototxt"}
  }

  /** `GetSupportedImageExtensions`, `GetSupportedVideoExtensions` and
      `GetSupportedModelExtensions`: the same extensions as separately written lists. */
  function SupportedExtensions(kind: FileKind): (r: seq<string>)
    ensures forall x :: x in r <==> x in Extensions(kind)
  {
    match kind
    case Image =>
      [".jpg", ".jpeg", ".png", ".bmp", ".gif", ".tiff", ".tif", ".webp",
       ".ico", ".ppm", ".pgm", ".pbm", ".sr", ".ras", ".jp2"]
    case Video =>
      [".mp4", ".avi", ".mkv", ".mov", ".wmv", ".flv", ".webm", ".m4v",
       ".3gp", ".3g2", ".mxf", ".roq", ".nsv", ".f4v", ".f4p", ".f4a", ".f4b"]
    case Model =>
      [".onnx", ".pb", ".trt", ".engine", ".plan", ".pth", ".pt", ".h5",
       ".savedmodel", ".tflite", ".mlmodel", ".bin", ".caffemodel", ".prototxt"]
  }

  /** The shared body of `IsImageFile`, `IsVideoFile` and `IsModelFile`: ask the
      default file system for the extension, lower-case it with `::tolower`, look it
      up in `table`. The default must not be null, since it is dereferenced. */
  function Lookup(d: Defaults, filename: string, table: set<string>): (r: bool)
    requires d.current.Some?
    ensures r ==> ExtensionBy(d.current.value, filename).Some?
  {
    match ExtensionBy(d.current.value, filename)
    case None => false
    case Some(ext) => ToLower(ext) in table
  }

  function IsKind(d: Defaults, filename: string, kind: FileKind): bool
    requires d.current.Some?
  {
    Lookup(d, filename, Extensions(kind))
  }

  function IsImageFile(d: Defaults, filename: string): (r: bool)
    requires d.current.Some?
    ensures r <==> ExtensionBy(d.current.value, filename).Some?
                   && ToLower(ExtensionBy(d.current.value, filename).value) in SupportedExtensions(Image)
    ensures r ==> !IsKind(d, filename, Video) && !IsKind(d, filename, Model)
  {
    SupportedMatchesLookup(Image);
    AtMostOneKind(d, filename, Image, Video);
    AtMostOneKind(d, filename, Image, Model);
    IsKind(d, filename, Image)
  }

  function IsVideoFile(d: Defaults, filename: string): (r: bool)
    requires d.current.Some?
    ensures r <==> ExtensionBy(d.current.value, filename).Some?
                   && ToLower(ExtensionBy(d.current.value, filename).value) in SupportedExtensions(Video)
    ensures r ==> !IsKind(d, filename, Image) && !IsKind(d, filename, Model)
  {
    SupportedMatchesLookup(Video);
    AtMostOneKind(d, filename, Video, Image);
    AtMostOneKind(d, filename, Video, Model);
    IsKind(d, filename, Video)
  }

  function IsModelFile(d: Defaults, filename: string): (r: bool)
    requires d.current.Some?
    ensures r <==> ExtensionBy(d.current.value, filename).Some?
                   && ToLower(ExtensionBy(d.current.value, filename).value) in SupportedExtensions(Model)
    ensures r ==> !IsKind(d, filename, Image) && !IsKind(d, filename, Video)
  {
    SupportedMatchesLookup(Model);
    AtMostOneKind(d, filename, Model, Image);
    AtMostOneKind(d, filename, Model, Video);
    IsKind(d, filename, Model)
  }

  /** Each supported list has exactly the elements of its lookup set, so the two
      copies in the source agree. */
  lemma SupportedMatchesLookup(kind: FileKind)
    ensures forall x :: x in SupportedExtensions(kind) <==> x in Extensions(kind)
  {
  }

  /** No extension belongs to two kinds. */
  lemma KindsDisjoint(a: FileKind, b: FileKind)
    requires a != b
    ensures Extensions(a) !! Extensions(b)
  {
    match (a, b)
    case (Image, Video) => ImageNotVideo();
    case (Video, Image) => ImageNotVideo();
    case (Image, Model) => ImageNotModel();
    case (Model, Image) => ImageNotModel();
    case (Video, Model) => VideoNotModel();
    case (Model, Video) => VideoNotModel();
  }

  lemma ImageNotVideo()
    ensures Extensions(Image) !! Extensions(Video)
  {
  }

  lemma ImageNotModel()
    ensures Extensions(Image) !! Extensions(Model)
  {
  }

  lemma VideoNotModel()
    ensures Extensions(Video) !! Extensions(Model)
  {
  }

  /** Whatever the default file system, a name is at most one of image, video and
      model. */
  lemma AtMostOneKind(d: Defaults, filename: string, a: FileKind, b: FileKind)
    requires d.current.Some? && a != b
    ensures !(IsKind(d, filename, a) && IsKind(d, filename, b))
  {
    KindsDisjoint(a, b);
  }

  /** With the standard file system, a name with a proper extension is accepted by a
      table exactly when its extension, in any mix of case, lower-cases into it. */
  lemma ClassifyByExtension(d: Defaults, dir: string, stem: string, ext: string, table: set<string>)
    requires d.current == Some(Standard)
    requires dir == [] || dir[|dir| - 1] == '/'
    requires |stem| >= 1 && forall i :: 0 <= i < |stem| ==> stem[i] != '/'
    requires |ext| >= 1 && ext[0] == '.'
    requires forall i :: 0 < i < |ext| ==> ext[i] != '.' && ext[i] != '/'
    requires stem + ext != ".."
    ensures Lookup(d, dir + stem + ext, table) <==> ToLower(ext) in table
  {
    ExtensionOfName(dir, stem, ext);
  }

  /** The lookup ignores case: upper-casing or lower-casing the extension does not
      change the classification. */
  lemma ClassifyIgnoresCase(d: Defaults, dir: string, stem: string, ext: string, table: set<string>)
    requires d.current == Some(Standard)
    requires dir == [] || dir[|dir| - 1] == '/'
    requires |stem| >= 1 && forall i :: 0 <= i < |stem| ==> stem[i] != '/'
    requires |ext| >= 1 && ext[0] == '.'
    requires forall i :: 0 < i < |ext| ==> ext[i] != '.' && ext[i] != '/'
    requires stem + ext != ".."
    ensures Lookup(d, dir + stem + ToUpper(ext), table) == Lookup(d, dir + stem + ext, table)
    ensures Lookup(d, dir + stem + ToLower(ext), table) == Lookup(d, dir + stem + ext, table)
  {
    CaseKeepsExtensionShape(stem, ext);
    ClassifyByExtension(d, dir, stem, ext, table);
    ClassifyByExtension(d, dir, stem, ToUpper(ext), table);
    ClassifyByExtension(d, dir, stem, ToLower(ext), table);
    LowerAbsorbs(ext);
  }

  /** Changing the case of letters keeps the periods and the separators where they
      are. */
  lemma CaseKeepsExtensionShape(stem: string, ext: string)
    requires |stem| >= 1
    requires |ext| >= 1 && ext[0] == '.'
    requires forall i :: 0 < i < |ext| ==> ext[i] != '.' && ext[i] != '/'
    requires stem + ext != ".."
    ensures var u := ToUpper(ext); |u| >= 1 && u[0] == '.' && stem + u != ".."
    ensures var u := ToUpper(ext); forall i :: 0 < i < |u| ==> u[i] != '.' && u[i] != '/'
    ensures var l := ToLower(ext); |l| >= 1 && l[0] == '.' && stem + l != ".."
    ensures var l := ToLower(ext); forall i :: 0 < i < |l| ==> l[i] != '.' && l[i] != '/'
  {
    var u, l := ToUpper(ext), ToLower(ext);
    if |ext| == 1 {
      assert u == ext && l == ext;
    } else {
      assert |stem + u| >= 3 && |stem + l| >= 3;
    }
  }

  /** A name the file system finds no extension for is none of the three kinds. */
  lemma NoExtensionNoKind(d: Defaults, filename: string, kind: FileKind)
    requires d.current.Some? && ExtensionBy(d.current.value, filename).None?
    ensures !IsKind(d, filename, kind)
  {
  }

  /** Installing a substitute file system makes classification follow its answer. */
  lemma ClassifyThroughSubstitute(d: Defaults, extensionOf: string -> Option<string>, filename: string, table: set<string>)
    ensures var d' := SetDefault(d, Some(Substitute(extensionOf)));
            Lookup(d', filename, table) <==> extensionOf(filename).Some? && ToLower(extensionOf(filename).value) in table
  {
  }

  /** Any stem with the extension `.JPG` is an image. */
  lemma UpperCaseImage(stem: string)
    requires |stem| >= 1 && forall i :: 0 <= i < |stem| ==> stem[i] != '/'
    ensures IsImageFile(Initial, stem + ".JPG")
  {
    ClassifyByExtension(Initial, "", stem, ".JPG", Extensions(Image));
    assert "" + stem + ".JPG" == stem + ".JPG";
    JpgLowered();
  }

  lemma JpgLowered()
    ensures ToLower(".JPG") == ".jpg"
  {
  }

  /** Any stem in any directory with the extension `.onnx` is a model. */
  lemma OnnxIsModel(dir: string, stem: string)
    requires dir == [] || dir[|dir| - 1] == '/'
    requires |stem| >= 1 && forall i :: 0 <= i < |stem| ==> stem[i] != '/'
    ensures IsModelFile(Initial, dir + stem + ".onnx")
  {
    ClassifyByExtension(Initial, dir, stem, ".onnx", Extensions(Model));
    OnnxLowered();
  }

  lemma OnnxLowered()
    ensures ToLower(".onnx") == ".onnx"
  {
  }

  /** Only the last extension counts: `archive.tar.gz`, and any other stem with the
      extension `.gz`, is none of the three kinds. */
  lemma GzIsNoKind(stem: string, kind: FileKind)
    requires |stem| >= 1 && forall i :: 0 <= i < |stem| ==> stem[i] != '/'
    ensures !IsKind(Initial, stem + ".gz", kind)
  {
    ClassifyByExtension(Initial, "", stem, ".gz", Extensions(kind));
    assert "" + stem + ".gz" == stem + ".gz";
    GzLowered();
    GzUnlisted(kind);
  }

  lemma GzLowered()
    ensures ToLower(".gz") == ".gz"
  {
  }

  lemma GzUnlisted(kind: FileKind)
    ensures ".gz" !in Extensions(kind)
  {
  }
}

=== FILE: fps_counter.dfy ===
/** `PerformanceUtils::FPSCounter`: a ring buffer of the last `window` frame times.
    Times are abstract integers (milliseconds of the high-resolution clock); the
    frames-per-second ratio itself is floating point and is left as the pair of
    numbers it is computed from. */
module FpsCounter {
  import opened Wrappers
  import opened SizeArithmetic

  /** The counter's fields: the ring of times, its size, the slot the next update
      writes and whether the ring has wrapped at least once. */
  datatype Counter = Counter(times: seq<int>, window: nat, index: nat, full: bool)

  /** The largest ring the constructor can allocate: `std::vector::max_size()` of
      8-byte time points on a 64-bit target, `PTRDIFF_MAX / 8`; beyond it the
      constructor throws `std::length_error`. */
  const MaxWindow: nat := 0x0FFF_FFFF_FFFF_FFFF

  /** What every reachable counter satisfies: the ring has `window` slots and the
      index is a slot (or 0 for the degenerate empty ring, which never wraps). */
  predicate Valid(c: Counter) {
    |c.times| == c.window <= MaxWindow
    && (if c.window == 0 then c.index == 0 && !c.full else c.index < c.window)
  }

  /** The constructor: `window` default (epoch, 0) times, index 0, not full. */
  function New(window: nat): (c: Counter)
    requires window <= MaxWindow
    ensures Valid(c) && c.window == window && c.index == 0 && !c.full
  {
    Counter(seq(window, _ => 0), window, 0, false)
  }

  /** The window the constructor's parameter defaults to. */
  const DefaultWindow: nat := 30

  /** The constructor called without an argument: a ring of thirty slots. */
  function NewDefault(): (c: Counter)
    ensures Valid(c) && c.window == DefaultWindow && c.index == 0 && !c.full
  {
    New(DefaultWindow)
  }

  /** `Update`: store `now` in the current slot, advance the index modulo the window,
      and mark the ring full once the index wraps to 0. The source divides by the
      window, so an empty ring is excluded. */
  function Update(c: Counter, now: int): (r: Counter)
    requires Valid(c) && c.window > 0
    ensures Valid(r) && r.window == c.window
    ensures r.index == if c.index + 1 == c.window then 0 else c.index + 1
    ensures r.full <==> c.full || r.index == 0
    ensures r.times[c.index] == now
    ensures forall k :: 0 <= k < c.window && k != c.index ==> r.times[k] == c.times[k]
  {
    var next := (c.index + 1) % c.window;
    NextIndex(c.index, c.window);
    Counter(c.times[c.index := now], c.window, next, c.full || next == 0)
  }

  /** `Reset`: back to the first slot and not full; the stored times are kept. */
  function Reset(c: Counter): (r: Counter)
    requires Valid(c)
    ensures Valid(r) && r.index == 0 && !r.full
    ensures r.times == c.times && r.window == c.window
  {
    c.(index := 0, full := false)
  }

  /** The samples a reading uses: how many, the slot of the newest and the slot of
      the oldest. */
  datatype Span = Span(count: nat, newest: nat, oldest: nat)

  /** The slot selection of `GetCurrentFPS`, in the source's `size_t` arithmetic:
      nothing before two samples exist in a ring that has not wrapped; otherwise the
      whole ring when full, else the samples so far, ending just before the index and
      starting `count` slots earlier. */
  function Window(c: Counter): (r: Option<Span>)
    requires Valid(c)
    ensures r.None? <==> !c.full && c.index < 2
    ensures r.Some? ==> c.window > 0
                        && r.value.count == (if c.full then c.window else c.index)
                        && r.value.newest == (if c.index == 0 then c.window - 1 else c.index - 1)
                        && r.value.oldest == (if c.full then c.index else 0)
                        && 1 <= r.value.count <= c.window
  {
    if !c.full && c.index < 2 then None
    else
      var count := if c.full then c.window else c.index;
      var newest := WrapSize(WrapSize(c.index - 1) + c.window) % c.window;
      var oldest := WrapSize(WrapSize(c.index - count) + c.window) % c.window;
      NewestSlot(c.index, c.window);
      OldestSlot(c.index, c.window, c.full);
      Some(Span(count, newest, oldest))
  }

  /** The newest slot in `size_t` arithmetic: the one before the index, cyclically. */
  lemma NewestSlot(index: nat, window: nat)
    requires index < window <= MaxWindow
    ensures WrapSize(WrapSize(index - 1) + window) % window
            == if index == 0 then window - 1 else index - 1
  {
    if index == 0 {
      ModOf(-1, SizeModulus, -1, SizeModulus - 1);
      ModOf(SizeModulus - 1 + window, SizeModulus, 1, window - 1);
      ModOf(window - 1, window, 0, window - 1);
    } else {
      ModOf(index - 1, SizeModulus, 0, index - 1);
      ModOf(index - 1 + window, SizeModulus, 0, index - 1 + window);
      ModOf(index - 1 + window, window, 1, index - 1);
    }
  }

  /** The oldest slot in `size_t` arithmetic: the index itself when the ring is full
      (the subtraction wraps below zero and back), slot 0 otherwise. */
  lemma OldestSlot(index: nat, window: nat, full: bool)
    requires index < window <= MaxWindow
    ensures var count := if full then window else index;
            WrapSize(WrapSize(index - count) + window) % window
            == if full then index else 0
  {
    if full {
      ModOf(index - window, SizeModulus, -1, SizeModulus + index - window);
      ModOf(SizeModulus + index, SizeModulus, 1, index);
      ModOf(index, window, 0, index);
    } else {
      ModOf(0, SizeModulus, 0, 0);
      ModOf(window, SizeModulus, 0, window);
      ModOf(window, window, 1, 0);
    }
  }

  // ---------------------------------------------------------------------------
  // Remainders
  // ---------------------------------------------------------------------------

  /** A positive multiple of `w` is at least `w`. */
  lemma MultipleAtLeast(a: int, w: int)
    requires a >= 1 && w > 0
    ensures a * w >= w
  {
    var k := a - 1;
    assert a * w == k * w + w;
    assert k * w >= 0;
  }

  /** Quotient and remainder are unique. */
  lemma ModOf(x: int, w: int, q: int, r: int)
    requires w > 0 && 0 <= r < w && x == q * w + r
    ensures x % w == r && x / w == q
  {
    var q', r' := x / w, x % w;
    assert (q - q') * w == r' - r;
    if q != q' {
      NonZeroMultiple(q - q', w);
    }
  }

  /** A non-zero multiple of `w` is at least `w` away from zero. */
  lemma NonZeroMultiple(k: int, w: int)
    requires k != 0 && w > 0
    ensures k * w >= w || k * w <= -w
  {
    if k > 0 {
      MultipleAtLeast(k, w);
    } else {
      MultipleAtLeast(-k, w);
      assert (-k) * w == -(k * w);
    }
  }

  /** The source's `(index + 1) % window` advances cyclically. */
  lemma NextIndex(index: nat, window: nat)
    requires index < window
    ensures (index + 1) % window == if index + 1 == window then 0 else index + 1
  {
    if index + 1 == window {
      ModOf(index + 1, window, 1, 0);
    } else {
      ModOf(index + 1, window, 0, index + 1);
    }
  }

  /** The slot the `n`-th update of a new counter writes: `n` modulo the window,
      counted out by whole turns of the ring. */
  function Slot(n: nat, w: nat): (r: nat)
    requires w > 0
    ensures r < w
    decreases n
  {
    if n < w then n else Slot(n - w, w)
  }

  /** The slot after slot `Slot(n, w)` is the next one, cyclically. */
  lemma {:induction false} SlotSucc(n: nat, w: nat)
    requires w > 0
    ensures Slot(n + 1, w) == if Slot(n, w) + 1 == w then 0 else Slot(n, w) + 1
    decreases n
  {
    if n >= w {
      SlotSucc(n - w, w);
      assert Slot(n + 1, w) == Slot(n + 1 - w, w);
    } else if n + 1 == w {
      assert Slot(n + 1, w) == Slot(0, w);
    }
  }

  /** Any `w` consecutive updates write `w` different slots. */
  lemma {:induction false} SlotsDiffer(j: nat, n: nat, w: nat)
    requires 0 < w && j < n < j + w
    ensures Slot(j, w) != Slot(n, w)
    decreases j
  {
    if j >= w {
      SlotsDiffer(j - w, n - w, w);
    } else if n >= w {
      assert Slot(n, w) == Slot(n - w, w) == n - w;
    }
  }

  /** The result of `GetCurrentFPS`: zero, or `frames` frames over `ms` milliseconds
      (the source returns `frames * 1000.0 / ms`). */
  datatype Reading = Zero | Rate(frames: nat, ms: int)

  /** `GetCurrentFPS` (and `GetAverageFPS`, which calls it). */
  function CurrentFps(c: Counter): (r: Reading)
    requires Valid(c)
    ensures !c.full && c.index < 2 ==> r == Zero
    ensures r.Rate? ==> r.ms > 0 && r.frames + 1 == (if c.full then c.window else c.index)
  {
    match Window(c)
    case None => Zero
    case Some(span) =>
      var ms := c.times[span.newest] - c.times[span.oldest];
      if ms > 0 then Rate(span.count - 1, ms) else Zero
  }

  // ---------------------------------------------------------------------------
  // A run of updates from a new counter
  // ---------------------------------------------------------------------------

  /** The counter after the updates `times`, in order, from `New(window)`. */
  function Run(window: nat, times: seq<int>): (c: Counter)
    requires 0 < window <= MaxWindow
    ensures Valid(c) && c.window == window
    decreases |times|
  {
    if |times| == 0 then New(window)
    else Update(Run(window, times[..|times| - 1]), times[|times| - 1])
  }

  /** After `n` updates the index is slot `n` and the ring is full exactly when `n`
      has reached the window. */
  lemma {:induction false} RunIndex(window: nat, times: seq<int>)
    requires 0 < window <= MaxWindow
    ensures var c := Run(window, times);
            c.index == Slot(|times|, window) && (c.full <==> |times| >= window)
    decreases |times|
  {
    if |times| > 0 {
      var n := |times| - 1;
      RunIndex(window, times[..n]);
      SlotSucc(n, window);
      if n < window {
        assert Slot(n, window) == n;
      }
    }
  }

  /** Each of the last `window` updates of a run is still in its slot. */
  lemma {:induction false} RunSlots(window: nat, times: seq<int>)
    requires 0 < window <= MaxWindow
    ensures var c := Run(window, times);
            forall j :: 0 <= j < |times| && |times| - window <= j ==> c.times[Slot(j, window)] == times[j]
    decreases |times|
  {
    if |times| > 0 {
      var n := |times| - 1;
      var prev := times[..n];
      RunSlots(window, prev);
      RunIndex(window, prev);
      var c := Run(window, times);
      forall j | 0 <= j < |times| && |times| - window <= j
        ensures c.times[Slot(j, window)] == times[j]
      {
        if j < n {
          SlotsDiffer(j, n, window);
          assert prev[j] == times[j];
        }
      }
    }
  }

  /** A reading after a run spans the last `count` updates: the newest is the last
      time, the oldest is the time `count - 1` updates earlier. */
  lemma RunReading(window: nat, times: seq<int>)
    requires 0 < window <= MaxWindow
    ensures var c := Run(window, times);
            var n := |times|;
            match Window(c)
            case None => n < 2
            case Some(span) =>
              span.count == (if n >= window then window else n)
              && c.times[span.newest] == times[n - 1]
              && c.times[span.oldest] == times[n - span.count]
  {
    RunIndex(window, times);
    RunSlots(window, times);
    var c := Run(window, times);
    var n := |times|;
    match Window(c)
    case None =>
      if 2 <= n < window {
        assert Slot(n, window) == n;
      }
    case Some(span) =>
      SlotSucc(n - 1, window);
      assert span.newest == Slot(n - 1, window);
      if n >= window {
        assert Slot(n, window) == Slot(n - window, window);
      } else {
        assert Slot(n, window) == n && Slot(0, window) == 0;
      }
  }

  /** The reading after a run is the elapsed time between the newest sample and the
      sample `count - 1` updates before it. */
  lemma RunFps(window: nat, times: seq<int>)
    requires 0 < window <= MaxWindow
    ensures var n := |times|;
            var count := if n >= window then window else n;
            CurrentFps(Run(window, times))
            == if n < 2 || times[n - 1] - times[n - count] <= 0 then Zero
               else Rate(count - 1, times[n - 1] - times[n - count])
  {
    RunReading(window, times);
  }

  /** `Reset` forgets the run: the next reading is zero until two more updates. */
  lemma ResetReadsZero(c: Counter, now: int)
    requires Valid(c) && c.window > 0
    ensures CurrentFps(Reset(c)) == Zero
    ensures CurrentFps(Update(Reset(c), now)) == Zero
  {
  }
}

=== FILE: input_parser.dfy ===
/** `InputParser` of the utility library: integer conversion with the semantics of
    `std::stoll` / `std::stoi`, and the list parsers built on the character `Split`
    and `Trim` of `StringUtils`. */
module InputParser {
  import opened Wrappers
  import opened StringUtils

  /** The two exceptions the standard conversions throw. */
  datatype ParseError = InvalidArgument | OutOfRange

  const LongMin: int := -0x8000_0000_0000_0000
  const LongMax: int := 0x7FFF_FFFF_FFFF_FFFF
  const IntMin: int := -0x8000_0000
  const IntMax: int := 0x7FFF_FFFF
  /** The delimiter `ParseIntList` and `ParseStringList` use when none is given. */
  const DefaultDelimiter: char := ','

  // ---------------------------------------------------------------------------
  // Leading-integer conversion
  // ---------------------------------------------------------------------------

  predicate IsDigit(c: char) { '0' <= c <= '9' }

  predicate AllDigits(s: string) {
    forall k :: 0 <= k < |s| ==> IsDigit(s[k])
  }

  /** The end of the run of decimal digits that starts at `i`. */
  function DigitEnd(s: string, i: nat): (r: nat)
    requires i <= |s|
    ensures i <= r <= |s|
    ensures forall k :: i <= k < r ==> IsDigit(s[k])
    ensures r == |s| || !IsDigit(s[r])
    decreases |s| - i
  {
    if i == |s| || !IsDigit(s[i]) then i else DigitEnd(s, i + 1)
  }

  /** The value of a run of decimal digits, most significant first. */
  function DigitsValue(ds: string): (r: nat)
    requires AllDigits(ds)
    decreases |ds|
  {
    if |ds| == 0 then 0
    else DigitsValue(ds[..|ds| - 1]) * 10 + (ds[|ds| - 1] as int - '0' as int)
  }

  /** The conversion of `strtoll`/`strtol` in base 10 as `std::stoll`/`std::stoi` use
      it: leading whitespace is skipped, one optional sign is read, then the longest
      run of digits; text after the digits is ignored. No digit is
      `invalid_argument`; a value outside [`lo`, `hi`] is `out_of_range`. */
  function ParseLeadingInteger(s: string, lo: int, hi: int): (r: Result<int, ParseError>)
    ensures r.Success? ==> lo <= r.value <= hi
  {
    var i := FirstNotSpace(s, 0).GetOr(|s|);
    var negative := i < |s| && s[i] == '-';
    var j := if i < |s| && (s[i] == '-' || s[i] == '+') then i + 1 else i;
    var e := DigitEnd(s, j);
    if e == j then Failure(InvalidArgument)
    else
      var magnitude := DigitsValue(s[j..e]);
      var v: int := if negative then -(magnitude as int) else magnitude;
      if v < lo || v > hi then Failure(OutOfRange) else Success(v)
  }

  /** `std::stoll`: a 64-bit signed result. */
  function Stoll(s: string): (r: Result<int, ParseError>)
    ensures r.Success? ==> LongMin <= r.value <= LongMax
    ensures |s| == 0 ==> r == Failure(InvalidArgument)
  {
    ParseLeadingInteger(s, LongMin, LongMax)
  }

  /** `std::stoi`: `strtol` followed by a range check against `int`; with a 64-bit
      `long`, both overflow cases are `out_of_range`. */
  function Stoi(s: string): (r: Result<int, ParseError>)
    ensures r.Success? ==> IntMin <= r.value <= IntMax
    ensures |s| == 0 ==> r == Failure(InvalidArgument)
  {
    ParseLeadingInteger(s, IntMin, IntMax)
  }

  // ---------------------------------------------------------------------------
  // Decimal rendering, the partner of the conversion
  // ---------------------------------------------------------------------------

  function DigitChar(d: nat): char
    requires d < 10
  {
    ('0' as int + d) as char
  }

  /** The shortest decimal rendering of `n`. */
  function Decimal(n: nat): (r: string)
    ensures |r| >= 1 && AllDigits(r)
    decreases n
  {
    if n < 10 then [DigitChar(n)] else Decimal(n / 10) + [DigitChar(n % 10)]
  }

  /** The rendering `std::to_string` gives an integer: a minus sign for a negative
      value, then the digits of its magnitude. */
  function FormatInt(v: int): (r: string)
    ensures r != "" && !IsSpace(r[0]) && !IsSpace(r[|r| - 1])
    ensures forall k :: 0 <= k < |r| ==> IsDigit(r[k]) || r[k] == '-'
  {
    if v < 0 then "-" + Decimal(-v) else Decimal(v)
  }

  /** Reading the digits of a rendering gives the number back. */
  lemma {:induction false} DecimalValue(n: nat)
    ensures DigitsValue(Decimal(n)) == n
    decreases n
  {
    if n >= 10 {
      DecimalValue(n / 10);
      var r := Decimal(n);
      assert r[..|r| - 1] == Decimal(n / 10);
    }
  }

  /** A digit run followed by text that does not start with a digit ends where the
      run does. */
  lemma DigitEndOfRun(s: string, j: nat, ds: string, t: string)
    requires AllDigits(ds) && (t == "" || !IsDigit(t[0]))
    requires j <= |s| && s[j..] == ds + t
    ensures DigitEnd(s, j) == j + |ds| && s[j..j + |ds|] == ds
  {
    var e := DigitEnd(s, j);
    assert forall k :: j <= k < j + |ds| ==> s[k] == s[j..][k - j] == ds[k - j];
    if j + |ds| < |s| {
      assert s[j + |ds|] == s[j..][|ds|] == t[0];
    }
    assert s[j..j + |ds|] == s[j..][..|ds|];
  }

  /** Converting a rendering, followed by any text that does not continue the digits,
      gives the value back when it is in range and `out_of_range` otherwise. */
  lemma ParseFormatted(v: int, t: string, lo: int, hi: int)
    requires t == "" || !IsDigit(t[0])
    ensures ParseLeadingInteger(FormatInt(v) + t, lo, hi)
            == if lo <= v <= hi then Success(v) else Failure(OutOfRange)
  {
    if v < 0 {
      ParseNegative(-v, t, lo, hi);
    } else {
      ParseNonNegative(v, t, lo, hi);
    }
  }

  /** `ParseFormatted` for a value without sign. */
  lemma ParseNonNegative(n: nat, t: string, lo: int, hi: int)
    requires t == "" || !IsDigit(t[0])
    ensures ParseLeadingInteger(Decimal(n) + t, lo, hi)
            == if lo <= n <= hi then Success(n) else Failure(OutOfRange)
  {
    var ds := Decimal(n);
    var s := ds + t;
    assert s[0] == ds[0];
    assert FirstNotSpace(s, 0) == Some(0);
    assert s[0..] == ds + t;
    DigitEndOfRun(s, 0, ds, t);
    DecimalValue(n);
  }

  /** `ParseFormatted` for a negative value, rendered with its minus sign. */
  lemma ParseNegative(n: nat, t: string, lo: int, hi: int)
    requires n > 0 && (t == "" || !IsDigit(t[0]))
    ensures ParseLeadingInteger("-" + Decimal(n) + t, lo, hi)
            == if lo <= -(n as int) <= hi then Success(-(n as int)) else Failure(OutOfRange)
  {
    var ds := Decimal(n);
    var s := "-" + ds + t;
    assert s[0] == '-';
    assert FirstNotSpace(s, 0) == Some(0);
    assert s[1..] == ds + t;
    DigitEndOfRun(s, 1, ds, t);
    DecimalValue(n);
    assert DigitsValue(s[1..DigitEnd(s, 1)]) == n;
  }

  /** A text that starts, after any whitespace and one sign, with something other than
      a digit is `invalid_argument`; so is the empty text. */
  lemma ParseNoDigits(s: string, lo: int, hi: int)
    requires s == "" || (!IsDigit(s[0]) && !IsSpace(s[0]) && s[0] != '-' && s[0] != '+')
    ensures ParseLeadingInteger(s, lo, hi) == Failure(InvalidArgument)
  {
    if s != "" {
      assert FirstNotSpace(s, 0) == Some(0);
    }
  }

  /** The conversion ignores what follows the digits, and fails without a digit. */
  lemma StollExamples()
    ensures Stoll("12abc") == Success(12)
    ensures Stoll("abc") == Failure(InvalidArgument)
  {
    assert Decimal(12) == Decimal(1) + "2" == "12";
    assert "12abc" == FormatInt(12) + "abc";
    ParseFormatted(12, "abc", LongMin, LongMax);
    ParseNoDigits("abc", LongMin, LongMax);
  }

  // ---------------------------------------------------------------------------
  // The list parsers
  // ---------------------------------------------------------------------------

  /** Converting every token in order: the first token that fails makes the whole
      list fail with its exception, as the throwing loops of the source do. */
  function ParseEach<T>(tokens: seq<string>, parse: string -> Result<T, ParseError>)
    : (r: Result<seq<T>, ParseError>)
    ensures r.Success? ==> |r.value| == |tokens|
                           && forall j :: 0 <= j < |tokens| ==> parse(tokens[j]) == Success(r.value[j])
    ensures r.Failure? ==> exists j :: 0 <= j < |tokens| && parse(tokens[j]) == Failure(r.error)
                                       && forall i :: 0 <= i < j ==> parse(tokens[i]).Success?
    decreases |tokens|
  {
    if |tokens| == 0 then Success([])
    else
      match parse(tokens[0])
      case Failure(e) => Failure(e)
      case Success(v) =>
        match ParseEach(tokens[1..], parse)
        case Failure(e) =>
          ghost var j :| 0 <= j < |tokens[1..]| && parse(tokens[1..][j]) == Failure(e)
                         && forall i :: 0 <= i < j ==> parse(tokens[1..][i]).Success?;
          assert parse(tokens[j + 1]) == Failure(e);
          Failure(e)
        case Success(vs) => Success([v] + vs)
  }

  /** When every token converts, the list converts to the values in order. */
  lemma {:induction false} ParseEachAll<T>(tokens: seq<string>, parse: string -> Result<T, ParseError>,
                                           values: seq<T>)
    requires |values| == |tokens|
    requires forall j :: 0 <= j < |tokens| ==> parse(tokens[j]) == Success(values[j])
    ensures ParseEach(tokens, parse) == Success(values)
    decreases |tokens|
  {
    if |tokens| > 0 {
      ParseEachAll(tokens[1..], parse, values[1..]);
      assert values == [values[0]] + values[1..];
    }
  }

  /** One dimension: the trimmed token as `std::stoll` reads it. */
  function ParseDim(token: string): Result<int, ParseError> {
    Stoll(Trim(token))
  }

  /** One input: its `,`-separated dimensions. */
  function ParseDims(input: string): (r: Result<seq<int>, ParseError>)
    ensures r.Success? ==> forall j :: 0 <= j < |r.value| ==> LongMin <= r.value[j] <= LongMax
    ensures r.Failure? ==> exists j :: 0 <= j < |Split(input, ',')|
                                       && Stoll(Trim(Split(input, ',')[j])) == Failure(r.error)
                                       && forall i :: 0 <= i < j ==> Stoll(Trim(Split(input, ',')[i])).Success?
  {
    ParseEach(Split(input, ','), ParseDim)
  }

  /** `InputParser::ParseInputSizes`: one group per `;`-piece, one 64-bit integer per
      trimmed `,`-piece within it, with the getline `Split` (so `""` gives no group and
      an empty piece in the middle gives an empty group). */
  function ParseInputSizes(input: string): (r: Result<seq<seq<int>>, ParseError>)
    ensures input == "" ==> r == Success([])
    ensures r.Success? ==> |r.value| == |Split(input, ';')|
    ensures r.Success? ==> forall i, j :: 0 <= i < |r.value| && 0 <= j < |r.value[i]| ==>
                             LongMin <= r.value[i][j] <= LongMax
    ensures r.Failure? ==> exists j :: 0 <= j < |Split(input, ';')|
                                       && ParseDims(Split(input, ';')[j]) == Failure(r.error)
                                       && forall i :: 0 <= i < j ==> ParseDims(Split(input, ';')[i]).Success?
  {
    ParseEach(Split(input, ';'), ParseDims)
  }

  /** `InputParser::ParseIntList`: one `int` per trimmed piece. */
  function ParseIntList(input: string, d: char := DefaultDelimiter): (r: Result<seq<int>, ParseError>)
    ensures r.Success? ==> |r.value| == |Split(input, d)|
                           && forall j :: 0 <= j < |r.value| ==>
                                Stoi(Trim(Split(input, d)[j])) == Success(r.value[j])
    ensures r.Failure? ==> exists j :: 0 <= j < |Split(input, d)|
                                       && Stoi(Trim(Split(input, d)[j])) == Failure(r.error)
                                       && forall i :: 0 <= i < j ==> Stoi(Trim(Split(input, d)[i])).Success?
  {
    ParseEach(Split(input, d), ParseIntToken)
  }

  /** One element of an integer list: the trimmed token as `std::stoi` reads it. */
  function ParseIntToken(token: string): Result<int, ParseError> {
    Stoi(Trim(token))
  }

  /** `InputParser::ParseStringList`: every piece, trimmed. */
  function ParseStringList(input: string, d: char := DefaultDelimiter): (r: seq<string>)
    ensures |r| == |Split(input, d)|
    ensures forall j :: 0 <= j < |r| ==> r[j] == Trim(Split(input, d)[j])
  {
    var pieces := Split(input, d);
    seq(|pieces|, j requires 0 <= j < |pieces| => Trim(pieces[j]))
  }

  /** The shape of a parsed size list: as many groups as `;`-pieces and, within each,
      as many dimensions as its `,`-pieces; each dimension is its trimmed token read
      by `std::stoll`. */
  lemma InputSizesShape(input: string)
    ensures var r := ParseInputSizes(input);
            var groups := Split(input, ';');
            r.Success? ==>
              |r.value| == |groups|
              && forall i :: 0 <= i < |groups| ==>
                   |r.value[i]| == |Split(groups[i], ',')|
                   && forall j :: 0 <= j < |r.value[i]| ==>
                        Stoll(Trim(Split(groups[i], ',')[j])) == Success(r.value[i][j])
  {
    var r := ParseInputSizes(input);
    var groups := Split(input, ';');
    if r.Success? {
      forall i | 0 <= i < |groups|
        ensures |r.value[i]| == |Split(groups[i], ',')|
        ensures forall j :: 0 <= j < |r.value[i]| ==>
                  Stoll(Trim(Split(groups[i], ',')[j])) == Success(r.value[i][j])
      {
        assert ParseDims(groups[i]) == Success(r.value[i]);
      }
    }
  }

  /** An empty text has no group. */
  lemma InputSizesOfEmpty()
    ensures ParseInputSizes("") == Success([])
  {
  }

  // ---------------------------------------------------------------------------
  // Round trips
  // ---------------------------------------------------------------------------

  /** The rendering of a list of integers joined by `d`. */
  function FormatIntList(values: seq<int>, d: char): string {
    Join(seq(|values|, j requires 0 <= j < |values| => FormatInt(values[j])), [d])
  }

  /** The `"1,3,224,224;1,3,224,224"` notation of a size list. */
  function FormatInputSizes(sizes: seq<seq<int>>): string {
    Join(seq(|sizes|, i requires 0 <= i < |sizes| => FormatIntList(sizes[i], ',')), [';'])
  }

  /** The pieces of a rendered list are the renderings of its values, provided the
      delimiter is neither a digit nor a minus sign. */
  lemma SplitFormatted(values: seq<int>, d: char)
    requires |values| >= 1 && !IsDigit(d) && d != '-'
    ensures var texts := seq(|values|, j requires 0 <= j < |values| => FormatInt(values[j]));
            Split(FormatIntList(values, d), d) == texts
  {
    var texts := seq(|values|, j requires 0 <= j < |values| => FormatInt(values[j]));
    forall k | 0 <= k < |texts|
      ensures d !in texts[k]
    {
      assert texts[k] == FormatInt(values[k]);
    }
    SplitJoin(texts, d);
  }

  /** Every rendered value, trimmed and converted, is itself when in range. */
  lemma FormattedTokens(values: seq<int>, lo: int, hi: int)
    requires forall j :: 0 <= j < |values| ==> lo <= values[j] <= hi
    ensures forall j :: 0 <= j < |values| ==>
              ParseLeadingInteger(Trim(FormatInt(values[j])), lo, hi) == Success(values[j])
  {
    forall j | 0 <= j < |values|
      ensures ParseLeadingInteger(Trim(FormatInt(values[j])), lo, hi) == Success(values[j])
    {
      var t := FormatInt(values[j]);
      TrimKeeps(t);
      assert t + "" == t;
      ParseFormatted(values[j], "", lo, hi);
    }
  }

  /** A rendered list of integers in `int` range reads back as the same list. */
  lemma IntListRoundTrip(values: seq<int>, d: char)
    requires |values| >= 1 && !IsDigit(d) && d != '-'
    requires forall j :: 0 <= j < |values| ==> IntMin <= values[j] <= IntMax
    ensures ParseIntList(FormatIntList(values, d), d) == Success(values)
  {
    var texts := seq(|values|, j requires 0 <= j < |values| => FormatInt(values[j]));
    SplitFormatted(values, d);
    FormattedTokens(values, IntMin, IntMax);
    assert forall j :: 0 <= j < |texts| ==> texts[j] == FormatInt(values[j]);
    ParseEachAll(texts, ParseIntToken, values);
  }

  /** One rendered group of dimensions reads back as itself. */
  lemma DimsRoundTrip(dims: seq<int>)
    requires |dims| >= 1
    requires forall j :: 0 <= j < |dims| ==> LongMin <= dims[j] <= LongMax
    ensures ParseDims(FormatIntList(dims, ',')) == Success(dims)
  {
    var texts := seq(|dims|, j requires 0 <= j < |dims| => FormatInt(dims[j]));
    SplitFormatted(dims, ',');
    FormattedTokens(dims, LongMin, LongMax);
    assert forall j :: 0 <= j < |texts| ==> texts[j] == FormatInt(dims[j]);
    ParseEachAll(texts, ParseDim, dims);
  }

  /** The case of the library's unit test (tests/unit/test_utils_basic.cpp). */
  lemma IntListExample()
    ensures ParseIntList("1,2,3,4,5") == Success([1, 2, 3, 4, 5])
  {
    IntListExampleText();
    IntListRoundTrip([1, 2, 3, 4, 5], ',');
  }

  /** The rendering behind `IntListExample`. */
  lemma IntListExampleText()
    ensures FormatIntList([1, 2, 3, 4, 5], ',') == "1,2,3,4,5"
  {
    var values := [1, 2, 3, 4, 5];
    var texts := seq(|values|, j requires 0 <= j < |values| => FormatInt(values[j]));
    assert texts == ["1", "2", "3", "4", "5"];
    JoinCons("4", ["5"], [',']);
    JoinCons("3", ["4", "5"], [',']);
    JoinCons("2", ["3", "4", "5"], [',']);
    JoinCons("1", ["2", "3", "4", "5"], [',']);
  }

  /** A rendered group is not empty and contains no `;`. */
  lemma GroupText(dims: seq<int>)
    requires |dims| >= 1
    ensures var g := FormatIntList(dims, ',');
            g != "" && ';' !in g
  {
    var texts := seq(|dims|, j requires 0 <= j < |dims| => FormatInt(dims[j]));
    forall k | 0 <= k < |texts|
      ensures ';' !in texts[k]
    {
      assert texts[k] == FormatInt(dims[k]);
    }
    JoinFreeOf(texts, ',', ';');
    JoinLast(texts, [',']);
  }

  /** A size list whose groups are all non-empty and whose values fit in 64 bits reads
      back from its rendering as itself. */
  lemma InputSizesRoundTrip(sizes: seq<seq<int>>)
    requires forall i :: 0 <= i < |sizes| ==> |sizes[i]| >= 1
    requires forall i, j :: 0 <= i < |sizes| && 0 <= j < |sizes[i]| ==>
               LongMin <= sizes[i][j] <= LongMax
    ensures ParseInputSizes(FormatInputSizes(sizes)) == Success(sizes)
  {
    var groups := seq(|sizes|, i requires 0 <= i < |sizes| => FormatIntList(sizes[i], ','));
    if |sizes| == 0 {
      assert FormatInputSizes(sizes) == "";
    } else {
      forall i | 0 <= i < |groups|
        ensures groups[i] != "" && ';' !in groups[i]
        ensures ParseDims(groups[i]) == Success(sizes[i])
      {
        GroupText(sizes[i]);
        DimsRoundTrip(sizes[i]);
      }
      SplitJoin(groups, ';');
      ParseEachAll(groups, ParseDims, sizes);
    }
  }

  /** A one-digit token is a dimension of that value. */
  lemma DigitDim(n: nat)
    requires n < 10
    ensures ParseDim([DigitChar(n)]) == Success(n)
  {
    TrimKeeps([DigitChar(n)]);
    assert [DigitChar(n)] == Decimal(n) + "";
    ParseNonNegative(n, "", LongMin, LongMax);
  }

  /** An empty `;`-piece, wherever it stands, is an empty group. */
  lemma EmptyPieceEmptyGroup(input: string, i: nat)
    requires ParseInputSizes(input).Success?
    requires i < |Split(input, ';')| && Split(input, ';')[i] == ""
    ensures i < |ParseInputSizes(input).value| && ParseInputSizes(input).value[i] == []
  {
    InputSizesShape(input);
  }

  /** Trimmed pieces free of the delimiter come back from their join, when the last
      one is not empty. */
  lemma StringListRoundTrip(parts: seq<string>, d: char)
    requires |parts| >= 1 && parts[|parts| - 1] != "" && FreeOf(parts, d)
    requires forall j :: 0 <= j < |parts| ==> Trim(parts[j]) == parts[j]
    ensures ParseStringList(Join(parts, [d]), d) == parts
  {
    SplitJoin(parts, d);
  }

  /** The case of the library's unit test (tests/unit/test_utils_basic.cpp), which
      relies on the default delimiter. */
  lemma StringListExample()
    ensures ParseStringList("apple,banana,cherry") == ["apple", "banana", "cherry"]
  {
    var parts := ["apple", "banana", "cherry"];
    StringListExampleText();
    WordTrimmed("apple");
    WordTrimmed("banana");
    WordTrimmed("cherry");
    assert FreeOf(parts, ',');
    StringListRoundTrip(parts, ',');
  }

  /** The text behind `StringListExample`. */
  lemma StringListExampleText()
    ensures Join(["apple", "banana", "cherry"], [',']) == "apple,banana,cherry"
  {
    JoinCons("banana", ["cherry"], [',']);
    JoinCons("apple", ["banana", "cherry"], [',']);
  }

  /** A non-empty word of lower-case letters is its own trim. */
  lemma WordTrimmed(w: string)
    requires w != "" && forall k :: 0 <= k < |w| ==> 'a' <= w[k] <= 'z'
    ensures Trim(w) == w
  {
    assert "" + w + "" == w;
    TrimSurrounded("", w, "");
  }
}

=== FILE: logger_manager.dfy ===
/** `LoggerManager`: the process-wide registry of named loggers, the default logger and
    the global level.

    The source hands out `std::shared_ptr<ILogger>`s; a caller that changes a logger
    through one pointer changes it for every holder. The model keeps every logger the
    registry ever made in an arena and hands out indices into it (`Handle`), so that
    aliasing is explicit: two lookups that return the same handle see the same logger. */
module LoggerManager {
  import opened Wrappers
  import opened Logging

  type Handle = nat

  datatype Registry = Registry(
    arena: seq<Logger>,
    loggers: map<string, Handle>,
    defaultLogger: Option<Handle>,
    globalLevel: Level)

  /** What `GetLogger` returns: the registry after the call and the logger handed out.
      `None` is the null pointer, which the default becomes after
      `SetDefaultLogger(nullptr)`. */
  datatype Lookup = Lookup(registry: Registry, logger: Option<Handle>)

  /** The registry's invariant: every handle it holds points into the arena, the two
      names that mean the default logger are never registered, and no two names share
      a logger. */
  ghost predicate Valid(reg: Registry) {
    && (forall n :: n in reg.loggers ==> reg.loggers[n] < |reg.arena|)
    && (reg.defaultLogger.Some? ==> reg.defaultLogger.value < |reg.arena|)
    && "" !in reg.loggers && "default" !in reg.loggers
    && (forall n, m :: n in reg.loggers && m in reg.loggers && n != m ==> reg.loggers[n] != reg.loggers[m])
  }

  /** The names that `GetLogger` maps to the default logger. */
  predicate IsDefaultName(name: string) {
    name == "" || name == "default"
  }

  /** The registry when the process starts: one logger named `default`, no named
      loggers, global level INFO. */
  function Initial(): (reg: Registry)
    ensures Valid(reg)
    ensures reg.defaultLogger.Some? && reg.arena[reg.defaultLogger.value].name == "default"
    ensures reg.arena[reg.defaultLogger.value].level == Info
    ensures reg.loggers == map[] && reg.globalLevel == Info
  {
    Registry([NewLogger("default")], map[], Some(0), Info)
  }

  /** `LoggerManager::GetLogger`. */
  function GetLogger(reg: Registry, name: string): (res: Lookup)
    requires Valid(reg)
    ensures Valid(res.registry)
    ensures IsDefaultName(name) ==> res == Lookup(reg, reg.defaultLogger)
    ensures name in reg.loggers ==> res == Lookup(reg, Some(reg.loggers[name]))
    ensures !IsDefaultName(name) && name !in reg.loggers ==>
              && res.logger == Some(|reg.arena|)
              && |res.registry.arena| == |reg.arena| + 1
              && res.registry.arena[..|reg.arena|] == reg.arena
              && res.registry.loggers == reg.loggers[name := |reg.arena|]
              && res.registry.defaultLogger == reg.defaultLogger
              && res.registry.globalLevel == reg.globalLevel
  {
    if IsDefaultName(name) then Lookup(reg, reg.defaultLogger)
    else if name in reg.loggers then Lookup(reg, Some(reg.loggers[name]))
    else
      var h := |reg.arena|;
      var lg := SetLevel(NewLogger(name), reg.globalLevel);
      Lookup(reg.(arena := reg.arena + [lg], loggers := reg.loggers[name := h]), Some(h))
  }

  /** A logger `GetLogger` creates is a fresh `Logger` of that name at the global
      level, writing to the console with timestamps and to no file. */
  lemma NewLoggerAtGlobalLevel(reg: Registry, name: string)
    requires Valid(reg) && !IsDefaultName(name) && name !in reg.loggers
    ensures var res := GetLogger(reg, name);
            && res.logger.Some?
            && var lg := res.registry.arena[res.logger.value];
            && lg.name == name && lg.level == reg.globalLevel
            && lg.console && lg.timestamps && lg.file.None?
  {
  }

  /** Asking twice for the same name gives the same logger and leaves the registry as
      the first call left it. */
  lemma GetLoggerStable(reg: Registry, name: string)
    requires Valid(reg)
    ensures var first := GetLogger(reg, name);
            GetLogger(first.registry, name) == first
  {
  }

  /** Two different names that are not the default's are given different loggers. */
  lemma DistinctNamesDistinctLoggers(reg: Registry, a: string, b: string)
    requires Valid(reg) && !IsDefaultName(a) && !IsDefaultName(b) && a != b
    ensures var first := GetLogger(reg, a);
            var second := GetLogger(first.registry, b);
            first.logger != second.logger
  {
    var first := GetLogger(reg, a);
    assert a in first.registry.loggers && first.logger == Some(first.registry.loggers[a]);
  }

  /** Looking up a name does not touch any logger that already existed. */
  lemma GetLoggerKeepsExisting(reg: Registry, name: string, h: Handle)
    requires Valid(reg) && h < |reg.arena|
    ensures var res := GetLogger(reg, name);
            h < |res.registry.arena| && res.registry.arena[h] == reg.arena[h]
  {
    var res := GetLogger(reg, name);
    if !IsDefaultName(name) && name !in reg.loggers {
      assert res.registry.arena[..|reg.arena|][h] == reg.arena[h];
    }
  }

  /** `LoggerManager::SetDefaultLogger`: any logger the caller holds, or none. */
  function SetDefaultLogger(reg: Registry, logger: Option<Handle>): (r: Registry)
    requires Valid(reg)
    requires logger.Some? ==> logger.value < |reg.arena|
    ensures Valid(r)
    ensures GetLogger(r, "").logger == logger && GetLogger(r, "default").logger == logger
    ensures r.arena == reg.arena && r.loggers == reg.loggers && r.globalLevel == reg.globalLevel
  {
    reg.(defaultLogger := logger)
  }

  /** A logger built by the caller with `std::make_shared<Logger>` and handed to the
      registry later: it joins the arena under a new handle. */
  function Adopt(reg: Registry, lg: Logger): (res: Lookup)
    requires Valid(reg)
    ensures Valid(res.registry)
    ensures res.logger == Some(|reg.arena|) && |res.registry.arena| == |reg.arena| + 1
    ensures res.registry.arena[|reg.arena|] == lg
    ensures res.registry.arena[..|reg.arena|] == reg.arena
    ensures res.registry.loggers == reg.loggers && res.registry.defaultLogger == reg.defaultLogger
  {
    Lookup(reg.(arena := reg.arena + [lg]), Some(|reg.arena|))
  }

  /** Whether `SetGlobalLevel` reaches the logger at `h`: it is the default or it is
      registered under some name. */
  predicate Reached(reg: Registry, h: Handle) {
    reg.defaultLogger == Some(h) || h in reg.loggers.Values
  }

  /** `LoggerManager::SetGlobalLevel`: records the level for loggers made later and
      sets it on the default logger and on every registered logger. */
  function SetGlobalLevel(reg: Registry, level: Level): (r: Registry)
    requires Valid(reg)
    ensures Valid(r)
    ensures r.globalLevel == level
    ensures r.loggers == reg.loggers && r.defaultLogger == reg.defaultLogger
    ensures |r.arena| == |reg.arena|
    ensures forall n :: n in r.loggers ==> r.arena[r.loggers[n]].level == level
    ensures r.defaultLogger.Some? ==> r.arena[r.defaultLogger.value].level == level
    ensures forall h :: 0 <= h < |r.arena| ==> r.arena[h] == reg.arena[h].(level := r.arena[h].level)
    ensures forall h :: 0 <= h < |r.arena| && !Reached(reg, h) ==> r.arena[h] == reg.arena[h]
  {
    var arena := seq(|reg.arena|, h requires 0 <= h < |reg.arena| =>
                       if Reached(reg, h) then SetLevel(reg.arena[h], level) else reg.arena[h]);
    assert forall n :: n in reg.loggers ==> Reached(reg, reg.loggers[n]);
    reg.(arena := arena, globalLevel := level)
  }

  /** After `SetGlobalLevel`, every name — registered before, made later, or the
      default's — gives a logger at that level (while the default is not null). */
  lemma GlobalLevelReachesEveryName(reg: Registry, level: Level, name: string)
    requires Valid(reg)
    ensures var res := GetLogger(SetGlobalLevel(reg, level), name);
            res.logger.Some? ==> res.registry.arena[res.logger.value].level == level
  {
    var r := SetGlobalLevel(reg, level);
    if !IsDefaultName(name) && name !in r.loggers {
      NewLoggerAtGlobalLevel(r, name);
    }
  }

  /** `Logger::SetLevel` called through a handle: every name that leads to that logger
      sees the new level, and no other logger changes. */
  function SetLevelOf(reg: Registry, h: Handle, level: Level): (r: Registry)
    requires Valid(reg) && h < |reg.arena|
    ensures Valid(r)
    ensures r.loggers == reg.loggers && r.defaultLogger == reg.defaultLogger
    ensures |r.arena| == |reg.arena| && r.arena[h].level == level
    ensures forall k :: 0 <= k < |r.arena| && k != h ==> r.arena[k] == reg.arena[k]
  {
    reg.(arena := reg.arena[h := SetLevel(reg.arena[h], level)])
  }

  /** A level set through one holder's pointer is seen by the next `GetLogger` of the
      same name. */
  lemma SharedLoggerSeesLevel(reg: Registry, name: string, level: Level)
    requires Valid(reg)
    ensures var first := GetLogger(reg, name);
            first.logger.Some? ==>
              var after := SetLevelOf(first.registry, first.logger.value, level);
              var again := GetLogger(after, name);
              again.logger == first.logger && after.arena[again.logger.value].level == level
  {
  }
}

=== FILE: logging.dfy ===
/** `Logging`: the six log levels with their names and parser, one `Logger` with its
    message formatting, threshold and output routing, and its configuration. Output is
    a list of written lines; the wall-clock timestamp is an input string. */
module Logging {
  import opened Wrappers
  import opened StringUtils

  // ---------------------------------------------------------------------------
  // Levels
  // ---------------------------------------------------------------------------

  /** `LogLevel`, an `enum class` whose enumerators are numbered in this order. */
  datatype Level = Trace | Debug | Info | Warn | Error | Fatal

  /** The underlying value of the enumerator, which `<` and `>=` compare. */
  function Rank(l: Level): (r: nat)
    ensures r < 6
  {
    match l
    case Trace => 0
    case Debug => 1
    case Info => 2
    case Warn => 3
    case Error => 4
    case Fatal => 5
  }

  /** The ranks are distinct, so levels are totally ordered by them. */
  lemma RankInjective(a: Level, b: Level)
    requires Rank(a) == Rank(b)
    ensures a == b
  {
  }

  /** `LoggerManager::LogLevelToString`. */
  function LevelToString(l: Level): (r: string)
    ensures r in {"TRACE", "DEBUG", "INFO", "WARN", "ERROR", "FATAL"}
    ensures ParseLogLevel(r) == l
  {
    match l
    case Trace => TraceParsed(); "TRACE"
    case Debug => DebugParsed(); "DEBUG"
    case Info => InfoParsed(); "INFO"
    case Warn => WarnParsed(); "WARN"
    case Error => ErrorParsed(); "ERROR"
    case Fatal => FatalParsed(); "FATAL"
  }

  /** `LoggerManager::ParseLogLevel`: compare the lower-cased text with the six names,
      with `warning` as a second spelling of WARN; anything else is INFO. */
  function ParseLogLevel(text: string): (r: Level)
    ensures ToLower(text) !in LevelNames ==> r == Info
    ensures ToLower(text) == "warn" || ToLower(text) == "warning" ==> r == Warn
  {
    LevelOfLowerCase(ToLower(text))
  }

  /** The comparisons `ParseLogLevel` makes once the text is lower-cased. */
  function LevelOfLowerCase(lower: string): Level {
    if lower == "trace" then Trace
    else if lower == "debug" then Debug
    else if lower == "info" then Info
    else if lower == "warn" || lower == "warning" then Warn
    else if lower == "error" then Error
    else if lower == "fatal" then Fatal
    else Info
  }

  /** The lower-case names `ParseLogLevel` recognises. */
  const LevelNames: set<string> := {"trace", "debug", "info", "warn", "warning", "error", "fatal"}

  /** Printing a level and parsing the text gives the level back. */
  lemma ParseLevelRoundTrip(l: Level)
    ensures ParseLogLevel(LevelToString(l)) == l
  {
    match l
    case Trace => TraceParsed();
    case Debug => DebugParsed();
    case Info => InfoParsed();
    case Warn => WarnParsed();
    case Error => ErrorParsed();
    case Fatal => FatalParsed();
  }

  lemma TraceParsed()
    ensures ParseLogLevel("TRACE") == Trace
  {
    assert ToLower("TRACE") == "trace";
  }

  lemma DebugParsed()
    ensures ParseLogLevel("DEBUG") == Debug
  {
    assert ToLower("DEBUG") == "debug";
  }

  lemma InfoParsed()
    ensures ParseLogLevel("INFO") == Info
  {
    assert ToLower("INFO") == "info";
  }

  lemma WarnParsed()
    ensures ParseLogLevel("WARN") == Warn
  {
    assert ToLower("WARN") == "warn";
  }

  lemma ErrorParsed()
    ensures ParseLogLevel("ERROR") == Error
  {
    assert ToLower("ERROR") == "error";
  }

  lemma FatalParsed()
    ensures ParseLogLevel("FATAL") == Fatal
  {
    FatalLowered();
  }

  lemma FatalLowered()
    ensures ToLower("FATAL") == "fatal"
  {
  }

  /** Parsing ignores case: upper-casing or lower-casing the text changes nothing. */
  lemma ParseIgnoresCase(text: string)
    ensures ParseLogLevel(ToUpper(text)) == ParseLogLevel(text)
    ensures ParseLogLevel(ToLower(text)) == ParseLogLevel(text)
  {
    LowerAbsorbs(text);
  }

  /** Text that lower-cases to none of the recognised names parses as INFO. */
  lemma ParseUnknownIsInfo(text: string)
    requires ToLower(text) !in LevelNames
    ensures ParseLogLevel(text) == Info
  {
  }

  /** Both spellings of WARN, in any case, parse as WARN. */
  lemma ParseWarning(text: string)
    requires ToLower(text) == "warning"
    ensures ParseLogLevel(text) == Warn
  {
  }

  // ---------------------------------------------------------------------------
  // The logger record
  // ---------------------------------------------------------------------------

  const DefaultPattern: string := "[" + "{timestamp}" + "] [" + "{level}" + "] [" + "{name}" + "] " + "{message}"

  /** The state of one `Logger` (its `Impl`): `file` is the path of the open output
      file, if one is open. */
  datatype Logger = Logger(
    name: string,
    level: Level,
    console: bool,
    timestamps: bool,
    pattern: string,
    file: Option<string>)

  /** The `Logger` constructor: an empty name becomes `default`; the threshold is INFO,
      console output and timestamps are on, the pattern is the default one and no file
      is open. */
  function NewLogger(name: string): (r: Logger)
    ensures r.name != ""
    ensures name != "" ==> r.name == name
    ensures name == "" ==> r.name == "default"
    ensures r.level == Info && r.pattern == DefaultPattern
    ensures r.file.None? && r.console && r.timestamps
  {
    Logger(if name == "" then "default" else name, Info, true, true, DefaultPattern, None)
  }

  /** `Logger::SetLevel`. */
  function SetLevel(lg: Logger, level: Level): (r: Logger)
    ensures r.level == level && r.(level := lg.level) == lg
  {
    lg.(level := level)
  }

  /** `Logger::GetLevel`. */
  function GetLevel(lg: Logger): (r: Level)
    ensures SetLevel(lg, r) == lg
  {
    lg.level
  }

  /** `Logger::EnableConsoleOutput`, `EnableTimestamp` and `SetPattern`: each sets its
      own setting and leaves the rest of the logger as it was. */
  function EnableConsoleOutput(lg: Logger, enable: bool): (r: Logger)
    ensures r.console == enable && r.(console := lg.console) == lg
  {
    lg.(console := enable)
  }

  function EnableTimestamp(lg: Logger, enable: bool): (r: Logger)
    ensures r.timestamps == enable && r.(timestamps := lg.timestamps) == lg
  {
    lg.(timestamps := enable)
  }

  function SetPattern(lg: Logger, pattern: string): (r: Logger)
    ensures r.pattern == pattern && r.(pattern := lg.pattern) == lg
  {
    lg.(pattern := pattern)
  }

  /** `Logger::SetOutputFile`: any open file is closed; a non-empty name is then
      opened for appending. Whether the open succeeds is up to the file system and is
      the input `openSucceeds`; a failed open leaves no file open. */
  function SetOutputFile(lg: Logger, filename: string, openSucceeds: bool): (r: Logger)
    ensures r.file.Some? ==> r.file.value == filename && filename != ""
    ensures r.(file := lg.file) == lg
  {
    lg.(file := if filename != "" && openSucceeds then Some(filename) else None)
  }

  /** Setting the level and reading it back agree, and nothing else changes. */
  lemma SetLevelGetLevel(lg: Logger, level: Level)
    ensures GetLevel(SetLevel(lg, level)) == level
    ensures SetLevel(lg, level).(level := lg.level) == lg
  {
  }

  /** An empty file name closes the output file, whatever was open before; of two
      calls only the last matters. */
  lemma SetOutputFileLastWins(lg: Logger, first: string, o1: bool, second: string, o2: bool)
    ensures SetOutputFile(lg, "", o1).file == None
    ensures SetOutputFile(SetOutputFile(lg, first, o1), second, o2) == SetOutputFile(lg, second, o2)
  {
  }

  // ---------------------------------------------------------------------------
  // Formatting
  // ---------------------------------------------------------------------------

  /** `formatted.replace(formatted.find(token), |token|, value)` when the token is
      found, and the text unchanged otherwise. */
  function ReplaceFirst(s: string, token: string, value: string): (r: string)
  {
    match Find(s, token, 0)
    case None => s
    case Some(p) => s[..p] + value + s[p + |token|..]
  }

  /** `Logger::Impl::FormatMessage`: substitute the first `{timestamp}` (only when
      timestamps are on), then the first `{level}`, `{name}` and `{message}`, each
      search running over the text as substituted so far. */
  function FormatMessage(lg: Logger, level: Level, message: string, timestamp: string): (r: string)
    ensures BraceFree(lg.pattern) ==> r == lg.pattern
  {
    BraceFreeUnchanged(lg.pattern, "{timestamp}", timestamp);
    BraceFreeUnchanged(lg.pattern, "{level}", LevelToString(level));
    BraceFreeUnchanged(lg.pattern, "{name}", lg.name);
    BraceFreeUnchanged(lg.pattern, "{message}", message);
    var s1 := if lg.timestamps then ReplaceFirst(lg.pattern, "{timestamp}", timestamp) else lg.pattern;
    var s2 := ReplaceFirst(s1, "{level}", LevelToString(level));
    var s3 := ReplaceFirst(s2, "{name}", lg.name);
    ReplaceFirst(s3, "{message}", message)
  }

  /** Every occurrence of `token[0]` in `a` is followed, within `a`, by a character
      other than `token[1]`; so no occurrence of `token` can start inside `a`. */
  predicate NoStartOf(a: string, token: string)
    requires |token| >= 2
  {
    forall j :: 0 <= j < |a| && a[j] == token[0] ==> j + 1 < |a| && a[j + 1] != token[1]
  }

  /** No occurrence of the token starts inside `a`, whatever follows it. */
  lemma NoOccurrenceIn(a: string, rest: string, token: string, j: nat)
    requires |token| >= 2 && NoStartOf(a, token) && j < |a|
    ensures !OccursAt(a + rest, token, j)
  {
    var s := a + rest;
    if j + |token| <= |s| {
      var w := s[j..j + |token|];
      if a[j] != token[0] {
        assert w[0] == a[j];
      } else {
        assert w[1] == a[j + 1];
      }
    }
  }

  /** Replacing the first token of `a + token + b`, where no token starts in `a`,
      puts the value between `a` and `b`. */
  lemma ReplaceFirstAt(a: string, token: string, b: string, value: string)
    requires |token| >= 2 && NoStartOf(a, token)
    ensures ReplaceFirst(a + token + b, token, value) == a + value + b
  {
    var s := a + token + b;
    forall j | 0 <= j < |a|
      ensures !OccursAt(s, token, j)
    {
      NoOccurrenceIn(a, token + b, token, j);
      assert a + (token + b) == s;
    }
    assert s[|a|..|a| + |token|] == token;
    FindFirst(s, token, 0, |a|);
    assert s[..|a|] == a;
    assert s[|a| + |token|..] == b;
  }

  /** Text in which the token does not start anywhere is left unchanged. */
  lemma ReplaceFirstAbsent(s: string, token: string, value: string)
    requires |token| >= 2 && NoStartOf(s, token)
    ensures ReplaceFirst(s, token, value) == s
  {
    forall j: nat | j < |s|
      ensures !OccursAt(s, token, j)
    {
      NoOccurrenceIn(s, [], token, j);
      assert s + [] == s;
    }
    FindSpec(s, token, 0);
  }

  /** A pattern that contains none of the four tokens is emitted verbatim. */
  lemma FormatVerbatim(lg: Logger, level: Level, message: string, timestamp: string)
    requires NoStartOf(lg.pattern, "{timestamp}") && NoStartOf(lg.pattern, "{level}")
    requires NoStartOf(lg.pattern, "{name}") && NoStartOf(lg.pattern, "{message}")
    ensures FormatMessage(lg, level, message, timestamp) == lg.pattern
  {
    ReplaceFirstAbsent(lg.pattern, "{timestamp}", timestamp);
    ReplaceFirstAbsent(lg.pattern, "{level}", LevelToString(level));
    ReplaceFirstAbsent(lg.pattern, "{name}", lg.name);
    ReplaceFirstAbsent(lg.pattern, "{message}", message);
  }

  /** A brace-free text has no token to replace. */
  lemma BraceFreeUnchanged(s: string, token: string, value: string)
    requires |token| >= 2 && token[0] == '{'
    ensures BraceFree(s) ==> ReplaceFirst(s, token, value) == s
  {
    if BraceFree(s) {
      ReplaceFirstAbsent(s, token, value);
    }
  }

  /** Text with no opening brace, in which no token can start. */
  predicate BraceFree(s: string) {
    forall i :: 0 <= i < |s| ==> s[i] != '{'
  }

  lemma BraceFreeNoStart(s: string, token: string)
    requires |token| >= 2 && token[0] == '{' && BraceFree(s)
    ensures NoStartOf(s, token)
  {
  }

  /** `NoStartOf` carries over to a concatenation. */
  lemma NoStartOfConcat(a: string, b: string, token: string)
    requires |token| >= 2 && NoStartOf(a, token) && NoStartOf(b, token)
    ensures NoStartOf(a + b, token)
  {
    var s := a + b;
    forall j | 0 <= j < |s| && s[j] == token[0]
      ensures j + 1 < |s| && s[j + 1] != token[1]
    {
      if j < |a| {
        assert s[j] == a[j] && s[j + 1] == a[j + 1];
      } else {
        assert s[j] == b[j - |a|];
        assert j + 1 < |s| ==> s[j + 1] == b[j + 1 - |a|];
      }
    }
  }

  lemma BraceFreeConcat(a: string, b: string)
    requires BraceFree(a) && BraceFree(b)
    ensures BraceFree(a + b)
  {
    assert forall i :: |a| <= i < |a + b| ==> (a + b)[i] == b[i - |a|];
  }

  lemma LevelNameBraceFree(l: Level)
    ensures BraceFree(LevelToString(l))
  {
    NameBraceFree(LevelToString(l));
  }

  /** None of the six level names has an opening brace. */
  lemma NameBraceFree(name: string)
    requires name in {"TRACE", "DEBUG", "INFO", "WARN", "ERROR", "FATAL"}
    ensures BraceFree(name)
  {
  }

  /** Two substitutions in a row, of tokens that occur in this order and do not start
      earlier, even after the first value is in place. */
  lemma ReplaceTwo(a: string, t1: string, b: string, t2: string, d: string, v1: string, v2: string)
    requires |t1| >= 2 && |t2| >= 2
    requires NoStartOf(a, t1) && NoStartOf(a, t2) && NoStartOf(v1, t2) && NoStartOf(b, t2)
    ensures ReplaceFirst(ReplaceFirst(a + t1 + b + t2 + d, t1, v1), t2, v2) == a + v1 + b + v2 + d
  {
    assert a + t1 + b + t2 + d == a + t1 + (b + t2 + d);
    ReplaceFirstAt(a, t1, b + t2 + d, v1);
    assert a + v1 + (b + t2 + d) == a + v1 + b + t2 + d;
    NoStartOfConcat(a, v1, t2);
    NoStartOfConcat(a + v1, b, t2);
    ReplaceFirstAt(a + v1 + b, t2, d, v2);
  }

  /** The first two substitutions on a pattern of the expected shape. */
  lemma TimeAndLevel(pattern: string, lv: string, timestamp: string,
                     p0: string, p1: string, p2: string, p3: string, p4: string)
    requires pattern == p0 + "{timestamp}" + p1 + "{level}" + p2 + "{name}" + p3 + "{message}" + p4
    requires BraceFree(p0) && BraceFree(p1) && BraceFree(timestamp)
    ensures ReplaceFirst(ReplaceFirst(pattern, "{timestamp}", timestamp), "{level}", lv)
            == p0 + timestamp + p1 + lv + p2 + "{name}" + p3 + "{message}" + p4
  {
    var d := p2 + "{name}" + p3 + "{message}" + p4;
    assert pattern == p0 + "{timestamp}" + p1 + "{level}" + d;
    BraceFreeNoStart(p0, "{timestamp}");
    BraceFreeNoStart(p0, "{level}");
    BraceFreeNoStart(timestamp, "{level}");
    BraceFreeNoStart(p1, "{level}");
    ReplaceTwo(p0, "{timestamp}", p1, "{level}", d, timestamp, lv);
    assert p0 + timestamp + p1 + lv + d
        == p0 + timestamp + p1 + lv + p2 + "{name}" + p3 + "{message}" + p4;
  }

  /** A pattern with each of the four tokens once, in the order they are substituted,
      and no opening brace elsewhere: with timestamps on, each token is replaced by its
      value, provided the time and the name contain no opening brace (the message may
      contain anything, since it is substituted last). */
  lemma FormatInOrder(lg: Logger, level: Level, message: string, timestamp: string,
                      p0: string, p1: string, p2: string, p3: string, p4: string)
    requires lg.timestamps
    requires lg.pattern == p0 + "{timestamp}" + p1 + "{level}" + p2 + "{name}" + p3 + "{message}" + p4
    requires BraceFree(p0) && BraceFree(p1) && BraceFree(p2) && BraceFree(p3)
    requires BraceFree(timestamp) && BraceFree(lg.name)
    ensures FormatMessage(lg, level, message, timestamp)
            == p0 + timestamp + p1 + LevelToString(level) + p2 + lg.name + p3 + message + p4
  {
    var lv, nm := LevelToString(level), lg.name;
    TimeAndLevel(lg.pattern, LevelToString(level), timestamp, p0, p1, p2, p3, p4);
    var q := p0 + timestamp + p1 + lv + p2;
    LevelNameBraceFree(level);
    BraceFreeConcat(p0, timestamp);
    BraceFreeConcat(p0 + timestamp, p1);
    BraceFreeConcat(p0 + timestamp + p1, lv);
    BraceFreeConcat(p0 + timestamp + p1 + lv, p2);
    BraceFreeNoStart(q, "{name}");
    BraceFreeNoStart(q, "{message}");
    BraceFreeNoStart(nm, "{message}");
    BraceFreeNoStart(p3, "{message}");
    ReplaceTwo(q, "{name}", p3, "{message}", p4, nm, message);
  }

  /** The default pattern with timestamps on gives `[time] [LEVEL] [name] message`. */
  lemma FormatDefault(lg: Logger, level: Level, message: string, timestamp: string)
    requires lg.pattern == DefaultPattern && lg.timestamps
    requires BraceFree(timestamp) && BraceFree(lg.name)
    ensures FormatMessage(lg, level, message, timestamp)
            == "[" + timestamp + "] [" + LevelToString(level) + "] [" + lg.name + "] " + message
  {
    assert DefaultPattern == "[" + "{timestamp}" + "] [" + "{level}" + "] [" + "{name}" + "] " + "{message}" + "";
    FormatInOrder(lg, level, message, timestamp, "[", "] [", "] [", "] ", "");
  }

  /** The literal `{timestamp}` starts none of the later tokens. */
  lemma TimestampTokenStartsNoOther()
    ensures NoStartOf("{timestamp}", "{level}")
    ensures NoStartOf("{timestamp}", "{name}")
    ensures NoStartOf("{timestamp}", "{message}")
  {
    var t := "{timestamp}";
    assert t[0] == '{' && t[1] == 't';
    assert forall j :: 1 <= j < |t| ==> t[j] != '{';
  }

  /** With timestamps off, the `{timestamp}` token is left in the line and the other
      three are substituted as before. */
  lemma FormatWithoutTimestamp(lg: Logger, level: Level, message: string, timestamp: string,
                               p0: string, p1: string, p2: string, p3: string, p4: string)
    requires !lg.timestamps
    requires lg.pattern == p0 + "{timestamp}" + p1 + "{level}" + p2 + "{name}" + p3 + "{message}" + p4
    requires BraceFree(p0) && BraceFree(p1) && BraceFree(p2) && BraceFree(p3) && BraceFree(lg.name)
    ensures FormatMessage(lg, level, message, timestamp)
            == p0 + "{timestamp}" + p1 + LevelToString(level) + p2 + lg.name + p3 + message + p4
  {
    var lv := LevelToString(level);
    TimestampTokenStartsNoOther();
    BraceFreeNoStart(p0, "{level}");
    BraceFreeNoStart(p1, "{level}");
    NoStartOfConcat(p0, "{timestamp}", "{level}");
    NoStartOfConcat(p0 + "{timestamp}", p1, "{level}");
    LevelNameBraceFree(level);
    NameStepPrefix(p0, p1, lv, p2);
    BraceFreeNoStart(lg.name, "{message}");
    BraceFreeNoStart(p3, "{message}");
    LevelNameMessage(p0 + "{timestamp}" + p1, "{level}", p2, "{name}", p3, "{message}", p4,
                     lv, lg.name, message);
  }

  /** The level, name and message steps over text in which none of the three tokens
      starts before its own place. */
  lemma LevelNameMessage(a: string, tl: string, p2: string, tn: string, p3: string, tm: string,
                         p4: string, lv: string, nm: string, message: string)
    requires |tl| >= 2 && |tn| >= 2 && |tm| >= 2
    requires NoStartOf(a, tl) && NoStartOf(a + lv + p2, tn) && NoStartOf(a + lv + p2, tm)
    requires NoStartOf(nm, tm) && NoStartOf(p3, tm)
    ensures ReplaceFirst(ReplaceFirst(ReplaceFirst(a + tl + p2 + tn + p3 + tm + p4, tl, lv), tn, nm), tm, message)
            == a + lv + p2 + nm + p3 + message + p4
  {
    var d := p2 + tn + p3 + tm + p4;
    assert a + tl + p2 + tn + p3 + tm + p4 == a + tl + d;
    ReplaceFirstAt(a, tl, d, lv);
    var q := a + lv + p2;
    assert a + lv + d == q + tn + p3 + tm + p4;
    ReplaceTwo(q, tn, p3, tm, p4, nm, message);
  }

  lemma NameStepPrefix(p0: string, p1: string, lv: string, p2: string)
    requires BraceFree(p0) && BraceFree(p1) && BraceFree(lv) && BraceFree(p2)
    ensures NoStartOf(p0 + "{timestamp}" + p1 + lv + p2, "{name}")
    ensures NoStartOf(p0 + "{timestamp}" + p1 + lv + p2, "{message}")
  {
    TimestampTokenStartsNoOther();
    BraceFreeConcat(p1, lv);
    BraceFreeConcat(p1 + lv, p2);
    assert p0 + "{timestamp}" + p1 + lv + p2 == p0 + "{timestamp}" + (p1 + lv + p2);
    BraceFreeNoStart(p0, "{name}");
    BraceFreeNoStart(p0, "{message}");
    BraceFreeNoStart(p1 + lv + p2, "{name}");
    BraceFreeNoStart(p1 + lv + p2, "{message}");
    NoStartOfConcat(p0, "{timestamp}", "{name}");
    NoStartOfConcat(p0, "{timestamp}", "{message}");
    NoStartOfConcat(p0 + "{timestamp}", p1 + lv + p2, "{name}");
    NoStartOfConcat(p0 + "{timestamp}", p1 + lv + p2, "{message}");
  }

  /** The default pattern with timestamps off gives `[{timestamp}] [LEVEL] [name]
      message`. */
  lemma FormatDefaultWithoutTimestamp(lg: Logger, level: Level, message: string, timestamp: string)
    requires lg.pattern == DefaultPattern && !lg.timestamps && BraceFree(lg.name)
    ensures FormatMessage(lg, level, message, timestamp)
            == "[" + "{timestamp}" + "] [" + LevelToString(level) + "] [" + lg.name + "] " + message
  {
    assert DefaultPattern == "[" + "{timestamp}" + "] [" + "{level}" + "] [" + "{name}" + "] " + "{message}" + "";
    FormatWithoutTimestamp(lg, level, message, timestamp, "[", "] [", "] [", "] ", "");
  }

  /** The tokens `{name}` and `{message}` start neither of the tokens searched
      before them. */
  lemma LaterTokensStartNoEarlier()
    ensures NoStartOf("{name}", "{timestamp}") && NoStartOf("{name}", "{level}")
    ensures NoStartOf("{message}", "{timestamp}") && NoStartOf("{message}", "{level}")
  {
    var n, m := "{name}", "{message}";
    assert n[1] == 'n' && forall j :: 1 <= j < |n| ==> n[j] != '{';
    assert m[1] == 'm' && forall j :: 1 <= j < |m| ==> m[j] != '{';
  }

  /** A pattern with only the `{name}` and `{message}` tokens, and otherwise no opening
      brace, contains neither of the first two tokens. */
  lemma NameMessagePatternStartsNoEarlier(p0: string, p3: string, p4: string, token: string)
    requires token == "{timestamp}" || token == "{level}"
    requires BraceFree(p0) && BraceFree(p3) && BraceFree(p4)
    ensures NoStartOf(p0 + "{name}" + p3 + "{message}" + p4, token)
  {
    LaterTokensStartNoEarlier();
    BraceFreeNoStart(p0, token);
    BraceFreeNoStart(p3, token);
    BraceFreeNoStart(p4, token);
    NoStartOfConcat(p0, "{name}", token);
    NoStartOfConcat(p0 + "{name}", p3, token);
    NoStartOfConcat(p0 + "{name}" + p3, "{message}", token);
    NoStartOfConcat(p0 + "{name}" + p3 + "{message}", p4, token);
  }

  /** Each search runs over the text substituted so far: when the logger's name itself
      contains `{message}`, the message lands inside the substituted name and the
      pattern's own `{message}` is left in place. */
  lemma SubstitutedTextIsSearched(lg: Logger, level: Level, message: string, timestamp: string,
                                  p0: string, p3: string, p4: string, u: string, w: string)
    requires lg.pattern == p0 + "{name}" + p3 + "{message}" + p4
    requires BraceFree(p0) && BraceFree(p3) && BraceFree(p4)
    requires lg.name == u + "{message}" + w && BraceFree(u)
    ensures FormatMessage(lg, level, message, timestamp)
            == p0 + u + message + w + p3 + "{message}" + p4
  {
    NameMessagePatternStartsNoEarlier(p0, p3, p4, "{timestamp}");
    NameMessagePatternStartsNoEarlier(p0, p3, p4, "{level}");
    OnlyNameAndMessage(lg, level, message, timestamp);
    BraceFreeNoStart(p0, "{name}");
    BraceFreeConcat(p0, u);
    BraceFreeNoStart(p0 + u, "{message}");
    NameThenMessage(p0, "{name}", p3, "{message}", p4, u, w, message);
  }

  /** A pattern in which neither `{timestamp}` nor `{level}` can start goes through
      the first two steps unchanged. */
  lemma OnlyNameAndMessage(lg: Logger, level: Level, message: string, timestamp: string)
    requires NoStartOf(lg.pattern, "{timestamp}") && NoStartOf(lg.pattern, "{level}")
    ensures FormatMessage(lg, level, message, timestamp)
            == ReplaceFirst(ReplaceFirst(lg.pattern, "{name}", lg.name), "{message}", message)
  {
    ReplaceFirstAbsent(lg.pattern, "{timestamp}", timestamp);
    ReplaceFirstAbsent(lg.pattern, "{level}", LevelToString(level));
  }

  /** The name step followed by the message step, when the name's value itself holds
      the message token. */
  lemma NameThenMessage(p0: string, tn: string, p3: string, tm: string, p4: string,
                        u: string, w: string, message: string)
    requires |tn| >= 2 && |tm| >= 2
    requires NoStartOf(p0, tn) && NoStartOf(p0 + u, tm)
    ensures ReplaceFirst(ReplaceFirst(p0 + tn + p3 + tm + p4, tn, u + tm + w), tm, message)
            == p0 + u + message + w + p3 + tm + p4
  {
    var rest := p3 + tm + p4;
    var v := u + tm + w;
    Regroup(p0, tn, p3, tm, p4);
    ReplaceFirstAt(p0, tn, rest, v);
    Regroup(p0, u, tm, w, rest);
    ReplaceFirstAt(p0 + u, tm, w + rest, message);
    Regroup(p0 + u + message, w, p3, tm, p4);
  }

  /** Regrouping a concatenation of five pieces. */
  lemma Regroup(a: string, b: string, c: string, d: string, e: string)
    ensures a + b + c + d + e == a + b + (c + d + e)
    ensures a + (b + c + d) + e == a + b + c + (d + e)
    ensures a + (b + (c + d + e)) == a + b + c + d + e
  {
  }

  // ---------------------------------------------------------------------------
  // Logging
  // ---------------------------------------------------------------------------

  /** Where a line is written: the two console streams, or the open log file. */
  datatype Stream = Stdout | Stderr | LogFile(path: string)

  /** One `<< formatted << std::endl`: the text of a line and the stream it goes to. */
  datatype Line = Line(stream: Stream, text: string)

  /** `Logger::Log`: a message below the threshold is dropped; otherwise the formatted
      line goes to standard error for ERROR and FATAL and to standard output for the
      rest when console output is on, and then to the open file, if any. */
  function Log(lg: Logger, level: Level, message: string, timestamp: string): (out: seq<Line>)
    ensures |out| <= 2
    ensures forall k :: 0 <= k < |out| ==> out[k].text == FormatMessage(lg, level, message, timestamp)
  {
    if Rank(level) < Rank(lg.level) then []
    else Route(lg, level, FormatMessage(lg, level, message, timestamp))
  }

  /** The lines a formatted message at or above the threshold becomes: one on the
      console stream for its level when the console is on, then one in the open
      file, if any. */
  function Route(lg: Logger, level: Level, text: string): (out: seq<Line>)
    ensures |out| <= 2
    ensures forall k :: 0 <= k < |out| ==> out[k].text == text
    ensures out == [] <==> !lg.console && lg.file.None?
  {
    var console := if lg.console then [Line(if Rank(level) >= Rank(Error) then Stderr else Stdout, text)] else [];
    var file := match lg.file
      case Some(path) => [Line(LogFile(path), text)]
      case None => [];
    console + file
  }

  /** Where the lines of `Route` go. */
  lemma RouteLines(lg: Logger, level: Level, text: string)
    ensures var out := Route(lg, level, text);
            && (Line(Stderr, text) in out <==> lg.console && Rank(level) >= Rank(Error))
            && (Line(Stdout, text) in out <==> lg.console && Rank(level) < Rank(Error))
            && (forall path :: Line(LogFile(path), text) in out <==> lg.file == Some(path))
            && (lg.file.Some? ==> out[|out| - 1] == Line(LogFile(lg.file.value), text))
  {
  }

  /** A message is written somewhere exactly when it is at or above the threshold and
      the console or a file is enabled. */
  lemma LogSilentIff(lg: Logger, level: Level, message: string, timestamp: string)
    ensures Log(lg, level, message, timestamp) == []
            <==> Rank(level) < Rank(lg.level) || (!lg.console && lg.file.None?)
  {
  }

  /** Where a message at or above the threshold goes: standard error for ERROR and
      FATAL, standard output below that, both only with console output on, and the
      open file whenever there is one, after the console. */
  lemma LogRouting(lg: Logger, level: Level, message: string, timestamp: string)
    requires Rank(level) >= Rank(lg.level)
    ensures var out := Log(lg, level, message, timestamp);
            var text := FormatMessage(lg, level, message, timestamp);
            && (Line(Stderr, text) in out <==> lg.console && Rank(level) >= Rank(Error))
            && (Line(Stdout, text) in out <==> lg.console && Rank(level) < Rank(Error))
            && (forall path :: Line(LogFile(path), text) in out <==> lg.file == Some(path))
            && (lg.file.Some? ==> out[|out| - 1] == Line(LogFile(lg.file.value), text))
  {
    RouteLines(lg, level, FormatMessage(lg, level, message, timestamp));
  }

  /** After `SetLevel(t)`, a message at level `m` is emitted exactly when `m` is not
      below `t` (and some output is enabled). */
  lemma LogAfterSetLevel(lg: Logger, t: Level, m: Level, message: string, timestamp: string)
    requires lg.console || lg.file.Some?
    ensures Log(SetLevel(lg, t), m, message, timestamp) != [] <==> Rank(m) >= Rank(t)
  {
    LogSilentIff(SetLevel(lg, t), m, message, timestamp);
  }

  /** After `SetOutputFile("")` nothing reaches any file. */
  lemma LogAfterClosingFile(lg: Logger, openSucceeds: bool, level: Level, message: string, timestamp: string)
    ensures var out := Log(SetOutputFile(lg, "", openSucceeds), level, message, timestamp);
            forall k :: 0 <= k < |out| ==> !out[k].stream.LogFile?
  {
  }
}

=== FILE: memory_utils.dfy ===
/** `MemoryUtils`: the byte count of a tensor in `size_t` arithmetic and the unit
    choice of `FormatBytes`. */
module MemoryUtils {
  import opened SizeArithmetic

  // ---------------------------------------------------------------------------
  // Tensor size
  // ---------------------------------------------------------------------------

  /** The mathematical product of the dimensions. */
  function Product(dims: seq<int>): int
    decreases |dims|
  {
    if |dims| == 0 then 1 else Product(dims[..|dims| - 1]) * dims[|dims| - 1]
  }

  /** Wrapping after every step is wrapping once at the end. */
  lemma WrapMul(a: int, b: int)
    ensures WrapSize(WrapSize(a) * WrapSize(b)) == WrapSize(a * b)
  {
    var m := SizeModulus;
    var qa, qb := a / m, b / m;
    var ra, rb := a % m, b % m;
    assert a == qa * m + ra && b == qb * m + rb;
    assert a * b == (qa * qb * m + qa * rb + ra * qb) * m + ra * rb by {
      assert a * b == (qa * m + ra) * (qb * m + rb);
    }
    ModShift(ra * rb, qa * qb * m + qa * rb + ra * qb);
  }

  /** Adding whole multiples of 2^64 does not change the wrapped value. */
  lemma ModShift(x: int, k: int)
    ensures WrapSize(k * SizeModulus + x) == WrapSize(x)
  {
    var m := SizeModulus;
    var q, r := x / m, x % m;
    assert k * m + x == (k + q) * m + r;
  }

  /** `MemoryUtils::GetTensorMemorySize`: the running product of the dimensions, each
      `int64_t` converted to `size_t` (two's complement, so a negative dimension
      wraps), then times the element size, all modulo 2^64. */
  method TensorMemorySize(shape: seq<int>, elementSize: nat) returns (bytes: nat)
    requires elementSize < SizeModulus
    ensures bytes == WrapSize(Product(shape) * elementSize)
    ensures 0 <= Product(shape) * elementSize < SizeModulus ==> bytes == Product(shape) * elementSize
  {
    var total: nat := 1;
    var i := 0;
    while i < |shape|
      invariant 0 <= i <= |shape|
      invariant total == WrapSize(Product(shape[..i]))
    {
      ProductStep(shape, i);
      WrapMul(Product(shape[..i]), shape[i]);
      total := WrapSize(total * WrapSize(shape[i]));
      i := i + 1;
    }
    assert shape[..|shape|] == shape;
    WrapMul(Product(shape), elementSize);
    WrapSmall(elementSize);
    bytes := WrapSize(total * elementSize);
    if 0 <= Product(shape) * elementSize < SizeModulus {
      WrapSmall(Product(shape) * elementSize);
    }
  }

  /** A value that fits is its own wrap. */
  lemma WrapSmall(x: int)
    requires 0 <= x < SizeModulus
    ensures WrapSize(x) == x
  {
  }

  /** The product of one more dimension. */
  lemma ProductStep(shape: seq<int>, i: nat)
    requires i < |shape|
    ensures Product(shape[..i + 1]) == Product(shape[..i]) * shape[i]
  {
    assert shape[..i + 1][..i] == shape[..i];
  }

  /** The case of the library's unit test (tests/unit/test_utils_basic.cpp): a
      1x3x224x224 tensor of 4-byte floats takes 602112 bytes. */
  method TensorExample() returns (bytes: nat)
    ensures bytes == 602112
  {
    assert Product([1, 3, 224, 224]) == 150528 by {
      assert [1, 3, 224, 224][..3] == [1, 3, 224];
      assert [1, 3, 224][..2] == [1, 3];
      assert [1, 3][..1] == [1];
      assert [1][..0] == [];
    }
    bytes := TensorMemorySize([1, 3, 224, 224], 4);
  }

  // ---------------------------------------------------------------------------
  // FormatBytes unit choice
  // ---------------------------------------------------------------------------

  const Units: seq<string> := ["B", "KB", "MB", "GB", "TB"]

  function Pow1024(k: nat): (r: nat)
    ensures r >= 1
  {
    if k == 0 then 1 else 1024 * Pow1024(k - 1)
  }

  /** The unit `FormatBytes` settles on, stated without the loop: the largest of the
      five whose size is at most `bytes`, and bytes for anything below a kilobyte. */
  predicate IsUnitOf(bytes: nat, u: nat) {
    u < |Units| && (u == 0 || Pow1024(u) <= bytes) && (u == |Units| - 1 || bytes < Pow1024(u + 1))
  }

  /** `MemoryUtils::FormatBytes` without the `%.2f` rendering: the loop that divides
      by 1024 while the value is at least 1024 and a larger unit remains. For counts
      up to 2^53 the conversion to `double` is exact and so is division by 1024, so
      the source's `double` after `u` turns is exactly `bytes / 1024^u`. Above 2^53
      the conversion rounds to a nearby double and the source's size is that rounded
      count over `1024^u`, which `size` does not model; the unit is unaffected,
      because rounding is monotone and every threshold is a power of two below 2^53.
      The loop keeps the divisor as `scale` and compares `bytes` with `1024 * scale`,
      which is the source's `size >= 1024.0`. */
  method FormatBytes(bytes: nat) returns (size: real, unit: string)
    requires bytes < SizeModulus
    ensures exists u: nat :: IsUnitOf(bytes, u) && unit == Units[u]
                             && size == bytes as real / Pow1024(u) as real
  {
    var scale: nat := 1;
    var u: nat := 0;
    while bytes >= 1024 * scale && u < 4
      invariant u <= 4 && scale == Pow1024(u)
      invariant u == 0 || scale <= bytes
    {
      scale := 1024 * scale;
      u := u + 1;
    }
    size := bytes as real / scale as real;
    unit := Units[u];
  }

  /** The unit is determined by `bytes`: one unit fits. */
  lemma UnitUnique(bytes: nat, u: nat, v: nat)
    requires IsUnitOf(bytes, u) && IsUnitOf(bytes, v)
    ensures u == v
  {
    if u < v {
      PowMonotone(u + 1, v);
    } else if v < u {
      PowMonotone(v + 1, u);
    }
  }

  lemma {:induction false} PowMonotone(a: nat, b: nat)
    requires a <= b
    ensures Pow1024(a) <= Pow1024(b)
    decreases b
  {
    if a < b {
      PowMonotone(a, b - 1);
    }
  }

  /** More bytes never take a smaller unit. */
  lemma UnitMonotone(b1: nat, b2: nat, u1: nat, u2: nat)
    requires b1 <= b2 && IsUnitOf(b1, u1) && IsUnitOf(b2, u2)
    ensures u1 <= u2
  {
    if u2 < u1 {
      PowMonotone(u2 + 1, u1);
    }
  }

  /** The cases of the library's unit test (tests/unit/test_utils_basic.cpp):
      exactly 1024, 1024^2 and 1024^3 bytes are one kilobyte, megabyte and gigabyte. */
  lemma FormatBytesExamples()
    ensures IsUnitOf(1024, 1) && IsUnitOf(1024 * 1024, 2) && IsUnitOf(1024 * 1024 * 1024, 3)
  {
  }
}

=== FILE: size_arithmetic.dfy ===
/** `SizeArithmetic`: the unsigned `size_t` of a 64-bit target, shared by the modules
    whose source computes in it. */
module SizeArithmetic {

  /** `size_t` arithmetic wraps modulo 2^64. */
  const SizeModulus: int := 0x1_0000_0000_0000_0000

  /** A mathematical integer reduced into `size_t`, as unsigned arithmetic and the
      conversion of a signed value to `size_t` do. */
  function WrapSize(x: int): (r: nat)
    ensures r < SizeModulus
    ensures 0 <= x < SizeModulus ==> r == x
  {
    x % SizeModulus
  }
}

=== FILE: string_utils.dfy ===
/** The string helpers of `StringUtils` (src/utils/VisionUtils.cpp), together with the
    substring search of `std::string::find` that several of them, the log formatter and
    the file-type classifier rely on. Characters are those of a byte string; case mapping
    is that of the "C" locale, so only the ASCII letters change. */
module StringUtils {
  import opened Wrappers

  // ---------------------------------------------------------------------------
  // Substring search
  // ---------------------------------------------------------------------------

  /** `pat` occurs in `s` starting at index `i`. */
  predicate OccursAt(s: string, pat: string, i: nat) {
    i + |pat| <= |s| && s[i..i + |pat|] == pat
  }

  /** `std::string::find(pat, from)`: the first index at or after `from` where `pat`
      occurs, or `None` for `npos`. An empty `pat` is found at `from` itself whenever
      `from <= |s|`. */
  function Find(s: string, pat: string, from: nat): (r: Option<nat>)
    ensures r.Some? ==> from <= r.value && r.value + |pat| <= |s|
    decreases |s| - from
  {
    if from + |pat| > |s| then None
    else if s[from..from + |pat|] == pat then Some(from)
    else Find(s, pat, from + 1)
  }

  /** What `Find` returns is the first occurrence at or after `from`; `None` means
      there is none. */
  lemma {:induction false} FindSpec(s: string, pat: string, from: nat)
    ensures Find(s, pat, from).Some? ==> OccursAt(s, pat, Find(s, pat, from).value)
    ensures Find(s, pat, from).Some? ==>
              forall j :: from <= j < Find(s, pat, from).value ==> !OccursAt(s, pat, j)
    ensures Find(s, pat, from).None? ==> forall j :: from <= j ==> !OccursAt(s, pat, j)
    decreases |s| - from
  {
    if from + |pat| <= |s| && s[from..from + |pat|] != pat {
      FindSpec(s, pat, from + 1);
    }
  }

  /** `pat` occurs somewhere in `s`. */
  predicate Contains(s: string, pat: string) {
    Find(s, pat, 0).Some?
  }

  /** `Find` is characterised by its contract: a first occurrence at or after `from`
      is what it returns. */
  lemma {:induction false} FindFirst(s: string, pat: string, from: nat, i: nat)
    requires from <= i && OccursAt(s, pat, i)
    requires forall k :: from <= k < i ==> !OccursAt(s, pat, k)
    ensures Find(s, pat, from) == Some(i)
    decreases i - from
  {
    if from < i {
      assert !OccursAt(s, pat, from);
      FindFirst(s, pat, from + 1, i);
    }
  }

  /** An occurrence in a suffix is an occurrence in the whole text, shifted. */
  lemma OccursInSuffix(s: string, pat: string, start: nat, j: nat)
    requires start <= |s|
    ensures OccursAt(s[start..], pat, j) <==> OccursAt(s, pat, start + j)
  {
    if j + |pat| <= |s| - start {
      assert s[start..][j..j + |pat|] == s[start + j..start + j + |pat|];
    }
  }

  /** An occurrence inside the slice `s[a..b]` is an occurrence in `s` that ends by
      `b`. */
  lemma OccursInSlice(s: string, pat: string, a: nat, b: nat, j: nat)
    requires a <= b <= |s|
    requires OccursAt(s[a..b], pat, j)
    ensures OccursAt(s, pat, a + j) && a + j + |pat| <= b
  {
    var m := |pat|;
    assert s[a..b] == s[a..][..b - a];
    assert s[a..][..b - a][j..j + m] == s[a..][j..j + m];
    OccursInSuffix(s, pat, a, j);
  }

  /** A search that starts at `start` is the same search run over the suffix from
      `start`, shifted back by `start`. */
  lemma FindInSuffix(s: string, pat: string, start: nat)
    requires start <= |s|
    ensures Find(s, pat, start).Some? <==> Find(s[start..], pat, 0).Some?
    ensures Find(s, pat, start).Some? ==>
              Find(s, pat, start).value == start + Find(s[start..], pat, 0).value
  {
    var t := s[start..];
    var a := Find(t, pat, 0);
    FindSpec(s, pat, start);
    FindSpec(t, pat, 0);
    if a.Some? {
      OccursInSuffix(s, pat, start, a.value);
      forall k | start <= k < start + a.value
        ensures !OccursAt(s, pat, k)
      {
        OccursInSuffix(s, pat, start, k - start);
      }
      FindFirst(s, pat, start, start + a.value);
    } else {
      forall k | start <= k
        ensures !OccursAt(s, pat, k)
      {
        OccursInSuffix(s, pat, start, k - start);
      }
    }
  }

  /** Two texts that agree from `i` and from `j` on are searched alike from there. */
  lemma FindAligned(s: string, u: string, pat: string, i: nat, j: nat)
    requires i <= |s| && j <= |u| && s[i..] == u[j..]
    ensures Find(s, pat, i).Some? <==> Find(u, pat, j).Some?
    ensures Find(s, pat, i).Some? ==> Find(s, pat, i).value - i == Find(u, pat, j).value - j
  {
    FindInSuffix(s, pat, i);
    FindInSuffix(u, pat, j);
  }

  /** A `Contains` answer is witnessed by (or excludes) every explicit position. */
  lemma ContainsIff(s: string, pat: string)
    ensures Contains(s, pat) <==> exists j: nat :: OccursAt(s, pat, j)
  {
    FindSpec(s, pat, 0);
  }

  /** A one-character pattern occurs at `k` exactly when the character is there. */
  lemma OccursAtChar(s: string, c: char, k: nat)
    ensures OccursAt(s, [c], k) <==> k < |s| && s[k] == c
  {
    if k < |s| {
      assert s[k..k + 1] == [s[k]];
    }
  }

  /** The search for one character from `start` finds its first occurrence there, or
      tells that there is none. */
  lemma FindCharFrom(s: string, c: char, start: nat)
    ensures Find(s, [c], start).None? <==> forall k :: start <= k < |s| ==> s[k] != c
    ensures Find(s, [c], start).Some? ==> var i := Find(s, [c], start).value;
              i < |s| && s[i] == c && forall k :: start <= k < i ==> s[k] != c
  {
    forall k: nat | k < |s| {
      OccursAtChar(s, c, k);
    }
    FindSpec(s, [c], start);
    match Find(s, [c], start)
    case None =>
    case Some(i) =>
      OccursAtChar(s, c, i);
  }

  /** The search for one character over the whole text. */
  lemma FindChar(s: string, c: char)
    ensures Find(s, [c], 0).None? <==> c !in s
    ensures Find(s, [c], 0).Some? ==> var i := Find(s, [c], 0).value;
              i < |s| && s[i] == c && c !in s[..i]
  {
    FindCharFrom(s, c, 0);
    match Find(s, [c], 0)
    case None =>
    case Some(i) =>
      assert forall k :: 0 <= k < i ==> s[..i][k] == s[k];
  }

  /** For a one-character pattern, occurring means containing the character. */
  lemma ContainsChar(s: string, c: char)
    ensures Contains(s, [c]) <==> c in s
  {
    FindChar(s, c);
  }

  // ---------------------------------------------------------------------------
  // Join and the two Split variants
  // ---------------------------------------------------------------------------

  /** `StringUtils::Join`: the parts with `d` between each neighbouring pair; `""` for
      no parts. */
  function Join(parts: seq<string>, d: string): (r: string)
    ensures |parts| == 0 ==> r == ""
    decreases |parts|
  {
    if |parts| == 0 then ""
    else if |parts| == 1 then parts[0]
    else parts[0] + d + Join(parts[1..], d)
  }

  /** `Join` of a part in front of a non-empty list. */
  lemma JoinCons(head: string, tail: seq<string>, d: string)
    requires |tail| >= 1
    ensures Join([head] + tail, d) == head + d + Join(tail, d)
  {
    assert ([head] + tail)[1..] == tail;
  }

  /** The loop of `StringUtils::Split(str, const std::string&)` from position `start`:
      each `find` from `start` closes a piece, the next search starts after the
      delimiter, and the text after the last delimiter is the final piece. The source
      loops forever on an empty `d` (see `SplitOnEmptyDelimiterNeverExits`), hence the
      precondition. */
  function SplitFrom(s: string, d: string, start: nat): (r: seq<string>)
    requires |d| > 0 && start <= |s|
    ensures |r| >= 1
    decreases |s| - start
  {
    match Find(s, d, start)
    case None => [s[start..]]
    case Some(e) => [s[start..e]] + SplitFrom(s, d, e + |d|)
  }

  /** `StringUtils::Split(str, const std::string&)`. */
  function SplitOn(s: string, d: string): (r: seq<string>)
    requires |d| > 0
    ensures |r| >= 1
    ensures Find(s, d, 0).None? ==> r == [s]
  {
    SplitFrom(s, d, 0)
  }

  /** Joining the pieces with the delimiter gives the text back. */
  lemma {:induction false} SplitFromRejoins(s: string, d: string, start: nat)
    requires |d| > 0 && start <= |s|
    ensures Join(SplitFrom(s, d, start), d) == s[start..]
    decreases |s| - start
  {
    match Find(s, d, start)
    case None =>
    case Some(e) =>
      FindSpec(s, d, start);
      SplitFromRejoins(s, d, e + |d|);
      RejoinStep(s, d, start, e, SplitFrom(s, d, e + |d|));
  }

  /** A piece, the delimiter that closed it and the join of the rest make up the
      text. */
  lemma RejoinStep(s: string, d: string, start: nat, e: nat, tail: seq<string>)
    requires start <= e && OccursAt(s, d, e) && |tail| >= 1
    requires Join(tail, d) == s[e + |d|..]
    ensures Join([s[start..e]] + tail, d) == s[start..]
  {
    JoinCons(s[start..e], tail, d);
    AroundOccurrence(s, d, start, e);
  }

  /** The text from `start` is what precedes an occurrence at `e`, the occurrence and
      what follows it. */
  lemma AroundOccurrence(s: string, d: string, start: nat, e: nat)
    requires start <= e && OccursAt(s, d, e)
    ensures s[start..] == s[start..e] + d + s[e + |d|..]
  {
    assert s[start..] == s[start..e] + s[e..e + |d|] + s[e + |d|..];
  }

  /** No piece has an occurrence of `d`. */
  ghost predicate PiecesFree(r: seq<string>, d: string) {
    forall k, j :: 0 <= k < |r| ==> !OccursAt(r[k], d, j)
  }

  /** A free piece in front of free pieces. */
  lemma PiecesFreeCons(head: string, tail: seq<string>, d: string)
    requires forall j :: !OccursAt(head, d, j)
    requires PiecesFree(tail, d)
    ensures PiecesFree([head] + tail, d)
  {
    var r := [head] + tail;
    assert forall k :: 1 <= k < |r| ==> r[k] == tail[k - 1];
  }

  /** No piece contains the delimiter. */
  lemma {:induction false} SplitFromPiecesFree(s: string, d: string, start: nat)
    requires |d| > 0 && start <= |s|
    ensures PiecesFree(SplitFrom(s, d, start), d)
    decreases |s| - start
  {
    FindSpec(s, d, start);
    match Find(s, d, start)
    case None =>
      forall j: nat | OccursAt(s[start..], d, j)
        ensures false
      {
        OccursInSuffix(s, d, start, j);
      }
      assert SplitFrom(s, d, start) == [s[start..]];
    case Some(e) =>
      SplitFromPiecesFree(s, d, e + |d|);
      SplitFromStep(s, d, start, e);
      forall j: nat | OccursAt(s[start..e], d, j)
        ensures false
      {
        OccursInSlice(s, d, start, e, j);
      }
      PiecesFreeCons(s[start..e], SplitFrom(s, d, e + |d|), d);
  }

  /** `StringUtils::Split(str, const std::string&)` cuts `s` into pieces free of the
      delimiter that join back to `s`. */
  lemma SplitOnSound(s: string, d: string)
    requires |d| > 0
    ensures |SplitOn(s, d)| >= 1
    ensures Join(SplitOn(s, d), d) == s
    ensures PiecesFree(SplitOn(s, d), d)
  {
    SplitFromRejoins(s, d, 0);
    SplitFromPiecesFree(s, d, 0);
  }

  /** With an empty delimiter the search of `Split(str, string)` always succeeds at
      `start` and the next start is `start + 0`: the loop never exits. */
  lemma SplitOnEmptyDelimiterNeverExits(s: string, start: nat)
    requires start <= |s|
    ensures Find(s, "", start) == Some(start)
    ensures start + |""| == start
  {
  }

  /** Drop the last piece when it is empty. */
  function DropTrailingEmpty(pieces: seq<string>): seq<string> {
    if |pieces| > 0 && pieces[|pieces| - 1] == "" then pieces[..|pieces| - 1] else pieces
  }

  /** Dropping a trailing empty piece does not touch the first piece of a longer
      list. */
  lemma DropTrailingEmptyCons(head: string, tail: seq<string>)
    requires |tail| >= 1
    ensures DropTrailingEmpty([head] + tail) == [head] + DropTrailingEmpty(tail)
  {
    var l := [head] + tail;
    assert l[|l| - 1] == tail[|tail| - 1];
    assert l[..|l| - 1] == [head] + tail[..|tail| - 1];
  }

  /** The `std::getline` loop of `StringUtils::Split(str, char)` from position
      `start`: a read at the end of the input fails; otherwise the token runs up to the
      next `d`, which is consumed, or to the end of the input. So an empty input gives
      no token and a final `d` opens no further token. */
  function SplitCharFrom(s: string, d: char, start: nat): (r: seq<string>)
    requires start <= |s|
    ensures start == |s| <==> r == []
    decreases |s| - start
  {
    if start == |s| then []
    else
      match Find(s, [d], start)
      case None => [s[start..]]
      case Some(i) =>
        FindCharFrom(s, d, start);
        [s[start..i]] + SplitCharFrom(s, d, i + 1)
  }

  /** `StringUtils::Split(str, char)`. */
  function Split(s: string, d: char): (r: seq<string>)
    ensures s == "" <==> r == []
  {
    SplitCharFrom(s, d, 0)
  }

  /** No part contains the character `c`. */
  predicate FreeOf(parts: seq<string>, c: char) {
    forall k :: 0 <= k < |parts| ==> c !in parts[k]
  }

  /** A part free of `c` in front of parts free of `c`. */
  lemma FreeOfCons(head: string, tail: seq<string>, c: char)
    requires c !in head && FreeOf(tail, c)
    ensures FreeOf([head] + tail, c)
  {
    var r := [head] + tail;
    assert forall k :: 1 <= k < |r| ==> r[k] == tail[k - 1];
  }

  /** A stretch of the text without `c` is a slice without `c`. */
  lemma CharAbsent(s: string, c: char, a: nat, b: nat)
    requires a <= b <= |s|
    requires forall k :: a <= k < b ==> s[k] != c
    ensures c !in s[a..b]
  {
    assert forall k :: 0 <= k < b - a ==> s[a..b][k] == s[a + k];
  }

  /** The same for a suffix. */
  lemma CharAbsentSuffix(s: string, c: char, a: nat)
    requires a <= |s|
    requires forall k :: a <= k < |s| ==> s[k] != c
    ensures c !in s[a..]
  {
    CharAbsent(s, c, a, |s|);
    assert s[a..|s|] == s[a..];
  }

  /** `SplitCharFrom` unfolded at a found delimiter. */
  lemma SplitCharFromStep(s: string, d: char, start: nat, i: nat)
    requires start < |s| && Find(s, [d], start) == Some(i)
    ensures i < |s|
    ensures SplitCharFrom(s, d, start) == [s[start..i]] + SplitCharFrom(s, d, i + 1)
  {
    FindCharFrom(s, d, start);
  }

  /** No token of the character split contains the delimiter. */
  lemma {:induction false} SplitCharFromPiecesFree(s: string, d: char, start: nat)
    requires start <= |s|
    ensures FreeOf(SplitCharFrom(s, d, start), d)
    decreases |s| - start
  {
    if start < |s| {
      FindCharFrom(s, d, start);
      match Find(s, [d], start)
      case None =>
        CharAbsentSuffix(s, d, start);
        assert SplitCharFrom(s, d, start) == [s[start..]];
      case Some(i) =>
        SplitCharFromPiecesFree(s, d, i + 1);
        SplitCharFromStep(s, d, start, i);
        CharAbsent(s, d, start, i);
        FreeOfCons(s[start..i], SplitCharFrom(s, d, i + 1), d);
    }
  }

  /** The two Split variants differ only at the end: from any position, the character
      split is the string split by that one character, minus a last empty piece. An
      empty piece in the middle or at the start is kept. */
  lemma {:induction false} SplitCharFromIsSplitFrom(s: string, d: char, start: nat)
    requires start <= |s|
    ensures SplitCharFrom(s, d, start) == DropTrailingEmpty(SplitFrom(s, [d], start))
    decreases |s| - start
  {
    if start == |s| {
      assert Find(s, [d], start) == None;
      assert SplitFrom(s, [d], start) == [s[start..]];
    } else {
      match Find(s, [d], start)
      case None =>
        assert SplitFrom(s, [d], start) == [s[start..]];
        assert SplitCharFrom(s, d, start) == [s[start..]];
      case Some(i) =>
        SplitFromStep(s, [d], start, i);
        SplitCharFromStep(s, d, start, i);
        SplitCharFromIsSplitFrom(s, d, i + 1);
        DropTrailingEmptyCons(s[start..i], SplitFrom(s, [d], i + 1));
    }
  }

  /** The character split is the string split by that character, minus a last empty
      piece. */
  lemma SplitIsSplitOnWithoutTrailingEmpty(s: string, d: char)
    ensures Split(s, d) == DropTrailingEmpty(SplitOn(s, [d]))
  {
    SplitCharFromIsSplitFrom(s, d, 0);
  }

  /** Counting a character across its first occurrence. */
  lemma CountAcrossOccurrence(s: string, c: char, start: nat, i: nat)
    requires start <= i < |s| && s[i] == c
    requires forall k :: start <= k < i ==> s[k] != c
    ensures multiset(s[start..])[c] == 1 + multiset(s[i + 1..])[c]
  {
    var head := s[start..i];
    CharAbsent(s, c, start, i);
    assert multiset(head)[c] == 0;
    assert s[start..] == head + [c] + s[i + 1..];
    assert multiset(s[start..]) == multiset(head) + multiset([c]) + multiset(s[i + 1..]);
  }

  /** The string split by one character, from `start`, yields one more piece than
      there are occurrences of that character from `start` on. */
  lemma {:induction false} SplitFromCharCount(s: string, c: char, start: nat)
    requires start <= |s|
    ensures |SplitFrom(s, [c], start)| == multiset(s[start..])[c] + 1
    decreases |s| - start
  {
    FindCharFrom(s, c, start);
    match Find(s, [c], start)
    case None =>
      CharAbsentSuffix(s, c, start);
      assert multiset(s[start..])[c] == 0;
    case Some(i) =>
      SplitFromStep(s, [c], start, i);
      SplitFromCharCount(s, c, i + 1);
      CountAcrossOccurrence(s, c, start, i);
  }

  /** `Split(str, string)` by one character yields one more piece than there are
      occurrences of that character. */
  lemma SplitOnCharCount(s: string, c: char)
    ensures |SplitOn(s, [c])| == multiset(s)[c] + 1
  {
    SplitFromCharCount(s, c, 0);
    assert s[0..] == s;
  }

  /** A character that occurs in no part and is not the delimiter does not occur in
      the join. */
  lemma {:induction false} JoinFreeOf(parts: seq<string>, d: char, c: char)
    requires FreeOf(parts, c) && d != c
    ensures c !in Join(parts, [d])
    decreases |parts|
  {
    if |parts| >= 2 {
      JoinFreeOf(parts[1..], d, c);
      assert c !in parts[0];
    } else if |parts| == 1 {
      assert c !in parts[0];
    }
  }

  /** Appending a part to a non-empty list appends the delimiter and the part. */
  lemma {:induction false} JoinSnoc(parts: seq<string>, x: string, d: string)
    requires |parts| >= 1
    ensures Join(parts + [x], d) == Join(parts, d) + d + x
    decreases |parts|
  {
    if |parts| >= 2 {
      assert (parts + [x])[1..] == parts[1..] + [x];
      JoinSnoc(parts[1..], x, d);
    } else {
      assert (parts + [x])[1..] == [x];
    }
  }

  /** The join of parts of which the last is not empty does not end empty-handed: it
      is not empty and ends with the last part's last character. */
  lemma {:induction false} JoinLast(parts: seq<string>, d: string)
    requires |parts| >= 1 && parts[|parts| - 1] != ""
    ensures var r := Join(parts, d);
            r != "" && r[|r| - 1] == parts[|parts| - 1][|parts[|parts| - 1]| - 1]
    decreases |parts|
  {
    if |parts| >= 2 {
      JoinLast(parts[1..], d);
    }
  }

  /** Where the text from `start` on is a join, the first delimiter from `start` closes
      the first part. */
  lemma FindInJoin(s: string, start: nat, parts: seq<string>, c: char)
    requires |parts| >= 2 && FreeOf(parts, c)
    requires start <= |s| && s[start..] == Join(parts, [c])
    ensures start + |parts[0]| < |s|
    ensures Find(s, [c], start) == Some(start + |parts[0]|)
    ensures s[start..start + |parts[0]|] == parts[0]
    ensures s[start + |parts[0]| + 1..] == Join(parts[1..], [c])
  {
    var p0 := parts[0];
    var rest := Join(parts[1..], [c]);
    assert s[start..] == p0 + [c] + rest;
    assert forall k :: 0 <= k < |p0| ==> s[start + k] == s[start..][k] == p0[k];
    assert c !in p0;
    assert s[start + |p0|] == s[start..][|p0|] == c;
    FindCharFrom(s, c, start);
    assert s[start..start + |p0|] == s[start..][..|p0|];
    assert s[start + |p0| + 1..] == s[start..][|p0| + 1..];
  }

  /** Where the text from `start` on is a join of parts free of `c`, splitting from
      `start` by `c` gives the parts back. */
  lemma {:induction false} SplitFromJoin(s: string, start: nat, parts: seq<string>, c: char)
    requires |parts| >= 1 && FreeOf(parts, c)
    requires start <= |s| && s[start..] == Join(parts, [c])
    ensures SplitFrom(s, [c], start) == parts
    decreases |parts|
  {
    if |parts| == 1 {
      FindCharFrom(s, c, start);
      assert forall k :: start <= k < |s| ==> s[k] == s[start..][k - start];
    } else {
      FindInJoin(s, start, parts, c);
      SplitFromJoin(s, start + |parts[0]| + 1, parts[1..], c);
      assert parts == [parts[0]] + parts[1..];
    }
  }

  /** Splitting a join by a character that occurs in no part gives the parts back. */
  lemma SplitOnJoin(parts: seq<string>, c: char)
    requires |parts| >= 1
    requires FreeOf(parts, c)
    ensures SplitOn(Join(parts, [c]), [c]) == parts
  {
    var s := Join(parts, [c]);
    assert s[0..] == s;
    SplitFromJoin(s, 0, parts, c);
  }

  /** The getline-based split round-trips a join too, provided the last part is not
      empty (an empty last part would be the dropped trailing piece). */
  lemma SplitJoin(parts: seq<string>, c: char)
    requires |parts| >= 1 && parts[|parts| - 1] != ""
    requires FreeOf(parts, c)
    ensures Split(Join(parts, [c]), c) == parts
  {
    SplitIsSplitOnWithoutTrailingEmpty(Join(parts, [c]), c);
    SplitOnJoin(parts, c);
    DropTrailingEmptyKeeps(parts);
  }

  /** A list whose last piece is not empty loses nothing. */
  lemma DropTrailingEmptyKeeps(parts: seq<string>)
    requires |parts| >= 1 && parts[|parts| - 1] != ""
    ensures DropTrailingEmpty(parts) == parts
  {
  }

  /** The case of the library's unit test (tests/unit/test_utils_basic.cpp):
      "a,b,c,d" splits into four letters. */
  lemma SplitExample()
    ensures Split("a,b,c,d", ',') == ["a", "b", "c", "d"]
  {
    var parts := ["a", "b", "c", "d"];
    assert Join(parts, [',']) == "a,b,c,d";
    SplitJoin(parts, ',');
  }

  // ---------------------------------------------------------------------------
  // Case mapping, trimming, prefix and suffix tests
  // ---------------------------------------------------------------------------

  predicate IsUpper(c: char) { 'A' <= c <= 'Z' }
  predicate IsLower(c: char) { 'a' <= c <= 'z' }

  /** `std::tolower` in the "C" locale. */
  function LowerChar(c: char): char {
    if IsUpper(c) then (c as int + 32) as char else c
  }

  /** `std::toupper` in the "C" locale. */
  function UpperChar(c: char): char {
    if IsLower(c) then (c as int - 32) as char else c
  }

  /** `StringUtils::ToLower`: same length, every upper-case ASCII letter replaced by its
      lower-case partner, every other character kept. */
  function ToLower(s: string): (r: string)
    ensures |r| == |s|
    ensures forall k :: 0 <= k < |s| && IsUpper(s[k]) ==> r[k] as int == s[k] as int + 32
    ensures forall k :: 0 <= k < |s| && !IsUpper(s[k]) ==> r[k] == s[k]
    ensures forall k :: 0 <= k < |r| ==> !IsUpper(r[k])
    decreases |s|
  {
    if |s| == 0 then "" else [LowerChar(s[0])] + ToLower(s[1..])
  }

  /** `StringUtils::ToUpper`: the mirror image of `ToLower`. */
  function ToUpper(s: string): (r: string)
    ensures |r| == |s|
    ensures forall k :: 0 <= k < |s| && IsLower(s[k]) ==> r[k] as int == s[k] as int - 32
    ensures forall k :: 0 <= k < |s| && !IsLower(s[k]) ==> r[k] == s[k]
    ensures forall k :: 0 <= k < |r| ==> !IsLower(r[k])
    decreases |s|
  {
    if |s| == 0 then "" else [UpperChar(s[0])] + ToUpper(s[1..])
  }

  /** Lower-casing is idempotent and forgets an upper-casing. */
  lemma LowerAbsorbs(s: string)
    ensures ToLower(ToLower(s)) == ToLower(s)
    ensures ToLower(ToUpper(s)) == ToLower(s)
  {
  }

  /** The six characters `Trim` strips: space, tab, newline, carriage return, form feed
      and vertical tab. */
  predicate IsSpace(c: char) {
    c == ' ' || c == '\t' || c == '\n' || c == '\r' || c == '\U{000C}' || c == '\U{000B}'
  }

  predicate AllSpace(s: string) {
    forall k :: 0 <= k < |s| ==> IsSpace(s[k])
  }

  /** `find_first_not_of(whitespace)`. */
  function FirstNotSpace(s: string, from: nat): (r: Option<nat>)
    ensures r.Some? ==> from <= r.value < |s| && !IsSpace(s[r.value])
    ensures r.Some? ==> forall k :: from <= k < r.value ==> IsSpace(s[k])
    ensures r.None? ==> forall k :: from <= k < |s| ==> IsSpace(s[k])
    decreases |s| - from
  {
    if from >= |s| then None
    else if !IsSpace(s[from]) then Some(from)
    else FirstNotSpace(s, from + 1)
  }

  /** `find_last_not_of(whitespace)` over the prefix of length `upto`. */
  function LastNotSpace(s: string, upto: nat): (r: Option<nat>)
    requires upto <= |s|
    ensures r.Some? ==> r.value < upto && !IsSpace(s[r.value])
    ensures r.Some? ==> forall k :: r.value < k < upto ==> IsSpace(s[k])
    ensures r.None? ==> forall k :: 0 <= k < upto ==> IsSpace(s[k])
  {
    if upto == 0 then None
    else if !IsSpace(s[upto - 1]) then Some(upto - 1)
    else LastNotSpace(s, upto - 1)
  }

  /** `StringUtils::Trim`: the contiguous part of `s` left after removing whitespace at
      both ends; `""` exactly when `s` is all whitespace. */
  function Trim(s: string): (r: string)
    ensures r == "" <==> AllSpace(s)
    ensures r != "" ==> !IsSpace(r[0]) && !IsSpace(r[|r| - 1])
    ensures exists i :: 0 <= i <= |s| - |r| && r == s[i..i + |r|]
                        && AllSpace(s[..i]) && AllSpace(s[i + |r|..])
  {
    match FirstNotSpace(s, 0)
    case None =>
      assert AllSpace(s[..0]) && AllSpace(s[0..]);
      ""
    case Some(start) =>
      var last := LastNotSpace(s, |s|);
      assert last.Some?;
      var end := last.value;
      var r := s[start..end + 1];
      assert AllSpace(s[..start]);
      assert AllSpace(s[start + |r|..]);
      r
  }

  /** A text that neither starts nor ends with whitespace is its own trim. */
  lemma TrimKeeps(t: string)
    requires t != "" && !IsSpace(t[0]) && !IsSpace(t[|t| - 1])
    ensures Trim(t) == t
  {
    assert FirstNotSpace(t, 0) == Some(0);
    assert LastNotSpace(t, |t|) == Some(|t| - 1);
    assert t[0..|t|] == t;
  }

  /** Trimming twice is trimming once. */
  lemma TrimIdempotent(s: string)
    ensures Trim(Trim(s)) == Trim(s)
  {
    var t := Trim(s);
    if t != "" {
      TrimKeeps(t);
    }
  }

  /** Text with whitespace only around it trims to itself. */
  lemma TrimSurrounded(a: string, t: string, b: string)
    requires AllSpace(a) && AllSpace(b)
    requires t != "" && !IsSpace(t[0]) && !IsSpace(t[|t| - 1])
    ensures Trim(a + t + b) == t
  {
    var s := a + t + b;
    var first := |a|;
    var last := |a| + |t| - 1;
    assert s[first] == t[0] && s[last] == t[|t| - 1];
    assert forall k :: 0 <= k < first ==> s[k] == a[k];
    assert forall k :: last < k < |s| ==> s[k] == b[k - |a| - |t|];
    var f := FirstNotSpace(s, 0);
    assert f == Some(first);
    var l := LastNotSpace(s, |s|);
    assert l == Some(last);
    assert s[first..last + 1] == t;
  }

  /** The case of the library's unit test (tests/unit/test_utils_basic.cpp). */
  lemma TrimExample()
    ensures Trim("  hello world  ") == "hello world"
  {
    assert "  hello world  " == "  " + "hello world" + "  ";
    TrimSurrounded("  ", "hello world", "  ");
  }

  /** `StringUtils::StartsWith`: true exactly when `prefix` is a prefix of `s`. */
  function StartsWith(s: string, prefix: string): (r: bool)
    ensures r <==> prefix <= s
  {
    |s| >= |prefix| && s[..|prefix|] == prefix
  }

  /** `StringUtils::EndsWith`: true exactly when `s` is some text followed by `suffix`. */
  function EndsWith(s: string, suffix: string): (r: bool)
    ensures r <==> |suffix| <= |s| && s == s[..|s| - |suffix|] + suffix
  {
    |s| >= |suffix| && s[|s| - |suffix|..] == suffix
  }

  /** The converse halves: any text starts with what it is built from, and so ends;
      the empty string is always accepted. */
  lemma PrefixSuffixAccepted(p: string, t: string)
    ensures StartsWith(p + t, p) && EndsWith(t + p, p)
    ensures StartsWith(t, "") && EndsWith(t, "")
  {
    assert (t + p)[|t + p| - |p|..] == p;
  }


  // ---------------------------------------------------------------------------
  // Replace
  // ---------------------------------------------------------------------------

  /** Reference semantics of `StringUtils::Replace` over the ORIGINAL text, from
      position `start`: every occurrence found left to right is replaced by `to`, and
      the search resumes after the occurrence, so inserted text is never searched. */
  function ReplaceFrom(s: string, from: string, to: string, start: nat): string
    requires |from| > 0 && start <= |s|
    decreases |s| - start
  {
    match Find(s, from, start)
    case None => s[start..]
    case Some(p) => s[start..p] + to + ReplaceFrom(s, from, to, p + |from|)
  }

  function ReplaceAll(s: string, from: string, to: string): string
    requires |from| > 0
  {
    ReplaceFrom(s, from, to, 0)
  }

  /** Replacing is joining the pieces of the string-delimiter split with the
      replacement. */
  lemma {:induction false} ReplaceFromIsJoinOfSplit(s: string, from: string, to: string, start: nat)
    requires |from| > 0 && start <= |s|
    ensures ReplaceFrom(s, from, to, start) == Join(SplitFrom(s, from, start), to)
    decreases |s| - start
  {
    match Find(s, from, start)
    case None =>
    case Some(p) =>
      ReplaceFromIsJoinOfSplit(s, from, to, p + |from|);
      SplitFromStep(s, from, start, p);
      ReplaceFromStep(s, from, to, start, p);
      JoinCons(s[start..p], SplitFrom(s, from, p + |from|), to);
  }

  /** `ReplaceFrom` unfolded at a found occurrence. */
  lemma ReplaceFromStep(s: string, from: string, to: string, start: nat, p: nat)
    requires |from| > 0 && start <= |s| && Find(s, from, start) == Some(p)
    ensures p + |from| <= |s|
    ensures ReplaceFrom(s, from, to, start) == s[start..p] + to + ReplaceFrom(s, from, to, p + |from|)
  {
  }

  /** `SplitFrom` unfolded at a found delimiter. */
  lemma SplitFromStep(s: string, d: string, start: nat, e: nat)
    requires |d| > 0 && start <= |s| && Find(s, d, start) == Some(e)
    ensures e + |d| <= |s|
    ensures SplitFrom(s, d, start) == [s[start..e]] + SplitFrom(s, d, e + |d|)
  {
  }

  /** `ReplaceAll` is `Join(Split(s, from), to)`. */
  lemma ReplaceIsJoinOfSplit(s: string, from: string, to: string)
    requires |from| > 0
    ensures ReplaceAll(s, from, to) == Join(SplitOn(s, from), to)
  {
    ReplaceFromIsJoinOfSplit(s, from, to, 0);
  }

  /** Two texts agreeing from `i` and `j` on agree from `i + k` and `j + k` on, and on
      the `k` characters in between. */
  lemma SuffixesAgree(s: string, u: string, i: nat, j: nat, k: nat)
    requires i + k <= |s| && j <= |u| && s[i..] == u[j..]
    ensures j + k <= |u|
    ensures s[i + k..] == u[j + k..]
    ensures s[i..i + k] == u[j..j + k]
  {
    assert s[i + k..] == s[i..][k..];
    assert u[j + k..] == u[j..][k..];
    assert s[i..i + k] == s[i..][..k];
    assert u[j..j + k] == u[j..][..k];
  }

  /** The text after splicing `to` over `m` characters at `p`: everything before the
      splice point and everything after the inserted text. */
  lemma SpliceParts(s: string, to: string, start: nat, p: nat, m: nat)
    requires start <= p && p + m <= |s|
    ensures var next := s[..p] + to + s[p + m..];
            p + |to| <= |next|
            && next[..p + |to|] == s[..start] + s[start..p] + to
            && next[p + |to|..] == s[p + m..]
  {
    var next := s[..p] + to + s[p + m..];
    assert s[..p] == s[..start] + s[start..p];
    assert next[..p + |to|] == s[..p] + to;
  }

  /** Regrouping a concatenation. */
  lemma Regroup(a: string, b: string, to: string, tail: string)
    ensures (a + b + to) + tail == a + (b + to + tail)
  {
  }

  /** The texts of one turn of the replacement loop, without the replacement itself:
      after splicing `to` over the occurrence at `p`, the new text agrees with the
      original from just after the occurrence, and its done part has grown by the
      original text up to the occurrence and `to`. */
  lemma SpliceAligned(s: string, result: string, from: string, to: string,
                      start: nat, k: nat, p: nat, next: string)
    requires |from| > 0 && start <= |result| && k <= |s| && result[start..] == s[k..]
    requires Find(result, from, start) == Some(p)
    requires p + |from| <= |result| && next == result[..p] + to + result[p + |from|..]
    ensures Find(s, from, k) == Some(p - start + k)
    ensures p - start + k + |from| <= |s|
    ensures p + |to| <= |next|
    ensures next[p + |to|..] == s[p - start + k + |from|..]
    ensures next[..p + |to|] == result[..start] + s[k..p - start + k] + to
  {
    FindAligned(result, s, from, start, k);
    SuffixesAgree(result, s, start, k, p - start + |from|);
    SuffixesAgree(result, s, start, k, p - start);
    SpliceParts(result, to, start, p, |from|);
  }

  /** The loop invariant of `Replace`: `result` is the done part (its first `start`
      characters) followed by the untouched rest of the original, from `k` on, and the
      done part followed by the reference replacement of that rest is `goal`, the
      reference replacement of the whole. */
  ghost predicate ReplaceInvariant(s: string, from: string, to: string, goal: string,
                                   result: string, start: nat, k: nat)
    requires |from| > 0
  {
    start <= |result| && k <= |s| && result[start..] == s[k..]
    && result[..start] + ReplaceFrom(s, from, to, k) == goal
  }

  /** Before the first turn, nothing is done. */
  lemma ReplaceInit(s: string, from: string, to: string)
    requires |from| > 0
    ensures ReplaceInvariant(s, from, to, ReplaceAll(s, from, to), s, 0, 0)
  {
    assert s[..0] + ReplaceFrom(s, from, to, 0) == ReplaceFrom(s, from, to, 0);
  }

  /** One turn of the replacement loop: splicing `to` over the occurrence found at `p`
      keeps the invariant, with the done part grown past the inserted text. */
  lemma ReplaceStep(s: string, from: string, to: string, goal: string,
                    result: string, start: nat, k: nat, p: nat,
                    next: string, nextStart: nat, nextK: nat)
    requires |from| > 0 && ReplaceInvariant(s, from, to, goal, result, start, k)
    requires Find(result, from, start) == Some(p)
    requires p + |from| <= |result| && next == result[..p] + to + result[p + |from|..]
    requires nextStart == p + |to| && nextK == p - start + k + |from|
    ensures ReplaceInvariant(s, from, to, goal, next, nextStart, nextK)
    ensures |next| - nextStart < |result| - start
  {
    StepParts(s, from, to, goal, result, start, k, p, next, nextStart, nextK);
  }

  /** `ReplaceStep`, conjunct by conjunct. */
  lemma StepParts(s: string, from: string, to: string, goal: string,
                  result: string, start: nat, k: nat, p: nat,
                  next: string, nextStart: nat, nextK: nat)
    requires |from| > 0 && start <= |result| && k <= |s| && result[start..] == s[k..]
    requires result[..start] + ReplaceFrom(s, from, to, k) == goal
    requires Find(result, from, start) == Some(p)
    requires p + |from| <= |result| && next == result[..p] + to + result[p + |from|..]
    requires nextStart == p + |to| && nextK == p - start + k + |from|
    ensures nextStart <= |next| && nextK <= |s| && next[nextStart..] == s[nextK..]
    ensures next[..nextStart] + ReplaceFrom(s, from, to, nextK) == goal
    ensures |next| - nextStart < |result| - start
  {
    SpliceAligned(s, result, from, to, start, k, p, next);
    ReplacedPrefix(s, from, to, k, p - start + k, result[..start], next[..nextStart]);
  }

  /** The reference replacement from `k`, with its first occurrence `q` replaced in
      front. */
  lemma ReplacedPrefix(s: string, from: string, to: string, k: nat, q: nat, done: string, prefix: string)
    requires |from| > 0 && k <= |s| && Find(s, from, k) == Some(q)
    requires prefix == done + s[k..q] + to
    ensures q + |from| <= |s|
    ensures prefix + ReplaceFrom(s, from, to, q + |from|) == done + ReplaceFrom(s, from, to, k)
  {
    ReplaceFromStep(s, from, to, k, q);
    Regroup(done, s[k..q], to, ReplaceFrom(s, from, to, q + |from|));
  }

  /** When the search fails, the invariant says the text is the whole replacement. */
  lemma ReplaceDone(s: string, from: string, to: string, goal: string,
                    result: string, start: nat, k: nat)
    requires |from| > 0 && ReplaceInvariant(s, from, to, goal, result, start, k)
    requires Find(result, from, start).None?
    ensures result == goal
  {
    FindAligned(result, s, from, start, k);
    assert ReplaceFrom(s, from, to, k) == s[k..];
    assert result == result[..start] + result[start..];
  }

  /** Without an occurrence, replacing changes nothing. */
  lemma ReplaceWithoutOccurrence(s: string, from: string, to: string)
    requires |from| > 0
    ensures !Contains(s, from) ==> ReplaceAll(s, from, to) == s
  {
    assert s[0..] == s;
  }

  /** One turn of `Replace`'s loop: splice `to` over the occurrence at `p` and move
      the search start past the inserted text. */
  method ReplaceTurn(ghost s: string, from: string, to: string, ghost goal: string,
                     result: string, start: nat, ghost k: nat, p: nat)
    returns (next: string, nextStart: nat, ghost nextK: nat)
    requires |from| > 0 && ReplaceInvariant(s, from, to, goal, result, start, k)
    requires Find(result, from, start) == Some(p)
    ensures ReplaceInvariant(s, from, to, goal, next, nextStart, nextK)
    ensures |next| - nextStart < |result| - start
  {
    next := result[..p] + to + result[p + |from|..];
    nextStart := p + |to|;
    nextK := p - start + k + |from|;
    ReplaceStep(s, from, to, goal, result, start, k, p, next, nextStart, nextK);
  }

  /** `StringUtils::Replace`, with the source's loop: search from `start`, splice `to`
      in, and continue after the inserted text. An empty `from` makes the source loop
      forever (see `ReplaceEmptyFromNeverExits`), hence the precondition. */
  method Replace(s: string, from: string, to: string) returns (result: string)
    requires |from| > 0
    ensures result == ReplaceAll(s, from, to)
    ensures !Contains(s, from) ==> result == s
  {
    result := s;
    var start: nat := 0;
    ghost var k: nat := 0;
    ghost var goal := ReplaceAll(s, from, to);
    ReplaceInit(s, from, to);
    var pos := Find(result, from, start);
    while pos.Some?
      invariant ReplaceInvariant(s, from, to, goal, result, start, k)
      invariant pos == Find(result, from, start)
      decreases |result| - start
    {
      result, start, k := ReplaceTurn(s, from, to, goal, result, start, k, pos.value);
      pos := Find(result, from, start);
    }
    ReplaceDone(s, from, to, goal, result, start, k);
    ReplaceWithoutOccurrence(s, from, to);
  }

  /** With an empty `from` the search of `Replace` always succeeds at `start`, and the
      splice grows the text by exactly as much as `start` advances, so the loop never
      exits, whatever `to` is. */
  lemma ReplaceEmptyFromNeverExits(result: string, start: nat, to: string)
    requires start <= |result|
    ensures Find(result, "", start) == Some(start)
    ensures var next := result[..start] + to + result[start..];
            |next| - (start + |to|) == |result| - start
            && Find(next, "", start + |to|) == Some(start + |to|)
  {
  }
}

=== FILE: wrappers.dfy ===
/** Failure-carrying datatypes shared by every module of the model:
    `Option` stands for `std::optional` and for nullable pointers,
    `Result` for an operation that can throw. */
module Wrappers {

  datatype Option<+T> = None | Some(value: T) {

    /** The encapsulated value, or `default` when there is none. */
    function GetOr(default: T): T {
      match this
      case Some(v) => v
      case None => default
    }
  }

  datatype Result<+R, +E> = Success(value: R) | Failure(error: E) {

    predicate IsFailure() {
      Failure?
    }

    function PropagateFailure<U>(): Result<U, E>
      requires Failure?
    {
      Failure(error)
    }

    function Extract(): R
      requires Success?
    {
      value
    }
  }
}
